=== FILE: README.md ===
# privylens redaction core in Dafny

privylens masks personal data before text or images are sent to a language model. This project
models the core of its redaction and streaming paths as pure Dafny functions, and proves what
they promise:

- **Text redaction** (`packages/redaction-text`). The three regular expressions for e-mail
  addresses, phone numbers and card numbers are modelled as the sets of strings they match.
  Modules: `Patterns`, then `Matcher` (the global `exec` loop of `collectMatches`), then
  `Sorting`, `Merge`, `MergeGroups` and `MergeProperties` (`mergeAndSortSpans`), then `Masking`
  (building the masked string), and finally `TextRedactor` (`basicRedactText` with its policy
  defaults). Modules `SampleText` and `RedactExample` work the redactor's test sentence through
  all of these, for every choice of match ends.
- **Policy gate** (`apps/server/src/utils/policy.ts`, module `PolicyGate`). `ensureMasked` uses
  the same three patterns. It passes exactly when the default-policy redactor finds nothing.
- **Server image redaction** (`packages/redaction-image`, modules `Raster` and `ServerImage`).
  These model the pixel-size clamp, the default box and the box-clamping loop, over an abstract
  `pixelate` and `composite`.
- **Browser image redaction** (`apps/web/src/lib/redact.ts` and `FaceRedactor.tsx`, modules
  `WebPixelate` and `FaceMargin`). These model the normalised-box-to-pixel arithmetic of
  `pixelateRegions` and the margins added around detected faces.
- **Masked-text views** (`RedactedText.tsx` and `AnimatedTextRedaction.tsx`, modules
  `MaskedParts` and `AnimatedText`). These model `parseRedactedText`, the `split` of
  `StaticRedactedText` with its label lookup, and the segment list of the animated view.
- **LLM streaming.**
  - Module `LlmProxy` models the server's `/proxy` handler: validation, the gate, the
    conversation sent to the model, and the server-sent-event framing.
  - Module `SseClient` models the browser's line-buffering decoder in `streamLLMResponse`.
  - An end-to-end lemma connects the two for every way the network may cut the response into
    chunks.
- **Client odds and ends.**
  - Module `ImageResize` models the resize in `blobUrlToBase64`.
  - Module `PolicyToggles` models the policy popover's switch list and `toggle`.

Text is `seq<char>`, one element per UTF-16 code unit. `JsString.Slice` reproduces the index
clamping of `String.prototype.slice`. Floating-point values are Dafny `real`s: `Math.floor` is
`.Floor` and `Math.ceil` is `WebPixelate.Ceil`.

## Model

| member | source | states |
|---|---|---|
| Patterns.MatchNonEmpty | privylens/packages/redaction-text/src/index.ts:17-19 | No match of any of the three patterns is empty. |
| Patterns.MatchHasTrigger | privylens/packages/redaction-text/src/index.ts:17-19 | Every match contains an `@` or a decimal digit. |
| Patterns.EmailHasAt | privylens/packages/redaction-text/src/index.ts:17 | Every e-mail match contains `@`. |
| Patterns.PhoneHasDigit | privylens/packages/redaction-text/src/index.ts:18 | Every phone match contains a digit. |
| Patterns.CardHasDigit | privylens/packages/redaction-text/src/index.ts:19 | Every card match contains a digit. |
| Patterns.NoTriggerCharsNoMatch | privylens/apps/server/src/utils/policy.ts:10-12 | Text with neither `@` nor a digit contains no match of any pattern. |
| Matcher.LeftmostStartSpec | privylens/packages/redaction-text/src/index.ts:25 | `exec` from `lastIndex` starts at the least position where a match starts, and finds nothing only when no position from `lastIndex` on starts one. |
| Matcher.Exec | privylens/packages/redaction-text/src/index.ts:25 | A match `exec` reports starts at or after `lastIndex` and does not end before it starts. |
| Matcher.ExecSpec | privylens/packages/redaction-text/src/index.ts:25-27 | A reported match is a genuine match inside the text. No earlier start from `lastIndex` matches. `null` comes back exactly when nothing matches from `lastIndex` on. |
| Matcher.Collect | privylens/packages/redaction-text/src/index.ts:21-31 | Every recorded span starts at or after the starting index and does not end before it starts. The loop terminates, including on empty matches. |
| Matcher.CollectMember | privylens/packages/redaction-text/src/index.ts:21-31 | Every recorded span is a match of the pattern and lies inside the text. |
| Matcher.CollectOrdered | privylens/packages/redaction-text/src/index.ts:21-31 | Recorded spans come in strictly increasing start order and do not overlap. |
| Matcher.CollectComplete | privylens/packages/redaction-text/src/index.ts:25-29 | Every position where a match starts lies in the scan window of some recorded match. |
| Matcher.CollectEmptyIff | privylens/packages/redaction-text/src/index.ts:21-31 | Nothing is recorded if and only if the pattern matches nowhere. |
| Sorting.SortBy | privylens/packages/redaction-text/src/index.ts:35 | The sorted copy is a permutation of the input. |
| Sorting.SortBySorted | privylens/packages/redaction-text/src/index.ts:35 | The sorted copy is ordered by the comparator's key. |
| Sorting.SortByStable | privylens/apps/web/src/components/AnimatedTextRedaction.tsx:35 | Elements with equal keys keep their relative order, as `Array.prototype.sort` guarantees. |
| Spans.Placeholder | privylens/packages/redaction-text/src/index.ts:74 | The placeholder written in place of a span is the label's name enclosed in square brackets. |
| Spans.PlaceholderInjective | privylens/packages/redaction-text/src/index.ts:74 | Distinct labels give distinct placeholders. |
| Merge.MergeKeySortedByStart | privylens/packages/redaction-text/src/index.ts:35 | Sorting with `a.start - b.start \|\| b.end - a.end` orders the spans by start. |
| Merge.StepShape | privylens/packages/redaction-text/src/index.ts:38-49 | One loop iteration keeps the merged list separated, and moves its last end to the larger of the two ends. |
| Merge.StepCovers | privylens/packages/redaction-text/src/index.ts:43-49 | After one iteration the covered positions are the old ones plus those of the new span. |
| Merge.Step | privylens/packages/redaction-text/src/index.ts:38-49 | One iteration never shrinks the merged list, adds at most one span, leaves it non-empty, and leaves every span except the last one untouched. |
| Merge.MergeSorted | privylens/packages/redaction-text/src/index.ts:36-51 | The fold returns no more spans than it was given, and none exactly when it was given none. |
| Merge.MergeShape | privylens/packages/redaction-text/src/index.ts:36-51 | Folding a start-sorted list gives strictly separated spans, no more of them than the input, none only for an empty input, and the last end equal to the largest input end. |
| Merge.MergeCovers | privylens/packages/redaction-text/src/index.ts:36-51 | The fold covers a position exactly when some input span does. |
| MergeGroups.LeadersExactly | privylens/packages/redaction-text/src/index.ts:43 | A span opens a new group exactly when its start exceeds every earlier end. The leaders are listed in increasing order, starting with the first span. |
| MergeGroups.MergeIsGrouped | privylens/packages/redaction-text/src/index.ts:35-50 | Merged span `j` starts at leader `j` and carries its label. Its end is the largest end in group `j`. |
| MergeProperties.SortedFacts | privylens/packages/redaction-text/src/index.ts:35 | The sorted copy has the same elements and is ordered by start. |
| MergeProperties.MergeSeparated | privylens/packages/redaction-text/src/index.ts:34-51 | `mergeAndSortSpans` returns strictly separated spans, at most as many as it was given, and none only for an empty input. |
| Merge.MergeAndSortSpans | privylens/packages/redaction-text/src/index.ts:34-51 | `mergeAndSortSpans` returns no more spans than it was given, and an empty list exactly for an empty input. |
| MergeProperties.MergePreservesCoverage | privylens/packages/redaction-text/src/index.ts:34-51 | The union of the output intervals equals the union of the input intervals. |
| MergeProperties.MergeFirstLabelMaxEnd | privylens/packages/redaction-text/src/index.ts:35-46 | In (start ascending, end descending) order, each merged span keeps the label of the first span of its group and the maximum end of that group. |
| MergeProperties.MergeFromInputs | privylens/packages/redaction-text/src/index.ts:34-51 | Each merged span's start and label come from one input span, and its end from an input span. |
| MergeProperties.MergeInBounds | privylens/packages/redaction-text/src/index.ts:34-51 | Spans inside the text stay inside the text after merging. |
| Masking.MaskIsWeave | privylens/packages/redaction-text/src/index.ts:70-77 | The masked string is the verbatim gaps between the spans, in order, interleaved with one placeholder per span. |
| Masking.WeaveOriginals | privylens/packages/redaction-text/src/index.ts:70-77 | For in-bounds, non-overlapping spans, putting each span's original characters back in place of its placeholder restores the text. |
| Masking.MaskNoSpans | privylens/packages/redaction-text/src/index.ts:77 | With no spans, the masked string is the text. |
| Masking.MaskFrom | privylens/packages/redaction-text/src/index.ts:70-77 | Every span's placeholder occurs in the masked string. |
| TextRedactor.MatchesIfFacts | privylens/packages/redaction-text/src/index.ts:65-67 | A raw span comes from an enabled pattern, carries that pattern's label, and is a match `exec` reported inside the text. |
| TextRedactor.BasicRedactText | privylens/packages/redaction-text/src/index.ts:54-82 | With no spans the masked string is the text, and every returned span's placeholder occurs in the masked string. |
| TextRedactor.GatheredCoverage | privylens/packages/redaction-text/src/index.ts:64-67 | The raw spans cover a position exactly when some reported match of an enabled pattern does. |
| TextRedactor.RedactSpansShape | privylens/packages/redaction-text/src/index.ts:69-81 | The returned spans lie inside the text, are ordered by start, and neither overlap nor touch. |
| TextRedactor.RedactSpansFromMatches | privylens/packages/redaction-text/src/index.ts:64-69 | Each returned span starts, with its label, where a match of an enabled pattern starts, and ends where such a match ends. |
| TextRedactor.RedactLabelsEnabled | privylens/packages/redaction-text/src/index.ts:58-67 | Every returned label belongs to an enabled category. |
| TextRedactor.RedactCoverage | privylens/packages/redaction-text/src/index.ts:64-69 | A character is inside a returned span exactly when it is inside a match reported for an enabled pattern. |
| TextRedactor.RedactCoversEveryMatch | privylens/packages/redaction-text/src/index.ts:64-69 | Every position where an enabled pattern can start a match is masked. |
| TextRedactor.RedactMaskRoundTrip | privylens/packages/redaction-text/src/index.ts:69-81 | `masked` is built from exactly the returned spans. Restoring their originals gives the text back. |
| TextRedactor.RedactAllDisabled | privylens/packages/redaction-text/src/index.ts:58-67 | With all three categories `false`, there are no spans and `masked` equals the text. |
| TextRedactor.RedactAbsentIsDefault | privylens/packages/redaction-text/src/index.ts:56-62 | A missing or `null` field counts as `true`. Only an explicit `false` changes the result. |
| TextRedactor.RedactNothingFound | privylens/packages/redaction-text/src/index.ts:64-81 | When no enabled pattern matches, the result is the text with no spans. |
| TextRedactor.RedactSomethingFound | privylens/packages/redaction-text/src/index.ts:64-69 | When an enabled pattern matches somewhere, at least one span is returned. |
| PolicyGate.GateIffNothingToRedact | privylens/apps/server/src/utils/policy.ts:7-13 | `ensureMasked(t)` holds if and only if the default-policy redactor returns no spans for `t`. |
| PolicyGate.EnsureMasked | privylens/apps/server/src/utils/policy.ts:10-13 | The gate refuses a text only when it holds an `@` or a decimal digit. |
| PolicyGate.GateAcceptedIsFixed | privylens/apps/server/src/utils/policy.ts:10-13 | Text the gate accepts passes through the default redactor unchanged. |
| PolicyGate.GateAcceptsPlainText | privylens/apps/server/src/utils/policy.ts:10-13 | Text with neither `@` nor a decimal digit is accepted. |
| PolicyGate.GateRejectsAddress | privylens/apps/server/src/utils/policy.test.ts:6 | `ensureMasked('a@b.com')` is false. |
| PolicyGate.GateAcceptsPlaceholders | privylens/apps/server/src/utils/policy.test.ts:9 | `ensureMasked('[EMAIL] hello [PHONE] [CARD]')` is true. |
| Raster.Crop | privylens/packages/redaction-image/src/index.ts:33 | The crop has the rectangle's size and the image's pixels at the offset. |
| Raster.Composite | privylens/packages/redaction-image/src/index.ts:35 | Compositing keeps the image size and leaves every pixel outside the drawn rectangle alone. |
| ServerImage.EffectivePixelSize | privylens/packages/redaction-image/src/index.ts:17 | The pixel size lies in `[6, 64]`, is 16 when none is given, and otherwise is the requested size clamped into that range. |
| ServerImage.FloorTenths | privylens/packages/redaction-image/src/index.ts:21-24 | `Math.floor(n * 0.1)`, `0.2` and `0.3` are `n/10`, `2n/10` and `3n/10` in integer division. |
| ServerImage.DefaultBox | privylens/packages/redaction-image/src/index.ts:18-26 | The demonstration box is `(W/10, H/10, 3W/10, 2H/10)`. |
| ServerImage.ClampBox | privylens/packages/redaction-image/src/index.ts:29-32 | The origin lies in `[0, W-1] x [0, H-1]`, and the size is at least one pixel without passing the far edge. Negative origins clamp to 0, and a non-positive size becomes one pixel. |
| ServerImage.ClampBoxKeepsFittingBox | privylens/packages/redaction-image/src/index.ts:29-32 | A box that already fits is used unchanged. |
| ServerImage.RedactBoxes | privylens/packages/redaction-image/src/index.ts:28-36 | The image keeps its size, and pixels outside every clamped rectangle keep their colour. |
| ServerImage.RedactImage | privylens/packages/redaction-image/src/index.ts:15-40 | Redaction keeps the image dimensions. |
| ServerImage.RedactImageOutside | privylens/packages/redaction-image/src/index.ts:28-36 | A pixel outside every processed rectangle is unchanged. |
| ServerImage.RedactImageNoBoxes | privylens/packages/redaction-image/src/index.ts:18-36 | An explicit empty box list leaves the image as it was. |
| ServerImage.LaterBoxPaintsOver | privylens/packages/redaction-image/src/index.ts:28-36 | The last box is cropped from the image the earlier boxes produced and drawn over it, so it paints over them. |
| WebPixelate.Ceil | privylens/apps/web/src/lib/redact.ts:29-30 | `Math.ceil`: the least integer not below its argument. |
| WebPixelate.AxisFacts | privylens/apps/web/src/lib/redact.ts:27-30 | The pixel start is `max(0, floor(f * n)) >= 0`, and start plus length is at most `n`. The length is positive exactly when `f < 1` and the size is positive. |
| WebPixelate.PixelRect | privylens/apps/web/src/lib/redact.ts:27-31 | A processed rectangle lies inside the canvas. A box is skipped exactly when it starts at or past the far edge or has a non-positive size, and every box is skipped on an empty canvas. |
| WebPixelate.NegativeOriginClamps | privylens/apps/web/src/lib/redact.ts:27 | `b.x = -0.1` becomes pixel column 0. |
| WebPixelate.DownSize | privylens/apps/web/src/lib/redact.ts:33-34 | The downsampled side is at least 1 and, for an intensity in `[0, 1]`, at most the rectangle's side. |
| WebPixelate.PixelateBox | privylens/apps/web/src/lib/redact.ts:27-49 | One box keeps the canvas size. The mosaic paints only inside the rectangle, the blur only within its reach of it, and every other pixel keeps its colour. |
| WebPixelate.PixelateRegions | privylens/apps/web/src/lib/redact.ts:26-50 | The canvas keeps its size, and a pixel farther than the blur's reach from every processed rectangle keeps its colour. |
| WebPixelate.SkippedBoxIsNoOp | privylens/apps/web/src/lib/redact.ts:31 | A skipped box changes nothing: adding it to the list gives the same canvas. |
| FaceMargin.ExpandAsWritten | privylens/apps/web/src/components/FaceRedactor.tsx:32-37 | As written, the margin box has a non-negative origin, grows by at most 0.2 and 0.3, and for a face with a non-negative origin stays inside the image. |
| FaceMargin.ExpandAsWrittenCutsFace | privylens/apps/web/src/components/FaceRedactor.tsx:35 | As written, the face `(0.5, 0, 0.5, 0.5)` touching the right edge gets a box whose right edge is 0.9, so the box does not enclose it. |
| FaceMargin.ExpandAsWrittenCutsFaceBelow | privylens/apps/web/src/components/FaceRedactor.tsx:36 | As written, the face `(0, 0.5, 0.5, 0.5)` touching the bottom edge gets a box whose bottom edge is 0.85, so the box does not enclose it. |
| FaceMargin.ExpandAsWrittenEdges | privylens/apps/web/src/components/FaceRedactor.tsx:33-36 | As written, for a face at least 0.1 from the left the box's right edge is `min(0.9, x+w+0.1)`, and for a face at least 0.15 from the top the bottom edge is `min(0.85, y+h+0.15)`; such a face reaching past 0.9 or 0.85 is not enclosed. |
| FaceMargin.ExpandAsWrittenEncloses | privylens/apps/web/src/components/FaceRedactor.tsx:32-37 | As written, a face inside the image with `x+w <= 0.9` and `y+h <= 0.85` is enclosed by its box. |
| FaceMargin.Expand | privylens/apps/web/src/components/FaceRedactor.tsx:32-37 | With the caps taken from the expanded origin, the box stays inside the image and encloses every face that lies inside it. |
| FaceMargin.ExpandFullMargin | privylens/apps/web/src/components/FaceRedactor.tsx:33-36 | A face well inside the image gets the full margin, and both versions agree on it. |
| FaceMargin.WithMargins | privylens/apps/web/src/components/FaceRedactor.tsx:32-37 | The margins as written map the faces one to one, in order. |
| FaceMargin.RedactFaces | privylens/apps/web/src/components/FaceRedactor.tsx:28-38 | The pipeline as written reports the number of detected faces, and the canvas keeps the image's size. |
| FaceMargin.FacesCovered | privylens/apps/web/src/components/FaceRedactor.tsx:32-38 | As written, the box of a face with a non-negative origin lies inside the image, and it encloses the face when the face ends at or before 0.9 across and 0.85 down. |
| FaceMargin.CorrectedMargins | privylens/apps/web/src/components/FaceRedactor.tsx:32-37 | The corrected margins map the faces one to one, in order. |
| FaceMargin.CorrectedRedactFaces | privylens/apps/web/src/components/FaceRedactor.tsx:28-38 | The corrected pipeline reports the number of detected faces, and the canvas keeps the image's size. |
| FaceMargin.CorrectedFacesCovered | privylens/apps/web/src/components/FaceRedactor.tsx:32-38 | With the corrected caps, every face inside the image is enclosed by its box, and the box stays inside the image. |
| MaskedParts.TokenHeadUnique | privylens/apps/web/src/components/RedactedText.tsx:18 | The first character of `[MASKED]` does not recur in it. |
| MaskedParts.NoSelfOverlap | privylens/apps/web/src/components/RedactedText.tsx:18 | Two occurrences of such a token never overlap. |
| MaskedParts.FindTokenLeftmost | privylens/apps/web/src/components/RedactedText.tsx:22 | Each `exec` finds the leftmost occurrence from `lastIndex`, and `null` only when none is left. |
| MaskedParts.ParseFrom | privylens/apps/web/src/components/RedactedText.tsx:22-46 | Redacted parts are exactly the token, and plain parts are never empty. |
| MaskedParts.ParseRoundTrip | privylens/apps/web/src/components/RedactedText.tsx:22-46 | Concatenating the parts' texts reproduces the input exactly. |
| MaskedParts.ParseWellFormed | privylens/apps/web/src/components/RedactedText.tsx:24-46 | Redacted parts are exactly the token. Other parts are non-empty and token-free, and no two of them are adjacent. |
| MaskedParts.ParseCountsTokens | privylens/apps/web/src/components/RedactedText.tsx:18-37 | There is one redacted part per occurrence of the token after `lastIndex`. |
| MaskedParts.RedactedTextCounts | privylens/apps/web/src/components/RedactedText.tsx:16-49 | `parseRedactedText` yields one redacted part per occurrence of `[MASKED]`. |
| MaskedParts.ParseEmpty | privylens/apps/web/src/components/RedactedText.tsx:41-48 | Empty input yields no parts. |
| MaskedParts.ParseNoToken | privylens/apps/web/src/components/RedactedText.tsx:41-46 | Non-empty input without the token yields one plain part. |
| MaskedParts.SplitFrom | privylens/apps/web/src/components/AnimatedTextRedaction.tsx:196 | A split with a capture group always has an odd number of pieces. |
| MaskedParts.SplitTokensAtOdd | privylens/apps/web/src/components/AnimatedTextRedaction.tsx:196-197 | Piece `k` of the split is the token exactly when `k` is odd. |
| MaskedParts.StaticLabels | privylens/apps/web/src/components/AnimatedTextRedaction.tsx:196-199 | The `j`-th `[MASKED]` (split index `2j+1`) is labelled with `spans[j]`. |
| MaskedParts.SplitAgreesWithParse | privylens/apps/web/src/components/AnimatedTextRedaction.tsx:196 | Dropping the empty split pieces leaves exactly the texts of `parseRedactedText`'s parts. |
| AnimatedText.SortedSpansOrdered | privylens/apps/web/src/components/AnimatedTextRedaction.tsx:35 | The sorted copy holds the same spans, ordered by start, with equal starts in their given order. |
| AnimatedText.SortedApart | privylens/apps/web/src/components/AnimatedTextRedaction.tsx:35 | Sorting keeps spans that share no position apart. |
| AnimatedText.SegmentsFrom | privylens/apps/web/src/components/AnimatedTextRedaction.tsx:37-68 | A segment is redacted exactly when it carries a label. No segment appears before step `index`, and there are between one and two segments per span, plus at most one trailing segment. |
| AnimatedText.RedactedSegmentsFrom | privylens/apps/web/src/components/AnimatedTextRedaction.tsx:37-58 | The redacted segments are one per span, in order, each with the span's text, its label and delay `index*200 + 100`. |
| AnimatedText.RedactedSegments | privylens/apps/web/src/components/AnimatedTextRedaction.tsx:37-73 | There is exactly one redacted segment per span, in sorted order, and the animation has one step per span. |
| AnimatedText.PlainSegmentsFrom | privylens/apps/web/src/components/AnimatedTextRedaction.tsx:39-68 | Each plain segment is non-empty. It is either followed by its span's redacted segment, which appears 100 ms later, or it is the trailing segment, timed after the last step. |
| AnimatedText.PlainSegments | privylens/apps/web/src/components/AnimatedTextRedaction.tsx:39-68 | The same property for the whole effect, with the trailing delay `spans.length*200`. |
| AnimatedText.SegmentsFromRoundTrip | privylens/apps/web/src/components/AnimatedTextRedaction.tsx:37-68 | Spans in order, inside the text and not overlapping, segment the text exactly. |
| AnimatedText.SegmentsRoundTrip | privylens/apps/web/src/components/AnimatedTextRedaction.tsx:31-68 | For non-empty, in-bounds spans that share no position, the segment texts put together give `originalText`. |
| AnimatedText.EmptySpanRepeatsText | privylens/apps/web/src/components/AnimatedTextRedaction.tsx:39-68 | Without the non-empty condition the round trip fails: an empty span sorted after another span moves `lastIndex` back, and text is shown twice. |
| SseClient.SplitLines | privylens/apps/web/src/lib/api.ts:122 | `split('\n')` always yields at least one piece. |
| SseClient.SplitNoNewline | privylens/apps/web/src/lib/api.ts:122 | No piece contains a newline. |
| SseClient.SplitRoundTrip | privylens/apps/web/src/lib/api.ts:122-123 | The pieces, joined with newlines, give back the string. |
| SseClient.HandleLine | privylens/apps/web/src/lib/api.ts:125-145 | A line adds at most one callback and leaves the buffer alone. Once stopped, nothing changes. The decoder stops exactly when it was stopped or the new callback is not a token. |
| SseClient.HandleLines | privylens/apps/web/src/lib/api.ts:124-146 | Handling lines only appends callbacks, keeps the buffer, and does nothing once stopped. |
| SseClient.Feed | privylens/apps/web/src/lib/api.ts:117-146 | A read only appends callbacks and does nothing once the decoder has stopped. |
| SseClient.ClientEvents | privylens/apps/web/src/lib/api.ts:104-149 | The callbacks are never empty, end with one `onComplete` or `onError`, and hold only tokens before it. |
| SseClient.PushCharsIsSplit | privylens/apps/web/src/lib/api.ts:121-146 | Handling the characters one at a time handles the same lines and keeps the same rest as splitting all at once. |
| SseClient.FeedIsPushChars | privylens/apps/web/src/lib/api.ts:117-146 | One read of the loop does what pushing its characters one at a time does. |
| SseClient.RunIsPushChars | privylens/apps/web/src/lib/api.ts:116-147 | Reading chunk after chunk does what pushing all their characters does. |
| SseClient.ChunkingInvariant | privylens/apps/web/src/lib/api.ts:116-149 | However the body is cut into chunks, the callbacks are those of decoding it whole. |
| SseClient.BufferInvariant | privylens/apps/web/src/lib/api.ts:121-123 | While the decoder runs, the buffer holds no newline. Everything received equals the complete lines, each with its newline, followed by the buffer. |
| SseClient.CallbacksEndOnce | privylens/apps/web/src/lib/api.ts:125-149 | The callbacks are tokens followed by exactly one `onComplete` or `onError`, and nothing after it. |
| SseClient.IgnoredLineInvisible | privylens/apps/web/src/lib/api.ts:125-145 | A line without `data: `, or with an unparsable or empty payload, can be inserted anywhere without changing the callbacks. |
| LlmProxy.ProxyIgnoresImages | privylens/apps/server/src/routes/llm.ts:14 | The request's `images` play no part. |
| LlmProxy.Proxy | privylens/apps/server/src/routes/llm.ts:13-48 | A stream answers 200 and asks the model a conversation that opens with the system prompt and ends with a user message the gate accepts. A broken-off stream answers 200 too, and only for a `masked` the gate accepts. A refusal answers 400. |
| LlmProxy.UnmappableNotAsked | privylens/apps/server/src/routes/llm.ts:26-43 | When `messages` cannot be mapped, the model is never asked: any two models give the same response, a broken-off stream. |
| LlmProxy.BrokenStreamReported | privylens/apps/server/src/routes/llm.ts:71-84 | However it is chunked, a broken-off stream reaches the browser as the single error `Stream interrupted`. |
| LlmProxy.ProxyRejectsRawEmail | privylens/apps/server/src/routes/llm.ts:20-22 | A raw address never reaches the model. |
| LlmProxy.Prompt | privylens/apps/server/src/routes/llm.ts:35-48 | The conversation is the system prompt, then each earlier turn with its content and with role `user` kept and any other role made `assistant`, then `masked` as the last user message. |
| LlmProxy.PromptShape | privylens/apps/server/src/routes/llm.ts:35-48 | In a streamed request the model's last message is the gated text. |
| LlmProxy.PushFrame | privylens/apps/server/src/routes/llm.ts:63 | One `data: ...\n\n` frame reaches the decoder as exactly one `data:` line. |
| LlmProxy.ContentFramesDeliver | privylens/apps/server/src/routes/llm.ts:60-65 | The content frames deliver one token per non-empty chunk, in order. Empty chunks send nothing. |
| LlmProxy.FinalFrame | privylens/apps/server/src/routes/llm.ts:68-83 | The `[DONE]` frame completes the stream, and the interruption frame reports `Stream interrupted`. Either way the decoder stops. |
| LlmProxy.BodyDecodes | privylens/apps/server/src/routes/llm.ts:60-84 | The whole body, decoded at once, gives the expected callbacks. |
| LlmProxy.StreamDelivered | privylens/apps/server/src/routes/llm.ts:60-69 | For any chunking of the response, the browser reports the model's non-empty chunks in order, then completion, or the interruption error instead. |
| LlmProxy.RejectionReported | privylens/apps/web/src/lib/api.ts:104-106 | A refused request reaches the browser as `HTTP error! status: 400`. |
| ImageResize.Resize | privylens/apps/web/src/lib/api.ts:21-34 | No side exceeds 1024, and the aspect ratio is kept. A small image is unchanged, and an image over the limit has its longer side at exactly 1024. |
| ImageResize.ResizeIsScaling | privylens/apps/web/src/lib/api.ts:24-34 | Both branches are one uniform scaling, by `min(1, 1024 / longer side)`. |
| ImageResize.ResizeSettles | privylens/apps/web/src/lib/api.ts:21-34 | Resizing a resized image changes nothing. |
| ImageResize.CanvasBounds | privylens/apps/web/src/lib/api.ts:36-37 | The canvas is at most 1024 on each side, keeps a small image's size, and is 1024 along the longer side of a large one. |
| ImageResize.ThinStripVanishes | privylens/apps/web/src/lib/api.ts:24-37 | A 5000 by 1 image becomes a 1024 by 0 canvas. |
| PolicyToggles.Toggle | privylens/apps/web/src/components/PolicyPopover.tsx:15 | `toggle(k)` flips the checked state of `k`, adds `k` if missing, and keeps every other key's value. |
| PolicyToggles.ToggleFlipsOnlyKey | privylens/apps/web/src/components/PolicyPopover.tsx:15 | A click flips exactly the clicked box. |
| PolicyToggles.ToggleTwice | privylens/apps/web/src/components/PolicyPopover.tsx:15 | Two clicks on a key that holds a value restore the policy. A missing key ends up `false`. |
| PolicyToggles.ToggleAbsentKey | privylens/apps/web/src/components/PolicyPopover.tsx:15 | A missing key becomes `true` on its first click. |
| PolicyToggles.TogglesDistinct | privylens/apps/web/src/components/PolicyPopover.tsx:4-11 | The six switches have distinct keys. |
| PolicyToggles.CheckboxAgreesWithRedactor | privylens/apps/web/src/components/PolicyPopover.tsx:26 | For a key the policy holds, the checkbox shows what the redactor does. A missing key shows unchecked while the redactor treats its category as on. |
| JsString.Slice | privylens/packages/redaction-text/src/index.ts:73 | `slice(start, end)` is the substring for an in-range pair and the empty string for a reversed one. |
| JsString.NatToString | privylens/apps/web/src/lib/api.ts:105 | `String(n)` is a non-empty string of decimal digits whose value is `n`, with a leading zero only for 0. |
| JsString.StatusSpelling | privylens/apps/web/src/lib/api.ts:105 | The status 400 is spelled `400`. |
| PolicyToggles.Checked | privylens/apps/web/src/components/PolicyPopover.tsx:26 | `!!policy[k]`: a missing key reads as unchecked, and a present key reads as its value. |
| ImageResize.CanvasSide | privylens/apps/web/src/lib/api.ts:36-37 | The canvas side is the whole part of the computed size: at most the size and less than one below it. |
| SseClient.Run | privylens/apps/web/src/lib/api.ts:116-147 | The read loop only appends callbacks, and once the decoder has returned, further reads change nothing. |
| AnimatedText.Segments | privylens/apps/web/src/components/AnimatedTextRedaction.tsx:31-68 | A segment is redacted exactly when it has a label. No delay is negative. There are between one and two segments per span, plus at most one trailing segment. |
| MaskedParts.ParseRedactedText | privylens/apps/web/src/components/RedactedText.tsx:16-49 | The parts are well formed: redacted parts are `[MASKED]`, and plain parts are non-empty, free of the token and never adjacent. Their texts, put together, give back the input. |
| WebPixelate.PixelateImage | privylens/apps/web/src/lib/redact.ts:14-24 | The canvas has the image's natural size, or its element size along a side whose natural size is 0. Pixels out of every processed box's reach keep their colour. |
| WebPixelate.DefaultCells | privylens/apps/web/src/lib/redact.ts:14 | At the default intensity 0.04, a side shorter than 50 pixels becomes one mosaic cell, and a side of 100 pixels becomes four. |
| MergeProperties.LeaderLongest | privylens/packages/redaction-text/src/index.ts:35 | After the sort, the first span of each start is the longest one with that start. |
| MergeProperties.MergeLabelFromLongest | privylens/packages/redaction-text/src/index.ts:35-52 | Every merged span takes its start and label from an input span that is at least as long as every other input span with that start. |
| SampleText.NumberIsPhone | privylens/packages/redaction-text/src/index.ts:18 | `+1-415-555-1212` is a phone match. |
| SampleText.CardEndsAt60 | privylens/packages/redaction-text/src/index.ts:19 | In the test sentence, the only card match at the card number ends at the sentence's end. |
| RedactExample.SpanFromLongest | privylens/packages/redaction-text/src/index.ts:21-52 | A returned span is labelled after a pattern that matches where it starts, and that match reaches at least as far as every recorded match starting there. |
| RedactExample.SampleSpans | privylens/packages/redaction-text/tests/index.test.ts:6-7 | For any choice of match ends, the test sentence gives spans labelled EMAIL, PHONE and CARD, in this order, at the address, the phone number and the card number. |
| RedactExample.SampleRedacted | privylens/packages/redaction-text/tests/index.test.ts:6-11 | For any choice of match ends, the masked test sentence contains `[EMAIL]`, `[PHONE]` and `[CARD]`, and there are at least three spans. |

## Left out

- Matcher.Exec: which end a match gets is not modelled. Greedy and lazy backtracking priority decide it, so it is a `Chooser` parameter that may return any genuine match end. The start, the leftmost one from `lastIndex`, is modelled exactly. Every property above holds for every such chooser.
- `ensureMasked` is deterministic because it is a function of its argument. None of its patterns carries the `g` flag, so there is no `lastIndex` state to model.
- Decoding, pixelation, compositing, the browser's mosaic and blur, and PNG/JPEG encoding are abstract function parameters. The model keeps only what the code relies on from them: they keep image sizes, and the server's pixelate and composite and the browser's mosaic paint only inside the given rectangle.
- WebPixelate.PixelateRegions: the blur at lines 47-48 of `redact.ts` is abstract. It may change pixels up to `spread` pixels beyond each rectangle, and that reach of `blur(4px)` as a browser implements it is a parameter. Nothing is promised about the pixels in that band.
- LlmProxy.FaithfulCodec: `JSON.stringify` and `JSON.parse` are abstract. The framing lemmas assume the parse of an encoding gives the payload back, that an encoding holds no raw newline, and that it is never `[DONE]`; all three hold for JSON. Payload fields that are not strings are not modelled.
- The OpenAI client, Express, `fetch`, `ReadableStream` and `TextDecoder` are not modelled. The model's reply is a function from the conversation to its chunks, and the network's chunking is a parameter. Multi-byte characters split across reads are not modelled.
- The `!res.headersSent` branch of the `/proxy` handler (status 500) is not modelled. `writeHead` runs before the conversation is built and before the model is called. So a `messages` that cannot be mapped reaches the error-event path, which `LlmProxy.BrokenStream` models, and so does every failure of the model, which `LlmReply.Interrupted` models.
- LlmProxy.HistoryEntry: a turn's `role` and `content` are strings. A turn whose `role` is missing or not a string is read as the assistant's, which `RoleOf` gives for any string other than `"user"`. A `content` that is not a string, and what the OpenAI client does with it, is not modelled.
- A `fetch` that throws, and a response without a readable body, are not modelled. Both end in one `onError` call.
- The system prompt is a parameter. Its wording plays no part in any property.
- React rendering, timers, the animation steps' scheduling, `getRedactedDisplay` and localStorage are not modelled.
- Face detection is not modelled: the detected boxes are an input.
- `Math.floor`, `Math.ceil` and the resize are computed over exact reals, not IEEE doubles.
- ServerImage.BoundingBox: box coordinates and sizes, and `pixelSize`, are modelled as integers, although `redactImageBuffer` declares them `number`. The app's only caller (`apps/server/src/routes/redact.ts:28`) passes no options, so the boxes are the default box, which `Math.floor` makes integral, and the pixel size is 16. What the clamps and Jimp's `crop`, `pixelate` and `composite` do with fractional or `NaN` values is not modelled.
- ImageResize.CanvasSide: assigning a size to a canvas truncates towards zero modulo 2^32. For the non-negative sizes at most 1024 that occur here this is the floor, which the model uses.
- PolicyToggles.Checked: a policy value is a boolean. Other JSON values restored from localStorage, and their truthiness, are not modelled.
- AnimatedText.SegmentsRoundTrip: it requires non-empty spans that share no position. The server's spans satisfy this (`TextRedactor.RedactSpansShape` and `Patterns.MatchNonEmpty`); for other inputs `AnimatedText.EmptySpanRepeatsText` shows the text can repeat.
- The UI parsers look for `[MASKED]`, while the redactor emits `[EMAIL]`, `[PHONE]` and `[CARD]`. Each is modelled as written.
- Only the final masked message passes `ensureMasked`. The earlier turns in `messages` reach the model unchecked (`LlmProxy.Prompt`).

## Findings

| source | as written | input that shows it | evidently intended | confidence | as-written member | corrected member |
|---|---|---|---|---|---|---|
| privylens/apps/web/src/components/FaceRedactor.tsx:35 | `w: Math.min(1 - f.x, f.w + 0.2)` caps the width by the distance from the face's own left edge. The box, though, starts 0.1 further left, so its right edge never passes 0.9. | A face `x = 0.5, w = 0.5` touching the right edge gets the box `x = 0.4, w = 0.5`. The strip from 0.9 to 1.0 stays unpixelated: a tenth of the image's width, and a fifth of that face. | Cap the width by `1 - x'` using the expanded origin. The margin box then encloses every face inside the image. | not executed | FaceMargin.ExpandAsWrittenCutsFace | FaceMargin.CorrectedFacesCovered |
| privylens/apps/web/src/components/FaceRedactor.tsx:36 | `h: Math.min(1 - f.y, f.h + 0.3)` caps the height by the distance from the face's own top edge. The box starts 0.15 higher, so its bottom edge never passes 0.85. | A face `y = 0.5, h = 0.5` touching the bottom edge gets the box `y = 0.35, h = 0.5`. The band from 0.85 to 1.0 stays unpixelated: the lower three tenths of that face, where the comment promises to cover the neck. | Cap the height by `1 - y'` using the expanded origin. | not executed | FaceMargin.ExpandAsWrittenCutsFaceBelow | FaceMargin.CorrectedFacesCovered |

## Notes

- A very thin image loses its short side on the canvas. `ImageResize.ThinStripVanishes` shows that a 5000 by 1 image becomes a 1024 by 0 canvas, so nothing is drawn.
- A policy key that is missing in the browser shows as unchecked, yet the redactor treats it as on (`PolicyToggles.CheckboxAgreesWithRedactor`). The app's default policy sets all six keys, so this only shows with an edited stored policy.

=== FILE: animated.dfy ===
/**
 * The segment list `AnimatedTextRedaction` builds from the original text and the redaction
 * spans before it plays the reveal animation: plain gaps and redacted pieces, each with the
 * delay at which it appears.
 */
module AnimatedText {
  import opened Wrappers
  import opened JsString
  import opened Sorting

  /** A span as the page receives it, `{ start, end, label }`; the label is free-form text, kept in `kind`. */
  datatype LabelledSpan = LabelledSpan(start: int, end: int, kind: string)

  /** `{ text, isRedacted, label?, delay }`; only redacted segments carry a label (`kind`). */
  datatype Segment = Segment(text: string, isRedacted: bool, kind: Option<string>, delay: int)

  /** Milliseconds between the reveal of one span and the next. */
  const StepDelay: int := 200

  /** A redacted piece appears this long after the gap in front of it. */
  const RevealOffset: int := 100

  /** The comparator `(a, b) => a.start - b.start` as a sort key. */
  function StartKey(s: LabelledSpan): Key
  {
    (s.start, 0)
  }

  /** `[...spans].sort(...)`: a sorted copy; the caller's list is a value and stays as it is. */
  function SortedSpans(spans: seq<LabelledSpan>): seq<LabelledSpan>
  {
    SortBy(spans, StartKey)
  }

  /**
   * The `forEach` from span number `index` on, with `lastIndex` equal to `last`, followed by
   * the trailing segment.
   */
  function SegmentsFrom(text: string, ss: seq<LabelledSpan>, index: nat, last: int): (segs: seq<Segment>)
    ensures forall k :: 0 <= k < |segs| ==> (segs[k].isRedacted <==> segs[k].kind.Some?)
    ensures forall k :: 0 <= k < |segs| ==> segs[k].delay >= index * StepDelay
    ensures |ss| <= |segs| <= 2 * |ss| + 1
    decreases |ss|
  {
    if |ss| == 0 then
      if last < |text| then [Segment(SliceFrom(text, last), false, None, index * StepDelay)] else []
    else
      var s := ss[0];
      (if s.start > last then [Segment(Slice(text, last, s.start), false, None, index * StepDelay)] else [])
      + [Segment(Slice(text, s.start, s.end), true, Some(s.kind), index * StepDelay + RevealOffset)]
      + SegmentsFrom(text, ss[1..], index + 1, s.end)
  }

  /** The segments of the effect, starting with `lastIndex = 0`. */
  function Segments(text: string, spans: seq<LabelledSpan>): (segs: seq<Segment>)
    ensures forall k :: 0 <= k < |segs| ==> (segs[k].isRedacted <==> segs[k].kind.Some?)
    ensures forall k :: 0 <= k < |segs| ==> segs[k].delay >= 0
    ensures |spans| <= |segs| <= 2 * |spans| + 1
  {
    SegmentsFrom(text, SortedSpans(spans), 0, 0)
  }

  /** `segments.filter(seg => seg.isRedacted)`. */
  function RedactedOnly(segs: seq<Segment>): seq<Segment>
  {
    if |segs| == 0 then []
    else (if segs[0].isRedacted then [segs[0]] else []) + RedactedOnly(segs[1..])
  }

  /** `totalSteps`: how many reveal steps the animation plays. */
  function AnimationSteps(segs: seq<Segment>): nat
  {
    |RedactedOnly(segs)|
  }

  /** The text the segments display, one after the other. */
  function Joined(segs: seq<Segment>): string
  {
    if |segs| == 0 then [] else segs[0].text + Joined(segs[1..])
  }

  /** The redacted segment the effect emits for span `s`, the `i`-th in sorted order. */
  function RedactedFor(text: string, s: LabelledSpan, i: nat): Segment
  {
    Segment(Slice(text, s.start, s.end), true, Some(s.kind), i * StepDelay + RevealOffset)
  }

  ghost predicate InBounds(ss: seq<LabelledSpan>, n: int)
  {
    forall i :: 0 <= i < |ss| ==> 0 <= ss[i].start <= ss[i].end <= n
  }

  /** Two spans share no character position. */
  predicate Apart(a: LabelledSpan, b: LabelledSpan)
  {
    a.end <= b.start || b.end <= a.start
  }

  ghost predicate PairwiseApart(ss: seq<LabelledSpan>)
  {
    forall i, j :: 0 <= i < j < |ss| ==> Apart(ss[i], ss[j])
  }

  ghost predicate NonEmptySpans(ss: seq<LabelledSpan>)
  {
    forall i :: 0 <= i < |ss| ==> ss[i].start < ss[i].end
  }

  /** Each span ends no later than the next one starts. */
  ghost predicate Chained(ss: seq<LabelledSpan>)
  {
    forall i :: 0 <= i < |ss| - 1 ==> ss[i].end <= ss[i + 1].start
  }

  lemma {:induction false} RedactedOnlyAppend(a: seq<Segment>, b: seq<Segment>)
    ensures RedactedOnly(a + b) == RedactedOnly(a) + RedactedOnly(b)
  {
    if |a| == 0 {
      assert a + b == b;
    } else {
      assert (a + b)[0] == a[0];
      assert (a + b)[1..] == a[1..] + b;
      RedactedOnlyAppend(a[1..], b);
    }
  }

  lemma {:induction false} JoinedAppend(a: seq<Segment>, b: seq<Segment>)
    ensures Joined(a + b) == Joined(a) + Joined(b)
  {
    if |a| == 0 {
      assert a + b == b;
    } else {
      assert (a + b)[0] == a[0];
      assert (a + b)[1..] == a[1..] + b;
      JoinedAppend(a[1..], b);
    }
  }

  /** The redacted segments for spans `ss`, numbered from `index`. */
  function RedactedRef(text: string, ss: seq<LabelledSpan>, index: nat): seq<Segment>
    decreases |ss|
  {
    if |ss| == 0 then [] else [RedactedFor(text, ss[0], index)] + RedactedRef(text, ss[1..], index + 1)
  }

  lemma {:induction false} RedactedRefAt(text: string, ss: seq<LabelledSpan>, index: nat)
    ensures |RedactedRef(text, ss, index)| == |ss|
    ensures forall i :: 0 <= i < |ss| ==> RedactedRef(text, ss, index)[i] == RedactedFor(text, ss[i], index + i)
    decreases |ss|
  {
    if |ss| > 0 {
      RedactedRefAt(text, ss[1..], index + 1);
      var r := RedactedRef(text, ss, index);
      forall i | 0 <= i < |ss| ensures r[i] == RedactedFor(text, ss[i], index + i) {
        if i > 0 {
          assert r[i] == RedactedRef(text, ss[1..], index + 1)[i - 1];
          assert ss[1..][i - 1] == ss[i];
        }
      }
    }
  }

  lemma RedactedStep(gap: seq<Segment>, red: Segment, rest: seq<Segment>)
    requires |gap| <= 1 && (|gap| == 1 ==> !gap[0].isRedacted) && red.isRedacted
    ensures RedactedOnly(gap + [red] + rest) == [red] + RedactedOnly(rest)
  {
    RedactedOnlyAppend(gap + [red], rest);
    RedactedOnlyAppend(gap, [red]);
    if |gap| == 1 {
      assert RedactedOnly(gap) == RedactedOnly(gap[1..]);
    }
    assert RedactedOnly([red]) == [red] + RedactedOnly([red][1..]);
  }

  /** One redacted segment per span, in sorted order, with the span's text, its label and delay `i*200 + 100`. */
  lemma {:induction false} RedactedSegmentsFrom(text: string, ss: seq<LabelledSpan>, index: nat, last: int)
    ensures RedactedOnly(SegmentsFrom(text, ss, index, last)) == RedactedRef(text, ss, index)
    decreases |ss|
  {
    if |ss| > 0 {
      var s := ss[0];
      var gap := if s.start > last then [Segment(Slice(text, last, s.start), false, None, index * StepDelay)] else [];
      var red := RedactedFor(text, s, index);
      var rest := SegmentsFrom(text, ss[1..], index + 1, s.end);
      assert SegmentsFrom(text, ss, index, last) == gap + [red] + rest;
      RedactedSegmentsFrom(text, ss[1..], index + 1, s.end);
      RedactedStep(gap, red, rest);
    } else if last < |text| {
      var t := SegmentsFrom(text, ss, index, last);
      assert RedactedOnly(t) == RedactedOnly(t[1..]);
    }
  }

  /** The redacted segments are the sorted spans' pieces, and the animation has one step per span. */
  lemma RedactedSegments(text: string, spans: seq<LabelledSpan>)
    ensures |RedactedOnly(Segments(text, spans))| == |spans|
    ensures forall i :: 0 <= i < |spans| ==> RedactedOnly(Segments(text, spans))[i] == RedactedFor(text, SortedSpans(spans)[i], i)
    ensures AnimationSteps(Segments(text, spans)) == |spans|
  {
    RedactedSegmentsFrom(text, SortedSpans(spans), 0, 0);
    RedactedRefAt(text, SortedSpans(spans), 0);
  }

  /** What the segments after a plain segment look like. */
  ghost predicate PlainWellPlaced(segs: seq<Segment>, k: int, steps: nat)
    requires 0 <= k < |segs|
  {
    && |segs[k].text| > 0
    && (k + 1 < |segs| ==> segs[k + 1].isRedacted && segs[k + 1].delay == segs[k].delay + RevealOffset)
    && (k + 1 == |segs| ==> segs[k].delay == steps * StepDelay)
  }

  ghost predicate PlainsWellPlaced(segs: seq<Segment>, steps: nat)
  {
    forall k :: 0 <= k < |segs| && !segs[k].isRedacted ==> PlainWellPlaced(segs, k, steps)
  }

  lemma PlainsPrepend(gap: seq<Segment>, red: Segment, rest: seq<Segment>, steps: nat)
    requires |gap| <= 1 && red.isRedacted
    requires |gap| == 1 ==> !gap[0].isRedacted && |gap[0].text| > 0 && red.delay == gap[0].delay + RevealOffset
    requires PlainsWellPlaced(rest, steps)
    ensures PlainsWellPlaced(gap + [red] + rest, steps)
  {
    var segs := gap + [red] + rest;
    forall k | 0 <= k < |segs| && !segs[k].isRedacted ensures PlainWellPlaced(segs, k, steps) {
      if k > |gap| {
        var j := k - |gap| - 1;
        assert segs[k] == rest[j];
        assert PlainWellPlaced(rest, j, steps);
        if j + 1 < |rest| {
          assert segs[k + 1] == rest[j + 1];
        }
      }
    }
  }

  /**
   * Every plain segment is non-empty and is either followed by the redacted piece it precedes,
   * which appears `100` later, or is the trailing segment, which appears after the last step.
   */
  lemma {:induction false} PlainSegmentsFrom(text: string, ss: seq<LabelledSpan>, index: nat, last: int)
    requires InBounds(ss, |text|) && 0 <= last
    ensures PlainsWellPlaced(SegmentsFrom(text, ss, index, last), index + |ss|)
    decreases |ss|
  {
    if |ss| > 0 {
      var s := ss[0];
      assert 0 <= s.start <= s.end <= |text|;
      var gap := if s.start > last then [Segment(Slice(text, last, s.start), false, None, index * StepDelay)] else [];
      var red := RedactedFor(text, s, index);
      var rest := SegmentsFrom(text, ss[1..], index + 1, s.end);
      assert SegmentsFrom(text, ss, index, last) == gap + [red] + rest;
      assert InBounds(ss[1..], |text|) by {
        forall i | 0 <= i < |ss| - 1 ensures 0 <= ss[1..][i].start <= ss[1..][i].end <= |text| {
          assert ss[1..][i] == ss[i + 1];
        }
      }
      PlainSegmentsFrom(text, ss[1..], index + 1, s.end);
      PlainsPrepend(gap, red, rest, index + |ss|);
    }
  }

  /** With spans inside the text, no two plain segments are adjacent and none is empty. */
  lemma PlainSegments(text: string, spans: seq<LabelledSpan>)
    requires InBounds(spans, |text|)
    ensures PlainsWellPlaced(Segments(text, spans), |spans|)
  {
    var ss := SortedSpans(spans);
    forall i | 0 <= i < |ss| ensures 0 <= ss[i].start <= ss[i].end <= |text| {
      assert ss[i] in multiset(spans);
    }
    PlainSegmentsFrom(text, ss, 0, 0);
  }

  lemma RoundTripStep(text: string, ss: seq<LabelledSpan>, index: nat, last: int)
    requires |ss| > 0 && 0 <= last <= ss[0].start <= ss[0].end <= |text|
    requires Joined(SegmentsFrom(text, ss[1..], index + 1, ss[0].end)) == text[ss[0].end..]
    ensures Joined(SegmentsFrom(text, ss, index, last)) == text[last..]
  {
    var s := ss[0];
    var gap := if s.start > last then [Segment(Slice(text, last, s.start), false, None, index * StepDelay)] else [];
    var red := [RedactedFor(text, s, index)];
    var rest := SegmentsFrom(text, ss[1..], index + 1, s.end);
    assert SegmentsFrom(text, ss, index, last) == gap + red + rest;
    JoinedAppend(gap + red, rest);
    JoinedAppend(gap, red);
    assert Joined(gap) == text[last..s.start];
    assert Joined(red) == text[s.start..s.end];
    SliceSplit3(text, last, s.start, s.end);
  }

  lemma ChainedTail(ss: seq<LabelledSpan>, n: int)
    requires |ss| > 0 && InBounds(ss, n) && Chained(ss)
    ensures InBounds(ss[1..], n) && Chained(ss[1..])
    ensures |ss| > 1 ==> ss[0].end <= ss[1..][0].start
  {
    assert forall i :: 0 <= i < |ss| - 1 ==> ss[1..][i] == ss[i + 1];
  }

  /** Spans inside the text, each ending before the next starts, segment the text exactly. */
  lemma {:induction false} SegmentsFromRoundTrip(text: string, ss: seq<LabelledSpan>, index: nat, last: int)
    requires InBounds(ss, |text|) && Chained(ss)
    requires 0 <= last <= |text| && (|ss| > 0 ==> last <= ss[0].start)
    ensures Joined(SegmentsFrom(text, ss, index, last)) == text[last..]
    decreases |ss|
  {
    if |ss| == 0 {
      if last == |text| {
        assert text[last..] == [];
      }
    } else {
      ChainedTail(ss, |text|);
      SegmentsFromRoundTrip(text, ss[1..], index + 1, ss[0].end);
      RoundTripStep(text, ss, index, last);
    }
  }

  lemma {:induction false} InsertApart(x: LabelledSpan, ys: seq<LabelledSpan>)
    requires PairwiseApart(ys)
    requires forall k :: 0 <= k < |ys| ==> Apart(x, ys[k])
    ensures PairwiseApart(Insert(x, ys, StartKey))
    decreases |ys|
  {
    if |ys| == 0 || KeyLe(StartKey(x), StartKey(ys[0])) {
      ConsApart(x, ys);
    } else {
      TailApart(ys);
      InsertApart(x, ys[1..]);
      HeadApartInsert(x, ys);
      ConsApart(ys[0], Insert(x, ys[1..], StartKey));
    }
  }

  /** A span apart from every span of a pairwise-apart list can go in front of it. */
  lemma ConsApart(y: LabelledSpan, r: seq<LabelledSpan>)
    requires PairwiseApart(r)
    requires forall k :: 0 <= k < |r| ==> Apart(y, r[k])
    ensures PairwiseApart([y] + r)
  {
    var c := [y] + r;
    forall i, j | 0 <= i < j < |c| ensures Apart(c[i], c[j]) {
      if i > 0 {
        assert c[i] == r[i - 1] && c[j] == r[j - 1];
      } else {
        assert c[j] == r[j - 1];
      }
    }
  }

  lemma TailApart(ys: seq<LabelledSpan>)
    requires |ys| > 0 && PairwiseApart(ys)
    ensures PairwiseApart(ys[1..])
    ensures forall k :: 0 <= k < |ys| - 1 ==> Apart(ys[0], ys[1..][k])
  {
    var tail := ys[1..];
    forall i, j | 0 <= i < j < |tail| ensures Apart(tail[i], tail[j]) {
      assert tail[i] == ys[i + 1] && tail[j] == ys[j + 1];
    }
    forall k | 0 <= k < |tail| ensures Apart(ys[0], tail[k]) {
      assert tail[k] == ys[k + 1];
    }
  }

  /** The head of the list stays apart from everything once `x` is inserted into the rest. */
  lemma HeadApartInsert(x: LabelledSpan, ys: seq<LabelledSpan>)
    requires |ys| > 0 && PairwiseApart(ys)
    requires forall k :: 0 <= k < |ys| ==> Apart(x, ys[k])
    ensures forall j :: 0 <= j < |Insert(x, ys[1..], StartKey)| ==> Apart(ys[0], Insert(x, ys[1..], StartKey)[j])
  {
    TailApart(ys);
    var tail := ys[1..];
    var t := Insert(x, tail, StartKey);
    forall j | 0 <= j < |t| ensures Apart(ys[0], t[j]) {
      assert t[j] in multiset(t);
      if t[j] == x {
        assert Apart(x, ys[0]);
      } else {
        assert t[j] in multiset(tail);
        var k :| 0 <= k < |tail| && tail[k] == t[j];
      }
    }
  }


  /** Sorting keeps spans that share no position apart. */
  lemma {:induction false} SortedApart(spans: seq<LabelledSpan>)
    requires PairwiseApart(spans)
    ensures PairwiseApart(SortedSpans(spans))
    decreases |spans|
  {
    if |spans| > 0 {
      TailApart(spans);
      SortedApart(spans[1..]);
      ApartFromReordered(spans[0], spans[1..], SortedSpans(spans[1..]));
      InsertApart(spans[0], SortedSpans(spans[1..]));
    }
  }

  /** Being apart from every span of a list survives reordering the list. */
  lemma ApartFromReordered(x: LabelledSpan, ys: seq<LabelledSpan>, zs: seq<LabelledSpan>)
    requires multiset(zs) == multiset(ys)
    requires forall k :: 0 <= k < |ys| ==> Apart(x, ys[k])
    ensures forall k :: 0 <= k < |zs| ==> Apart(x, zs[k])
  {
    forall k | 0 <= k < |zs| ensures Apart(x, zs[k]) {
      assert zs[k] in multiset(zs);
      assert zs[k] in multiset(ys);
      var m :| 0 <= m < |ys| && ys[m] == zs[k];
    }
  }

  /** The sorted copy: the same spans, ordered by start, equal starts kept in their given order. */
  lemma SortedSpansOrdered(spans: seq<LabelledSpan>)
    ensures multiset(SortedSpans(spans)) == multiset(spans)
    ensures forall i, j :: 0 <= i < j < |spans| ==> SortedSpans(spans)[i].start <= SortedSpans(spans)[j].start
    ensures forall k :: WithKey(SortedSpans(spans), StartKey, k) == WithKey(spans, StartKey, k)
  {
    SortBySorted(spans, StartKey);
    var ss := SortedSpans(spans);
    forall i, j | 0 <= i < j < |spans| ensures ss[i].start <= ss[j].start {
      assert KeyLe(StartKey(ss[i]), StartKey(ss[j]));
    }
    forall k ensures WithKey(ss, StartKey, k) == WithKey(spans, StartKey, k) {
      SortByStable(spans, StartKey, k);
    }
  }

  /**
   * With non-empty spans inside the text that pairwise share no position, the segment texts
   * put back together give the original text.
   */
  lemma SegmentsRoundTrip(text: string, spans: seq<LabelledSpan>)
    requires InBounds(spans, |text|) && NonEmptySpans(spans) && PairwiseApart(spans)
    ensures Joined(Segments(text, spans)) == text
  {
    var ss := SortedSpans(spans);
    SortedSpansOrdered(spans);
    SortedApart(spans);
    forall i | 0 <= i < |ss| ensures 0 <= ss[i].start < ss[i].end <= |text| {
      assert ss[i] in multiset(spans);
    }
    forall i | 0 <= i < |ss| - 1 ensures ss[i].end <= ss[i + 1].start {
      assert Apart(ss[i], ss[i + 1]);
    }
    SegmentsFromRoundTrip(text, ss, 0, 0);
  }

  /**
   * Why the spans must be non-empty: an empty span sorted after a span with the same start
   * moves `lastIndex` back, and the trailing segment repeats text already shown.
   */
  lemma EmptySpanRepeatsText(a: LabelledSpan, b: LabelledSpan)
    requires a == LabelledSpan(0, 2, "EMAIL") && b == LabelledSpan(0, 0, "PHONE")
    ensures InBounds([a, b], 3) && PairwiseApart([a, b])
    ensures Joined(Segments("abc", [a, b])) == "ababc"
  {
    ExampleSegments(a, b);
    TwoSpans(a, b, 3);
    JoinedThree(RedactedFor("abc", a, 0), RedactedFor("abc", b, 1), Segment("abc", false, None, 2 * StepDelay));
    assert Slice("abc", 0, 2) == "ab";
    assert Slice("abc", 0, 0) == "";
    assert "ab" + "" + "abc" == "ababc";
  }

  lemma JoinedThree(x: Segment, y: Segment, z: Segment)
    ensures Joined([x, y, z]) == x.text + y.text + z.text
  {
    assert [z][1..] == [];
    assert Joined([z]) == z.text;
    assert [y, z][1..] == [z];
    assert Joined([y, z]) == y.text + z.text;
    assert [x, y, z][1..] == [y, z];
  }

  lemma TwoSpans(a: LabelledSpan, b: LabelledSpan, n: int)
    requires 0 <= a.start <= a.end <= n && 0 <= b.start <= b.end <= n && Apart(a, b)
    ensures InBounds([a, b], n) && PairwiseApart([a, b])
  {
  }

  lemma ExampleSorted(a: LabelledSpan, b: LabelledSpan)
    requires a.start == b.start
    ensures SortedSpans([a, b]) == [a, b]
  {
    assert [a, b][1..] == [b];
    assert SortBy([b], StartKey) == [b] by {
      assert [b][1..] == [];
    }
  }

  lemma ExampleSegments(a: LabelledSpan, b: LabelledSpan)
    requires a == LabelledSpan(0, 2, "EMAIL") && b == LabelledSpan(0, 0, "PHONE")
    ensures Segments("abc", [a, b])
         == [RedactedFor("abc", a, 0), RedactedFor("abc", b, 1), Segment("abc", false, None, 2 * StepDelay)]
  {
    ExampleSorted(a, b);
    var tail := [Segment("abc", false, None, 2 * StepDelay)];
    assert SegmentsFrom("abc", [], 2, 0) == tail;
    assert SegmentsFrom("abc", [b], 1, 2) == [RedactedFor("abc", b, 1)] + tail by {
      assert [b][1..] == [];
    }
    assert [a, b][1..] == [b];
  }
}

=== FILE: gate.dfy ===
/** `ensureMasked`: the server's last check that a prompt holds no raw email, phone or card. */
module PolicyGate {
  import opened JsString
  import opened Patterns
  import opened Matcher
  import opened Spans
  import opened TextRedactor

  /**
   * True when none of the three patterns matches anywhere in `masked`; a rejected text always
   * holds an `@` or a decimal digit.
   */
  function EnsureMasked(masked: string): (r: bool)
    ensures !r ==> exists i :: 0 <= i < |masked| && (masked[i] == '@' || IsDigit(masked[i]))
  {
    FoundHasTrigger(Email, masked);
    FoundHasTrigger(Card, masked);
    FoundHasTrigger(Phone, masked);
    !(Found(Email, masked) || Found(Card, masked) || Found(Phone, masked))
  }

  /** Text one of the patterns matches holds an `@` or a decimal digit. */
  lemma FoundHasTrigger(p: Pattern, t: string)
    ensures Found(p, t) ==> exists i :: 0 <= i < |t| && (t[i] == '@' || IsDigit(t[i]))
  {
    if Found(p, t) {
      var s :| 0 <= s <= |t| && MatchesFrom(p, t, s);
      var e :| s <= e <= |t| && MatchAt(p, t, s, e);
      MatchHasTrigger(p, t, s, e);
    }
  }

  /** The gate passes exactly when the default-policy redactor finds nothing to mask. */
  lemma GateIffNothingToRedact(t: string, choose: Chooser)
    requires ValidChooser(MatchAt, choose)
    ensures EnsureMasked(t) <==> BasicRedactText(t, DefaultPolicy, choose).spans == []
  {
    if EnsureMasked(t) {
      RedactNothingFound(t, DefaultPolicy, choose);
    } else if Found(Email, t) {
      RedactSomethingFound(t, DefaultPolicy, choose, Email);
    } else if Found(Card, t) {
      RedactSomethingFound(t, DefaultPolicy, choose, Card);
    } else {
      RedactSomethingFound(t, DefaultPolicy, choose, Phone);
    }
  }

  /** Text the gate accepts passes through the default redactor unchanged. */
  lemma GateAcceptedIsFixed(t: string, choose: Chooser)
    requires ValidChooser(MatchAt, choose)
    requires EnsureMasked(t)
    ensures BasicRedactText(t, DefaultPolicy, choose) == Redaction(t, [])
  {
    RedactNothingFound(t, DefaultPolicy, choose);
  }

  /** Text with neither `@` nor a decimal digit always passes. */
  lemma GateAcceptsPlainText(t: string)
    requires forall i :: 0 <= i < |t| ==> t[i] != '@' && !IsDigit(t[i])
    ensures EnsureMasked(t)
  {
    NoTriggerCharsNoMatch(Email, t);
    NoTriggerCharsNoMatch(Card, t);
    NoTriggerCharsNoMatch(Phone, t);
  }

  /** The three placeholders between plain words pass. */
  lemma GateAcceptsPlaceholders()
    ensures EnsureMasked("[EMAIL] hello [PHONE] [CARD]")
  {
    GateAcceptsPlainText("[EMAIL] hello [PHONE] [CARD]");
  }

  /** A whole text that is an address is an email match at 0. */
  lemma EmailWhole(w: string)
    requires IsEmail(w)
    ensures MatchAt(Email, w, 0, |w|)
  {
    assert w[0..|w|] == w;
  }

  lemma FoundWhole(p: Pattern, w: string)
    requires MatchAt(p, w, 0, |w|)
    ensures Found(p, w)
  {
    assert MatchesFrom(p, w, 0);
  }

  lemma AddressFound()
    ensures Found(Email, "a@b.com")
  {
    AddressSpells();
    EmailWhole("a@b.com");
    FoundWhole(Email, "a@b.com");
  }

  /** Any text in which one of the patterns matches is rejected. */
  lemma GateRejectsFound(t: string, p: Pattern)
    requires Found(p, t)
    ensures !EnsureMasked(t)
  {
  }

  /** A bare address is rejected. */
  lemma GateRejectsAddress()
    ensures !EnsureMasked("a@b.com")
  {
    AddressFound();
    GateRejectsFound("a@b.com", Email);
  }
}

=== FILE: jsstring.dfy ===
/**
 * The few JavaScript string and number operations the modelled code relies on.
 * A string is a sequence of UTF-16 code units, one `char` per code unit.
 */
module JsString {

  function Max(a: int, b: int): int { if a < b then b else a }

  function Min(a: int, b: int): int { if a < b then a else b }

  /** Resolves a relative index the way `String.prototype.slice` does: negative counts from the end. */
  function ClampIndex(i: int, len: nat): (r: nat)
    ensures r <= len
    ensures 0 <= i <= len ==> r == i
    ensures i > len ==> r == len
  {
    if i < 0 then Max(len + i, 0) else Min(i, len)
  }

  /** `s.slice(start, end)`: the clamped range, or the empty string when it is empty or reversed. */
  function Slice(s: string, start: int, end: int): (r: string)
    ensures |r| <= |s|
    ensures 0 <= start <= end <= |s| ==> r == s[start..end]
    ensures 0 <= end <= start ==> r == []
  {
    var from := ClampIndex(start, |s|);
    var to := ClampIndex(end, |s|);
    if from < to then s[from..to] else []
  }

  /** `s.slice(start)`. */
  function SliceFrom(s: string, start: int): (r: string)
    ensures 0 <= start <= |s| ==> r == s[start..]
    ensures start >= |s| ==> r == []
  {
    Slice(s, start, |s|)
  }

  /** The concatenation of a list of strings, in order. */
  function Concat(ss: seq<string>): string
  {
    if |ss| == 0 then [] else ss[0] + Concat(ss[1..])
  }

  lemma {:induction false} ConcatAppend(a: seq<string>, b: seq<string>)
    ensures Concat(a + b) == Concat(a) + Concat(b)
  {
    if |a| == 0 {
      assert a + b == b;
    } else {
      assert (a + b)[1..] == a[1..] + b;
      ConcatAppend(a[1..], b);
    }
  }

  lemma SliceSplit3(t: string, a: nat, b: nat, c: nat)
    requires a <= b <= c <= |t|
    ensures t[a..] == t[a..b] + t[b..c] + t[c..]
  {
  }

  /** Cutting `t[a..]` around an occurrence of `sub` at `i`. */
  lemma SliceAround(t: string, sub: string, a: nat, i: nat)
    requires a <= i && i + |sub| <= |t| && t[i..i + |sub|] == sub
    ensures t[a..] == t[a..i] + sub + t[i + |sub|..]
  {
    SliceSplit3(t, a, i, i + |sub|);
  }

  lemma SliceOfSlice(t: string, a: nat, b: nat, i: nat, k: nat)
    requires a <= b <= |t| && i <= k <= b - a
    ensures t[a..b][i..k] == t[a + i..a + k]
  {
    assert forall j :: 0 <= j < k - i ==> t[a..b][i..k][j] == t[a + i + j];
  }

  /** `s` occurs in `t` starting at index `i`. */
  predicate OccursAt(t: string, sub: string, i: int)
  {
    0 <= i && i + |sub| <= |t| && t[i..i + |sub|] == sub
  }

  /** `t.includes(sub)`. */
  predicate Contains(t: string, sub: string)
  {
    exists i | 0 <= i <= |t| :: OccursAt(t, sub, i)
  }

  lemma ContainsMiddle(a: string, sub: string, b: string)
    ensures Contains(a + sub + b, sub)
  {
    assert (a + sub + b)[|a|..|a| + |sub|] == sub;
    assert OccursAt(a + sub + b, sub, |a|);
  }

  lemma ContainsExtend(a: string, t: string, b: string, sub: string)
    requires Contains(t, sub)
    ensures Contains(a + t + b, sub)
  {
    var i :| 0 <= i <= |t| && OccursAt(t, sub, i);
    assert (a + t + b)[|a| + i..|a| + i + |sub|] == t[i..i + |sub|];
    assert OccursAt(a + t + b, sub, |a| + i);
  }

  lemma ContainsAfter(a: string, t: string, sub: string)
    requires Contains(t, sub)
    ensures Contains(a + t, sub)
  {
    var i :| 0 <= i <= |t| && OccursAt(t, sub, i);
    assert (a + t)[|a| + i..|a| + i + |sub|] == t[i..i + |sub|];
    assert OccursAt(a + t, sub, |a| + i);
  }

  /** `'0'..'9'`, the ECMAScript `\d`. */
  predicate IsDigit(c: char) { '0' <= c <= '9' }

  predicate IsAsciiLetter(c: char) { 'A' <= c <= 'Z' || 'a' <= c <= 'z' }

  /** A character of ECMAScript's `\w`, which decides `\b`. */
  predicate IsWordChar(c: char) { IsAsciiLetter(c) || IsDigit(c) || c == '_' }

  /** ECMAScript's `\s`: WhiteSpace and LineTerminator code points. */
  predicate IsJsSpace(c: char)
  {
    || c == '\t' || c == '\n' || c == '\U{000B}' || c == '\U{000C}' || c == '\r' || c == ' '
    || c == '\U{00A0}' || c == '\U{1680}' || ('\U{2000}' <= c <= '\U{200A}')
    || c == '\U{2028}' || c == '\U{2029}' || c == '\U{202F}' || c == '\U{205F}'
    || c == '\U{3000}' || c == '\U{FEFF}'
  }

  /** Number of decimal digits in `s`. */
  function DigitCount(s: string): (n: nat)
    ensures n <= |s|
  {
    if |s| == 0 then 0 else (if IsDigit(s[0]) then 1 else 0) + DigitCount(s[1..])
  }

  lemma {:induction false} DigitCountAppend(a: string, b: string)
    ensures DigitCount(a + b) == DigitCount(a) + DigitCount(b)
  {
    if |a| == 0 {
      assert a + b == b;
    } else {
      assert (a + b)[1..] == a[1..] + b;
      DigitCountAppend(a[1..], b);
    }
  }

  lemma {:induction false} DigitCountPositive(s: string)
    requires DigitCount(s) > 0
    ensures exists i :: 0 <= i < |s| && IsDigit(s[i])
  {
    if IsDigit(s[0]) {
      assert IsDigit(s[0]);
    } else {
      DigitCountPositive(s[1..]);
      var i :| 0 <= i < |s[1..]| && IsDigit(s[1..][i]);
      assert IsDigit(s[i + 1]);
    }
  }

  /** The value of a decimal digit. */
  function DigitValue(c: char): int
  {
    c as int - '0' as int
  }

  /** The number a string of decimal digits spells, most significant digit first. */
  function DecimalValue(s: string): int
  {
    if |s| == 0 then 0 else DecimalValue(s[..|s| - 1]) * 10 + DigitValue(s[|s| - 1])
  }

  /**
   * The decimal spelling of a natural number (`String(n)`): digits only, spelling `n`, with no
   * leading zero except in `"0"` itself.
   */
  function NatToString(n: nat): (r: string)
    ensures |r| >= 1
    ensures forall i :: 0 <= i < |r| ==> IsDigit(r[i])
    ensures DecimalValue(r) == n
    ensures r[0] == '0' <==> n == 0
    decreases n
  {
    var d := ['0' + (n % 10) as char];
    if n < 10 then d else NatToString(n / 10) + d
  }

  /** The status the browser reports for a refusal. */
  lemma StatusSpelling()
    ensures NatToString(400) == "400"
  {
  }
}

=== FILE: llmproxy.dfy ===
/**
 * The `/proxy` handler: validate the body, refuse text the policy gate rejects, assemble the
 * conversation for the model, and stream the model's reply as server-sent events.
 */
module LlmProxy {
  import opened Wrappers
  import opened JsString
  import opened PolicyGate
  import opened SseClient

  datatype Role = System | User | Assistant

  /** A message as the model receives it. */
  datatype ChatMessage = ChatMessage(role: Role, content: string)

  /** An earlier turn as the browser sends it; any role other than `"user"` is read as the assistant's. */
  datatype HistoryEntry = HistoryEntry(role: string, content: string)

  /**
   * `messages` as the handler maps it: `Turns` for an array of turns, and `Turns([])` when it is
   * left out; `Unmappable` for a value the mapping throws on, such as `null`, a string, an object,
   * or an array holding `null`.
   */
  datatype History = Turns(entries: seq<HistoryEntry>) | Unmappable

  /** The request body: `masked` is `None` when it is missing or not a string. */
  datatype ProxyRequest = ProxyRequest(masked: Option<string>, messages: History, images: seq<string>)

  /** The model's streamed reply: all content chunks, or the chunks before the stream failed. */
  datatype LlmReply = Finished(chunks: seq<string>) | Interrupted(chunks: seq<string>)

  datatype ProxyResponse =
    | Rejected(status: nat, error: string)
    | EventStream(status: nat, prompt: seq<ChatMessage>, body: string)
      /** The headers went out, then building the conversation threw: only the error event follows. */
    | BrokenStream(status: nat, body: string)

  const MissingMasked: string := "Invalid body: masked required"

  const NotMasked: string := "Payload must be masked according to policy"

  const InterruptedMessage: string := "Stream interrupted"

  /** `JSON.stringify`, abstract: the encoder the server frames payloads with. */
  type Encoder = Payload -> string

  /**
   * What the framing relies on from the JSON codec: parsing an encoded payload gives it back,
   * and an encoding holds no raw newline and is never the end marker.
   */
  ghost predicate FaithfulCodec(enc: Encoder, parse: Parser)
  {
    forall p :: parse(enc(p)) == Some(p) && '\n' !in enc(p) && enc(p) != DoneMarker
  }

  function RoleOf(role: string): Role
  {
    if role == "user" then User else Assistant
  }

  /** The system prompt, the earlier turns, and the masked text as the last user message. */
  function Prompt(system: string, messages: seq<HistoryEntry>, masked: string): (p: seq<ChatMessage>)
    ensures |p| == |messages| + 2
    ensures p[0] == ChatMessage(System, system)
    ensures forall i :: 0 <= i < |messages| ==>
              p[i + 1].content == messages[i].content
              && p[i + 1].role != System
              && (p[i + 1].role == User <==> messages[i].role == "user")
    ensures p[|p| - 1] == ChatMessage(User, masked)
  {
    [ChatMessage(System, system)]
    + seq(|messages|, i requires 0 <= i < |messages| => ChatMessage(RoleOf(messages[i].role), messages[i].content))
    + [ChatMessage(User, masked)]
  }

  /** One event: `data: <payload>` and a blank line. */
  function Frame(data: string): string
  {
    DataPrefix + data + "\n\n"
  }

  /** `{ content }` as the decoder reads it back. */
  function ContentPayload(c: string): Payload
  {
    Payload(Some(c), None)
  }

  const InterruptedPayload: Payload := Payload(None, Some(InterruptedMessage))

  /** The event for one chunk of the model's reply; an empty chunk sends nothing. */
  function ChunkFrame(c: string, enc: Encoder): string
  {
    if c == "" then [] else Frame(enc(ContentPayload(c)))
  }

  /** One event per non-empty chunk, in order. */
  function ContentFrames(chunks: seq<string>, enc: Encoder): string
    decreases |chunks|
  {
    if |chunks| == 0 then [] else ChunkFrame(chunks[0], enc) + ContentFrames(chunks[1..], enc)
  }

  /** The response body: the content events, then `[DONE]`, or the error event if the stream broke. */
  function StreamBody(reply: LlmReply, enc: Encoder): string
  {
    match reply
    case Finished(cs) => ContentFrames(cs, enc) + Frame(DoneMarker)
    case Interrupted(cs) => ContentFrames(cs, enc) + Frame(enc(InterruptedPayload))
  }

  /**
   * The handler; the model is a function from the conversation to its reply. Whatever is
   * streamed was asked of the model with a last user message that passed the gate; a refusal
   * is a 400. The status line is sent before the conversation is built, so a history the
   * mapping throws on still answers 200, with the interruption event as the whole body.
   */
  function Proxy(req: ProxyRequest, system: string, llm: seq<ChatMessage> -> LlmReply, enc: Encoder): (r: ProxyResponse)
    ensures r.EventStream? ==> r.status == 200 && |r.prompt| >= 2 && r.prompt[0].role == System
    ensures r.EventStream? ==> r.prompt[|r.prompt| - 1].role == User && EnsureMasked(r.prompt[|r.prompt| - 1].content)
    ensures r.BrokenStream? ==> r.status == 200 && req.masked.Some? && EnsureMasked(req.masked.value)
    ensures r.Rejected? ==> r.status == 400
  {
    if req.masked.None? then Rejected(400, MissingMasked)
    else if !EnsureMasked(req.masked.value) then Rejected(400, NotMasked)
    else if req.messages.Unmappable? then BrokenStream(200, Frame(enc(InterruptedPayload)))
    else
      var prompt := Prompt(system, req.messages.entries, req.masked.value);
      EventStream(200, prompt, StreamBody(llm(prompt), enc))
  }

  /** The tokens the browser should see for the model's chunks. */
  function Tokens(chunks: seq<string>): seq<Event>
    decreases |chunks|
  {
    if |chunks| == 0 then [] else ChunkTokens(chunks[0]) + Tokens(chunks[1..])
  }

  function ChunkTokens(c: string): seq<Event>
  {
    if c == "" then [] else [Token(c)]
  }

  /** What the browser's callbacks should report for a reply. */
  function Expected(reply: LlmReply): seq<Event>
  {
    match reply
    case Finished(cs) => Tokens(cs) + [Complete]
    case Interrupted(cs) => Tokens(cs) + [Failure(InterruptedMessage)]
  }

  /**
   * A request streams the model's reply exactly when `masked` is a string the gate accepts and
   * the history maps; it breaks off after the headers exactly when `masked` passes but the
   * history does not map; otherwise it is refused with status 400 and the matching message.
   */
  lemma ProxyDecision(req: ProxyRequest, system: string, llm: seq<ChatMessage> -> LlmReply, enc: Encoder)
    ensures Proxy(req, system, llm, enc).EventStream?
        <==> req.masked.Some? && EnsureMasked(req.masked.value) && req.messages.Turns?
    ensures Proxy(req, system, llm, enc).BrokenStream?
        <==> req.masked.Some? && EnsureMasked(req.masked.value) && req.messages.Unmappable?
    ensures req.masked.None? ==> Proxy(req, system, llm, enc) == Rejected(400, MissingMasked)
    ensures req.masked.Some? && !EnsureMasked(req.masked.value) ==> Proxy(req, system, llm, enc) == Rejected(400, NotMasked)
    ensures Proxy(req, system, llm, enc).EventStream? ==> Proxy(req, system, llm, enc).status == 200
  {
  }

  /** A history the mapping throws on never reaches the model: any two models give the same response. */
  lemma UnmappableNotAsked(req: ProxyRequest, system: string, llm: seq<ChatMessage> -> LlmReply,
                           other: seq<ChatMessage> -> LlmReply, enc: Encoder)
    requires req.masked.Some? && EnsureMasked(req.masked.value) && req.messages.Unmappable?
    ensures Proxy(req, system, llm, enc) == Proxy(req, system, other, enc)
    ensures Proxy(req, system, llm, enc).BrokenStream?
  {
  }

  /** The image list plays no part in the handler. */
  lemma ProxyIgnoresImages(req: ProxyRequest, images: seq<string>, system: string, llm: seq<ChatMessage> -> LlmReply, enc: Encoder)
    ensures Proxy(req.(images := images), system, llm, enc) == Proxy(req, system, llm, enc)
  {
  }

  /** Raw text with an email address never reaches the model. */
  lemma ProxyRejectsRawEmail(req: ProxyRequest, system: string, llm: seq<ChatMessage> -> LlmReply, enc: Encoder)
    requires req.masked == Some("a@b.com")
    ensures Proxy(req, system, llm, enc) == Rejected(400, NotMasked)
  {
    GateRejectsAddress();
  }

  /**
   * The model sees the system prompt first, then every earlier turn with its content and with
   * the user role kept and every other role made the assistant's, and last the masked text,
   * which passes the gate.
   */
  lemma PromptShape(req: ProxyRequest, system: string, llm: seq<ChatMessage> -> LlmReply, enc: Encoder)
    requires Proxy(req, system, llm, enc).EventStream?
    ensures var p := Proxy(req, system, llm, enc).prompt;
      && req.messages.Turns?
      && |p| == |req.messages.entries| + 2
      && p[0] == ChatMessage(System, system)
      && (forall i :: 0 <= i < |req.messages.entries| ==>
            p[i + 1].content == req.messages.entries[i].content
            && p[i + 1].role != System
            && (p[i + 1].role == User <==> req.messages.entries[i].role == "user"))
      && p[|p| - 1] == ChatMessage(User, req.masked.value)
      && EnsureMasked(p[|p| - 1].content)
  {
  }

  // ---------------------------------------------------------------------------------------------
  // The server's frames through the browser's decoder

  lemma NoNewlineAppend(a: string, b: string)
    requires '\n' !in a && '\n' !in b
    ensures '\n' !in a + b
  {
    forall k | 0 <= k < |a + b| ensures (a + b)[k] != '\n' {
      if k < |a| {
        assert (a + b)[k] == a[k];
      } else {
        assert (a + b)[k] == b[k - |a|];
      }
    }
  }

  lemma DataLine(data: string)
    ensures StartsWith(DataPrefix + data, DataPrefix)
    ensures (DataPrefix + data)[|DataPrefix|..] == data
  {
    assert (DataPrefix + data)[..|DataPrefix|] == DataPrefix;
  }

  /** The two newlines that end a frame: the first completes the line, the second is a blank line. */
  lemma PushBlankLine(e: Decoder, parse: Parser)
    requires e.buffer == []
    ensures PushChars(e, "\n\n", parse) == e
  {
    assert "\n\n"[1..] == "\n";
    assert "\n"[1..] == [];
    assert !StartsWith([], DataPrefix);
  }

  /** A frame without newlines in its data handles exactly the one line `data: <data>`. */
  lemma PushFrame(d: Decoder, data: string, parse: Parser)
    requires !d.stopped && d.buffer == [] && '\n' !in data
    ensures PushChars(d, Frame(data), parse) == HandleLine(d, DataPrefix + data, parse)
  {
    assert '\n' !in DataPrefix;
    NoNewlineAppend(DataPrefix, data);
    PushCharsAppend(d, DataPrefix + data, "\n\n", parse);
    PushCharsNoNewline(d, DataPrefix + data, parse);
    var full := d.(buffer := [] + (DataPrefix + data));
    assert [] + (DataPrefix + data) == DataPrefix + data;
    assert PushChars(full, "\n\n", parse) == PushChars(PushChar(full, '\n', parse), "\n", parse) by {
      assert "\n\n"[0] == '\n' && "\n\n"[1..] == "\n";
    }
    assert PushChar(full, '\n', parse) == HandleLine(d, DataPrefix + data, parse);
    HandleLineKeepsBuffer(d, DataPrefix + data, parse, []);
    var e := HandleLine(d, DataPrefix + data, parse);
    assert e.buffer == [];
    PushBlankLine(e, parse);
    assert PushChars(e, "\n\n", parse) == PushChars(PushChar(e, '\n', parse), "\n", parse) by {
      assert "\n\n"[0] == '\n' && "\n\n"[1..] == "\n";
    }
  }

  lemma ContentFrameToken(d: Decoder, c: string, enc: Encoder, parse: Parser)
    requires FaithfulCodec(enc, parse)
    requires !d.stopped && d.buffer == []
    ensures PushChars(d, ChunkFrame(c, enc), parse) == d.(events := d.events + ChunkTokens(c))
  {
    if c == "" {
      assert d.events + [] == d.events;
    } else {
      var data := enc(ContentPayload(c));
      assert parse(data) == Some(ContentPayload(c)) && '\n' !in data && data != DoneMarker;
      PushFrame(d, data, parse);
      DataLine(data);
    }
  }

  /** Two pieces of the body, each adding its own events, add them in turn. */
  lemma ChainDeliver(d: Decoder, a: string, b: string, ta: seq<Event>, tb: seq<Event>, parse: Parser)
    requires PushChars(d, a, parse) == d.(events := d.events + ta)
    requires PushChars(d.(events := d.events + ta), b, parse) == d.(events := d.events + ta + tb)
    ensures PushChars(d, a + b, parse) == d.(events := d.events + (ta + tb))
  {
    PushCharsAppend(d, a, b, parse);
    assert d.events + ta + tb == d.events + (ta + tb);
  }

  /** The content frames deliver one token per non-empty chunk, in order, and leave the decoder running. */
  lemma {:induction false} ContentFramesDeliver(d: Decoder, chunks: seq<string>, enc: Encoder, parse: Parser)
    requires FaithfulCodec(enc, parse)
    requires !d.stopped && d.buffer == []
    ensures PushChars(d, ContentFrames(chunks, enc), parse) == d.(events := d.events + Tokens(chunks))
    decreases |chunks|
  {
    if |chunks| == 0 {
      assert d.events + [] == d.events;
    } else {
      ContentFrameToken(d, chunks[0], enc, parse);
      ContentFramesDeliver(d.(events := d.events + ChunkTokens(chunks[0])), chunks[1..], enc, parse);
      ChainDeliver(d, ChunkFrame(chunks[0], enc), ContentFrames(chunks[1..], enc),
                   ChunkTokens(chunks[0]), Tokens(chunks[1..]), parse);
    }
  }

  lemma FinalFrame(d: Decoder, reply: LlmReply, enc: Encoder, parse: Parser)
    requires FaithfulCodec(enc, parse)
    requires !d.stopped && d.buffer == []
    ensures var data := if reply.Finished? then DoneMarker else enc(InterruptedPayload);
      PushChars(d, Frame(data), parse).stopped
      && PushChars(d, Frame(data), parse).events
         == d.events + [if reply.Finished? then Complete else Failure(InterruptedMessage)]
  {
    var data := if reply.Finished? then DoneMarker else enc(InterruptedPayload);
    if reply.Interrupted? {
      assert parse(data) == Some(InterruptedPayload) && '\n' !in data && data != DoneMarker;
    } else {
      assert '\n' !in DoneMarker;
    }
    PushFrame(d, data, parse);
    DataLine(data);
  }

  /** The whole body, decoded in one piece. */
  lemma BodyDecodes(reply: LlmReply, enc: Encoder, parse: Parser)
    requires FaithfulCodec(enc, parse)
    ensures Outcome(PushChars(Initial, StreamBody(reply, enc), parse)) == Expected(reply)
  {
    var frames := ContentFrames(reply.chunks, enc);
    var data := if reply.Finished? then DoneMarker else enc(InterruptedPayload);
    assert StreamBody(reply, enc) == frames + Frame(data);
    PushCharsAppend(Initial, frames, Frame(data), parse);
    ContentFramesDeliver(Initial, reply.chunks, enc, parse);
    var d := Initial.(events := Initial.events + Tokens(reply.chunks));
    FinalFrame(d, reply, enc, parse);
    assert Initial.events + Tokens(reply.chunks) == Tokens(reply.chunks);
  }

  /**
   * Whatever chunks the network cuts the response into, the browser reports one token per
   * non-empty model chunk in order, then completion once, or the interruption error instead.
   */
  lemma StreamDelivered(req: ProxyRequest, system: string, llm: seq<ChatMessage> -> LlmReply, enc: Encoder,
                        parse: Parser, chunks: seq<string>)
    requires FaithfulCodec(enc, parse)
    requires Proxy(req, system, llm, enc).EventStream?
    requires Concat(chunks) == Proxy(req, system, llm, enc).body
    ensures ClientEvents(Proxy(req, system, llm, enc).status, chunks, parse)
         == Expected(llm(Proxy(req, system, llm, enc).prompt))
  {
    var resp := Proxy(req, system, llm, enc);
    var reply := llm(resp.prompt);
    RunIsPushChars(Initial, Initial, chunks, parse);
    BodyDecodes(reply, enc, parse);
  }

  /**
   * Whatever chunks the network cuts it into, a response broken off after the headers reaches the
   * browser as the interruption error alone.
   */
  lemma BrokenStreamReported(req: ProxyRequest, system: string, llm: seq<ChatMessage> -> LlmReply, enc: Encoder,
                             parse: Parser, chunks: seq<string>)
    requires FaithfulCodec(enc, parse)
    requires Proxy(req, system, llm, enc).BrokenStream?
    requires Concat(chunks) == Proxy(req, system, llm, enc).body
    ensures ClientEvents(Proxy(req, system, llm, enc).status, chunks, parse) == [Failure(InterruptedMessage)]
  {
    RunIsPushChars(Initial, Initial, chunks, parse);
    FinalFrame(Initial, Interrupted([]), enc, parse);
  }

  /** A refused request reaches the browser as an HTTP error, whatever the body says. */
  lemma RejectionReported(req: ProxyRequest, system: string, llm: seq<ChatMessage> -> LlmReply, enc: Encoder,
                          parse: Parser, chunks: seq<string>)
    requires Proxy(req, system, llm, enc).Rejected?
    ensures ClientEvents(Proxy(req, system, llm, enc).status, chunks, parse)
         == [Failure("HTTP error! status: 400")]
  {
    StatusSpelling();
    assert "HTTP error! status: " + NatToString(400) == "HTTP error! status: 400";
  }
}

=== FILE: mask.dfy ===
/**
 * The masked string of `basicRedactText`: walk the merged spans with a cursor, copying the
 * text before each span and appending the span's `[LABEL]` placeholder.
 */
module Masking {
  import opened JsString
  import opened Spans

  /** The loop from `cursor` on: `masked += text.slice(cursor, s.start) + [LABEL]; cursor = s.end`. */
  function MaskFrom(text: string, spans: seq<Span>, cursor: int): (r: string)
    ensures forall i :: 0 <= i < |spans| ==> Contains(r, Placeholder(spans[i].kind))
    decreases |spans|
  {
    if |spans| == 0 then SliceFrom(text, cursor)
    else
      var head := Slice(text, cursor, spans[0].start);
      var rest := MaskFrom(text, spans[1..], spans[0].end);
      ContainsMiddle(head, Placeholder(spans[0].kind), rest);
      PlaceholdersAfter(head + Placeholder(spans[0].kind), rest, spans);
      head + Placeholder(spans[0].kind) + rest
  }

  /** The placeholders of the later spans, found in the rest, are found after any prefix. */
  lemma PlaceholdersAfter(pre: string, rest: string, spans: seq<Span>)
    requires |spans| > 0
    requires forall i :: 0 <= i < |spans[1..]| ==> Contains(rest, Placeholder(spans[1..][i].kind))
    ensures forall i :: 1 <= i < |spans| ==> Contains(pre + rest, Placeholder(spans[i].kind))
  {
    forall i | 1 <= i < |spans|
      ensures Contains(pre + rest, Placeholder(spans[i].kind))
    {
      assert spans[1..][i - 1] == spans[i];
      ContainsAfter(pre, rest, Placeholder(spans[i].kind));
    }
  }

  function Masked(text: string, spans: seq<Span>): string
  {
    MaskFrom(text, spans, 0)
  }

  /** Gap `i` of the text around the spans, the first one starting at `cursor`. */
  function Gap(text: string, spans: seq<Span>, cursor: int, i: nat): string
    requires i <= |spans|
  {
    var from := if i == 0 then cursor else spans[i - 1].end;
    var to := if i == |spans| then |text| else spans[i].start;
    Slice(text, from, to)
  }

  /** The `|spans| + 1` verbatim gaps. */
  function Gaps(text: string, spans: seq<Span>, cursor: int): (gs: seq<string>)
    ensures |gs| == |spans| + 1
  {
    seq(|spans| + 1, i requires 0 <= i <= |spans| => Gap(text, spans, cursor, i))
  }

  /** `gaps[0] + fills[0] + gaps[1] + ... + fills[n-1] + gaps[n]`. */
  function Weave(gaps: seq<string>, fills: seq<string>): string
    requires |gaps| == |fills| + 1
  {
    if |fills| == 0 then gaps[0] else gaps[0] + fills[0] + Weave(gaps[1..], fills[1..])
  }

  function Placeholders(spans: seq<Span>): (ps: seq<string>)
    ensures |ps| == |spans|
  {
    seq(|spans|, i requires 0 <= i < |spans| => Placeholder(spans[i].kind))
  }

  /** The original text under each span. */
  function Originals(text: string, spans: seq<Span>): (os: seq<string>)
    ensures |os| == |spans|
  {
    seq(|spans|, i requires 0 <= i < |spans| => Slice(text, spans[i].start, spans[i].end))
  }

  lemma GapsTail(text: string, spans: seq<Span>, cursor: int)
    requires |spans| > 0
    ensures Gaps(text, spans, cursor)[1..] == Gaps(text, spans[1..], spans[0].end)
  {
  }

  /** The masked string is the verbatim gaps interleaved with one placeholder per span. */
  lemma {:induction false} MaskIsWeave(text: string, spans: seq<Span>, cursor: int)
    ensures MaskFrom(text, spans, cursor) == Weave(Gaps(text, spans, cursor), Placeholders(spans))
    decreases |spans|
  {
    if |spans| > 0 {
      MaskIsWeave(text, spans[1..], spans[0].end);
      GapsTail(text, spans, cursor);
      assert Placeholders(spans)[1..] == Placeholders(spans[1..]);
    }
  }

  /** Putting each span's original text back in place of its placeholder gives the text again. */
  lemma {:induction false} WeaveOriginals(text: string, spans: seq<Span>, cursor: int)
    requires InBounds(spans, |text|) && Disjoint(spans)
    requires 0 <= cursor <= |text|
    requires |spans| > 0 ==> cursor <= spans[0].start
    ensures Weave(Gaps(text, spans, cursor), Originals(text, spans)) == text[cursor..]
    decreases |spans|
  {
    if |spans| > 0 {
      var s := spans[0];
      TailFacts(spans, |text|);
      WeaveOriginals(text, spans[1..], s.end);
      WeaveOriginalsStep(text, spans, cursor);
      SliceSplit3(text, cursor, s.start, s.end);
    }
  }

  lemma TailFacts(spans: seq<Span>, n: int)
    requires InBounds(spans, n) && Disjoint(spans) && |spans| > 0
    ensures InBounds(spans[1..], n) && Disjoint(spans[1..])
    ensures 0 <= spans[0].start <= spans[0].end <= n
    ensures |spans| > 1 ==> spans[0].end <= spans[1].start
  {
    assert forall i :: 0 <= i < |spans| - 1 ==> spans[1..][i] == spans[i + 1];
  }

  lemma WeaveOriginalsStep(text: string, spans: seq<Span>, cursor: int)
    requires |spans| > 0 && 0 <= cursor <= spans[0].start <= spans[0].end <= |text|
    ensures Weave(Gaps(text, spans, cursor), Originals(text, spans))
         == text[cursor..spans[0].start] + text[spans[0].start..spans[0].end]
          + Weave(Gaps(text, spans[1..], spans[0].end), Originals(text, spans[1..]))
  {
    GapsTail(text, spans, cursor);
    assert Originals(text, spans)[1..] == Originals(text, spans[1..]);
  }

  /** With no spans the masked string is the text itself. */
  lemma MaskNoSpans(text: string)
    ensures Masked(text, []) == text
  {
  }
}

=== FILE: maskedparts.dfy ===
/**
 * The two client parsers of `[MASKED]` tokens: `parseRedactedText` in the `RedactedText`
 * component, and the capture-group `split` of `StaticRedactedText`.
 *
 * Both are written over an arbitrary non-empty token `tok`; `ParseRedactedText` and `SplitKeep`
 * fix it to `Token`. The occurrence count also needs the token's first character not to recur
 * inside it (`HeadUnique`), which `Token` satisfies.
 */
module MaskedParts {
  import opened Wrappers
  import opened JsString

  const Token: string := "[MASKED]"

  /** The first character of `tok` does not occur again in `tok`. */
  predicate HeadUnique(tok: string)
  {
    |tok| > 0 && forall d :: 0 < d < |tok| ==> tok[d] != tok[0]
  }

  lemma TokenHeadUnique()
    ensures HeadUnique(Token)
  {
  }

  /** Two occurrences of a `HeadUnique` token never overlap. */
  lemma NoSelfOverlap(t: string, tok: string, i: int, j: int)
    requires HeadUnique(tok) && OccursAt(t, tok, i) && i < j < i + |tok|
    ensures !OccursAt(t, tok, j)
  {
    assert t[j] == t[i..i + |tok|][j - i] == tok[j - i];
  }

  /** `tok` occurs in `t` at `i`, compared character by character from position `j` of `tok`. */
  predicate MatchesFrom(t: string, tok: string, i: nat, j: nat)
    decreases |tok| - j
  {
    j >= |tok| || (i + j < |t| && t[i + j] == tok[j] && MatchesFrom(t, tok, i, j + 1))
  }

  lemma {:induction false} MatchesFromOccurs(t: string, tok: string, i: nat, j: nat)
    requires j <= |tok| && i + |tok| <= |t|
    ensures MatchesFrom(t, tok, i, j) <==> t[i + j..i + |tok|] == tok[j..]
    decreases |tok| - j
  {
    if j < |tok| {
      MatchesFromOccurs(t, tok, i, j + 1);
      assert t[i + j..i + |tok|] == [t[i + j]] + t[i + j + 1..i + |tok|];
      assert tok[j..] == [tok[j]] + tok[j + 1..];
    }
  }

  /** The first occurrence of `tok` at or after `from`: what a global `exec` of the token pattern reports. */
  function FindToken(t: string, tok: string, from: nat): (r: Option<nat>)
    ensures r.Some? ==> from <= r.value && r.value + |tok| <= |t|
    decreases |t| - from
  {
    if from + |tok| > |t| then None
    else if MatchesFrom(t, tok, from, 0) then Some(from)
    else FindToken(t, tok, from + 1)
  }

  /** `FindToken` reports the leftmost occurrence, and `None` only when there is none. */
  lemma {:induction false} FindTokenLeftmost(t: string, tok: string, from: nat)
    ensures FindToken(t, tok, from).Some? ==> OccursAt(t, tok, FindToken(t, tok, from).value)
    ensures FindToken(t, tok, from).Some? ==> forall j :: from <= j < FindToken(t, tok, from).value ==> !OccursAt(t, tok, j)
    ensures FindToken(t, tok, from).None? ==> forall j :: from <= j ==> !OccursAt(t, tok, j)
    decreases |t| - from
  {
    if from + |tok| <= |t| {
      MatchesFromOccurs(t, tok, from, 0);
      if !MatchesFrom(t, tok, from, 0) {
        FindTokenLeftmost(t, tok, from + 1);
      }
    }
  }

  lemma FoundIsToken(t: string, tok: string, from: nat, i: nat)
    requires FindToken(t, tok, from) == Some(i)
    ensures t[i..i + |tok|] == tok
  {
    FindTokenLeftmost(t, tok, from);
  }

  /** One rendered part. */
  datatype Part = Part(text: string, isRedacted: bool)

  /** The parse loop from `lastIndex == last`: redacted parts hold the token, plain parts some text. */
  function ParseFrom(t: string, tok: string, last: nat): (ps: seq<Part>)
    requires |tok| > 0
    ensures forall k :: 0 <= k < |ps| && ps[k].isRedacted ==> ps[k].text == tok
    ensures forall k :: 0 <= k < |ps| && !ps[k].isRedacted ==> |ps[k].text| > 0
    decreases |t| - last
  {
    var r := FindToken(t, tok, last);
    FindTokenLeftmost(t, tok, last);
    if r.None? then (if last < |t| then [Part(SliceFrom(t, last), false)] else [])
    else
      var i := r.value;
      var pre := if i > last then [Part(Slice(t, last, i), false)] else [];
      var rest := ParseFrom(t, tok, i + |tok|);
      PartsJoin(pre, tok, rest);
      pre + [Part(tok, true)] + rest
  }

  /** Joining parts that each keep the two shape rules keeps them. */
  lemma PartsJoin(pre: seq<Part>, tok: string, rest: seq<Part>)
    requires forall k :: 0 <= k < |pre| ==> !pre[k].isRedacted && |pre[k].text| > 0
    requires forall k :: 0 <= k < |rest| && rest[k].isRedacted ==> rest[k].text == tok
    requires forall k :: 0 <= k < |rest| && !rest[k].isRedacted ==> |rest[k].text| > 0
    ensures var ps := pre + [Part(tok, true)] + rest;
      && (forall k :: 0 <= k < |ps| && ps[k].isRedacted ==> ps[k].text == tok)
      && (forall k :: 0 <= k < |ps| && !ps[k].isRedacted ==> |ps[k].text| > 0)
  {
    var ps := pre + [Part(tok, true)] + rest;
    forall k | 0 <= k < |ps|
      ensures (ps[k].isRedacted ==> ps[k].text == tok) && (!ps[k].isRedacted ==> |ps[k].text| > 0)
    {
      if k < |pre| {
        assert ps[k] == pre[k];
      } else if k > |pre| {
        assert ps[k] == rest[k - |pre| - 1];
      }
    }
  }

  /** `parseRedactedText`: well-formed parts whose texts, put together, give back `t`. */
  function ParseRedactedText(t: string): (ps: seq<Part>)
    ensures PartsWellFormed(ps, Token)
    ensures Concat(Texts(ps)) == t
  {
    ParseWellFormed(t, Token, 0);
    ParseRoundTrip(t, Token, 0);
    ParseFrom(t, Token, 0)
  }

  function Texts(ps: seq<Part>): (ts: seq<string>)
    ensures |ts| == |ps|
    ensures forall i :: 0 <= i < |ps| ==> ts[i] == ps[i].text
  {
    seq(|ps|, i requires 0 <= i < |ps| => ps[i].text)
  }

  lemma TextsAppend(a: seq<Part>, b: seq<Part>)
    ensures Texts(a + b) == Texts(a) + Texts(b)
  {
  }

  lemma TextsAround(gap: seq<Part>, tok: string, rest: seq<Part>)
    ensures Texts(gap + [Part(tok, true)] + rest) == Texts(gap) + [tok] + Texts(rest)
  {
    TextsAppend(gap + [Part(tok, true)], rest);
    TextsAppend(gap, [Part(tok, true)]);
  }

  /** Number of occurrences of `tok` starting at `k` or later. */
  function Occurrences(t: string, tok: string, k: nat): nat
    decreases |t| + 1 - k
  {
    if k > |t| then 0 else (if OccursAt(t, tok, k) then 1 else 0) + Occurrences(t, tok, k + 1)
  }

  function RedactedCount(ps: seq<Part>): nat
  {
    if |ps| == 0 then 0 else (if ps[0].isRedacted then 1 else 0) + RedactedCount(ps[1..])
  }

  lemma {:induction false} RedactedCountAppend(a: seq<Part>, b: seq<Part>)
    ensures RedactedCount(a + b) == RedactedCount(a) + RedactedCount(b)
  {
    if |a| == 0 {
      assert a + b == b;
    } else {
      assert (a + b)[1..] == a[1..] + b;
      RedactedCountAppend(a[1..], b);
    }
  }

  /** The well-formedness `parseRedactedText` promises of its parts. */
  predicate PartsWellFormed(ps: seq<Part>, tok: string)
  {
    && (forall i :: 0 <= i < |ps| && ps[i].isRedacted ==> ps[i].text == tok)
    && (forall i :: 0 <= i < |ps| && !ps[i].isRedacted ==> |ps[i].text| > 0 && !Contains(ps[i].text, tok))
    && (forall i :: 0 <= i < |ps| - 1 ==> ps[i].isRedacted || ps[i + 1].isRedacted)
  }

  lemma OccursInSlice(t: string, tok: string, a: nat, b: nat, j: nat)
    requires a <= b <= |t| && OccursAt(t[a..b], tok, j)
    ensures OccursAt(t, tok, a + j)
  {
    SliceOfSlice(t, a, b, j, j + |tok|);
  }

  lemma NoTokenIn(t: string, tok: string, a: nat, b: nat)
    requires a <= b <= |t|
    requires forall j :: a <= j && j + |tok| <= b ==> !OccursAt(t, tok, j)
    ensures !Contains(t[a..b], tok)
  {
    if Contains(t[a..b], tok) {
      var j :| 0 <= j <= |t[a..b]| && OccursAt(t[a..b], tok, j);
      OccursInSlice(t, tok, a, b, j);
    }
  }

  /** `ParseFrom` after a token found at `i`. */
  lemma ParseFound(t: string, tok: string, last: nat, i: nat)
    requires |tok| > 0 && FindToken(t, tok, last) == Some(i)
    ensures ParseFrom(t, tok, last) == (if i > last then [Part(t[last..i], false)] else []) + [Part(tok, true)] + ParseFrom(t, tok, i + |tok|)
    ensures last <= i && i + |tok| <= |t|
  {
  }

  /** `ParseFrom` when no token follows `last`. */
  lemma ParseNone(t: string, tok: string, last: nat)
    requires |tok| > 0 && last <= |t| && FindToken(t, tok, last).None?
    ensures Concat(Texts(ParseFrom(t, tok, last))) == t[last..]
  {
    if last < |t| {
      assert ParseFrom(t, tok, last) == [Part(t[last..], false)];
      assert Texts([Part(t[last..], false)]) == [t[last..]];
    } else {
      assert ParseFrom(t, tok, last) == [];
    }
  }

  lemma ConcatTexts3(g: seq<Part>, p: Part, r: seq<Part>)
    ensures Concat(Texts(g + [p] + r)) == Concat(Texts(g)) + p.text + Concat(Texts(r))
  {
    TextsAppend(g + [p], r);
    TextsAppend(g, [p]);
    assert Texts([p]) == [p.text];
    assert Texts(g + [p] + r) == Texts(g) + [p.text] + Texts(r);
    ConcatAppend(Texts(g) + [p.text], Texts(r));
    ConcatAppend(Texts(g), [p.text]);
    assert Concat([p.text]) == p.text;
  }

  lemma ParseFoundConcat(t: string, tok: string, last: nat, i: nat)
    requires |tok| > 0 && FindToken(t, tok, last) == Some(i)
    ensures Concat(Texts(ParseFrom(t, tok, last))) == t[last..i] + tok + Concat(Texts(ParseFrom(t, tok, i + |tok|)))
  {
    var gap := if i > last then [Part(t[last..i], false)] else [];
    ParseFound(t, tok, last, i);
    ConcatTexts3(gap, Part(tok, true), ParseFrom(t, tok, i + |tok|));
    assert Concat(Texts(gap)) == t[last..i];
  }

  /** Concatenating the parts' texts gives back the text. */
  lemma {:induction false} ParseRoundTrip(t: string, tok: string, last: nat)
    requires |tok| > 0 && last <= |t|
    ensures Concat(Texts(ParseFrom(t, tok, last))) == t[last..]
    decreases |t| - last
  {
    var r := FindToken(t, tok, last);
    if r.None? {
      ParseNone(t, tok, last);
    } else {
      var i := r.value;
      ParseFound(t, tok, last, i);
      ParseRoundTrip(t, tok, i + |tok|);
      RoundTripFound(t, tok, last, i);
    }
  }

  lemma RoundTripFound(t: string, tok: string, last: nat, i: nat)
    requires |tok| > 0 && FindToken(t, tok, last) == Some(i)
    requires i + |tok| <= |t| && Concat(Texts(ParseFrom(t, tok, i + |tok|))) == t[i + |tok|..]
    ensures Concat(Texts(ParseFrom(t, tok, last))) == t[last..]
  {
    ParseFoundConcat(t, tok, last, i);
    FoundIsToken(t, tok, last, i);
    SliceAround(t, tok, last, i);
  }

  /** A plain piece (if any), a token, then well-formed parts form well-formed parts. */
  lemma WellFormedAround(gap: seq<Part>, tok: string, rest: seq<Part>)
    requires |gap| <= 1
    requires |gap| == 1 ==> !gap[0].isRedacted && |gap[0].text| > 0 && !Contains(gap[0].text, tok)
    requires PartsWellFormed(rest, tok)
    ensures PartsWellFormed(gap + [Part(tok, true)] + rest, tok)
  {
    var ps := gap + [Part(tok, true)] + rest;
    forall k | |gap| < k < |ps| ensures ps[k] == rest[k - |gap| - 1] {
    }
  }

  /** Redacted parts are the token, the other parts are non-empty and token-free, and no two of those are adjacent. */
  lemma {:induction false} ParseWellFormed(t: string, tok: string, last: nat)
    requires |tok| > 0
    ensures PartsWellFormed(ParseFrom(t, tok, last), tok)
    decreases |t| - last
  {
    var r := FindToken(t, tok, last);
    if r.None? {
      WellFormedNone(t, tok, last);
    } else {
      var i := r.value;
      ParseFound(t, tok, last, i);
      ParseWellFormed(t, tok, i + |tok|);
      WellFormedFound(t, tok, last, i);
    }
  }

  lemma WellFormedNone(t: string, tok: string, last: nat)
    requires |tok| > 0 && FindToken(t, tok, last).None?
    ensures PartsWellFormed(ParseFrom(t, tok, last), tok)
  {
    FindTokenLeftmost(t, tok, last);
    if last < |t| {
      NoTokenIn(t, tok, last, |t|);
    }
  }

  lemma WellFormedFound(t: string, tok: string, last: nat, i: nat)
    requires |tok| > 0 && FindToken(t, tok, last) == Some(i)
    requires PartsWellFormed(ParseFrom(t, tok, i + |tok|), tok)
    ensures PartsWellFormed(ParseFrom(t, tok, last), tok)
  {
    FindTokenLeftmost(t, tok, last);
    ParseFound(t, tok, last, i);
    if i > last {
      NoTokenIn(t, tok, last, i);
    }
    WellFormedAround(if i > last then [Part(t[last..i], false)] else [], tok, ParseFrom(t, tok, i + |tok|));
  }

  lemma {:induction false} OccurrencesSkip(t: string, tok: string, a: nat, b: nat)
    requires a <= b
    requires forall j :: a <= j < b ==> !OccursAt(t, tok, j)
    ensures Occurrences(t, tok, a) == Occurrences(t, tok, b)
    decreases b - a
  {
    if a < b {
      OccurrencesSkip(t, tok, a + 1, b);
    }
  }

  lemma CountAround(gap: seq<Part>, tok: string, rest: seq<Part>)
    requires |gap| <= 1 && (|gap| == 1 ==> !gap[0].isRedacted)
    ensures RedactedCount(gap + [Part(tok, true)] + rest) == 1 + RedactedCount(rest)
  {
    RedactedCountAppend(gap + [Part(tok, true)], rest);
    RedactedCountAppend(gap, [Part(tok, true)]);
  }

  /** The token found at `i` is followed by no other occurrence before `i + |tok|`. */
  lemma OccurrencesAtToken(t: string, tok: string, i: nat)
    requires HeadUnique(tok) && OccursAt(t, tok, i)
    ensures Occurrences(t, tok, i) == 1 + Occurrences(t, tok, i + |tok|)
  {
    forall j | i + 1 <= j < i + |tok| ensures !OccursAt(t, tok, j) {
      NoSelfOverlap(t, tok, i, j);
    }
    OccurrencesSkip(t, tok, i + 1, i + |tok|);
  }

  /** There is one redacted part per occurrence of the token in the text. */
  lemma {:induction false} ParseCountsTokens(t: string, tok: string, last: nat)
    requires HeadUnique(tok)
    ensures RedactedCount(ParseFrom(t, tok, last)) == Occurrences(t, tok, last)
    decreases |t| - last
  {
    var r := FindToken(t, tok, last);
    FindTokenLeftmost(t, tok, last);
    if r.None? {
      if last <= |t| {
        OccurrencesSkip(t, tok, last, |t| + 1);
      }
    } else {
      var i := r.value;
      ParseFound(t, tok, last, i);
      ParseCountsTokens(t, tok, i + |tok|);
      CountAround(if i > last then [Part(t[last..i], false)] else [], tok, ParseFrom(t, tok, i + |tok|));
      OccurrencesSkip(t, tok, last, i);
      OccurrencesAtToken(t, tok, i);
    }
  }

  /** `parseRedactedText` of the masked text: one `[MASKED]` part per occurrence of `[MASKED]`. */
  lemma RedactedTextCounts(t: string)
    ensures RedactedCount(ParseRedactedText(t)) == Occurrences(t, Token, 0)
  {
    TokenHeadUnique();
    ParseCountsTokens(t, Token, 0);
  }

  lemma ParseEmpty()
    ensures ParseRedactedText("") == []
  {
  }

  /** Text without the token is one plain part. */
  lemma ParseNoToken(t: string)
    requires |t| > 0 && !Contains(t, Token)
    ensures ParseRedactedText(t) == [Part(t, false)]
  {
    var r := FindToken(t, Token, 0);
    FindTokenLeftmost(t, Token, 0);
    if r.Some? {
      assert false;
    }
  }

  predicate Odd(k: nat) { k % 2 == 1 }

  /** `maskedText.split(/(\[MASKED\])/)` from `last`: the pieces between tokens, with each token kept. */
  function SplitFrom(t: string, tok: string, last: nat): (ps: seq<string>)
    requires |tok| > 0
    ensures Odd(|ps|)
    decreases |t| - last
  {
    var r := FindToken(t, tok, last);
    if r.None? then [SliceFrom(t, last)]
    else
      var i := r.value;
      [Slice(t, last, i), tok] + SplitFrom(t, tok, i + |tok|)
  }

  function SplitKeep(t: string): seq<string>
  {
    SplitFrom(t, Token, 0)
  }

  lemma SplitFound(t: string, tok: string, last: nat, i: nat)
    requires |tok| > 0 && FindToken(t, tok, last) == Some(i)
    ensures SplitFrom(t, tok, last) == [t[last..i], tok] + SplitFrom(t, tok, i + |tok|)
    ensures last <= i && i + |tok| <= |t|
  {
  }

  lemma SplitNone(t: string, tok: string, last: nat)
    requires |tok| > 0 && FindToken(t, tok, last).None?
    ensures SplitFrom(t, tok, last) == [SliceFrom(t, last)]
  {
  }

  /** The text before the first token found from `last` is not itself the token. */
  lemma GapNotToken(t: string, tok: string, last: nat, i: nat)
    requires |tok| > 0 && FindToken(t, tok, last) == Some(i)
    ensures t[last..i] != tok
  {
    FindTokenLeftmost(t, tok, last);
    if t[last..i] == tok {
      assert OccursAt(t, tok, last);
    }
  }

  /** Nor is the text after the last token. */
  lemma TailNotToken(t: string, tok: string, last: nat)
    requires |tok| > 0 && FindToken(t, tok, last).None?
    ensures SliceFrom(t, last) != tok
  {
    FindTokenLeftmost(t, tok, last);
    if last <= |t| {
      assert !OccursAt(t, tok, last);
      assert last + |tok| == |t| ==> t[last..last + |tok|] == t[last..];
    }
  }

  lemma OddStep(k: nat)
    requires k >= 2
    ensures Odd(k) <==> Odd(k - 2)
  {
  }

  /** With no token after `last`, the split is one plain piece. */
  lemma TokensAtOddNone(t: string, tok: string, last: nat, k: nat)
    requires |tok| > 0 && FindToken(t, tok, last).None? && k < |SplitFrom(t, tok, last)|
    ensures SplitFrom(t, tok, last)[k] == tok <==> Odd(k)
  {
    SplitNone(t, tok, last);
    TailNotToken(t, tok, last);
  }

  /** A token found at `i` puts the gap at position 0 and the token at position 1. */
  lemma TokensAtOddHead(t: string, tok: string, last: nat, i: nat, k: nat)
    requires |tok| > 0 && FindToken(t, tok, last) == Some(i) && k < 2
    ensures k < |SplitFrom(t, tok, last)|
    ensures SplitFrom(t, tok, last)[k] == tok <==> Odd(k)
  {
    SplitFound(t, tok, last, i);
    GapNotToken(t, tok, last, i);
  }

  /** Past the first gap and token, position `k` is position `k - 2` of the split after the token. */
  lemma TokensAtOddShift(t: string, tok: string, last: nat, i: nat, k: nat)
    requires |tok| > 0 && FindToken(t, tok, last) == Some(i) && 2 <= k < |SplitFrom(t, tok, last)|
    ensures k - 2 < |SplitFrom(t, tok, i + |tok|)|
    ensures SplitFrom(t, tok, last)[k] == SplitFrom(t, tok, i + |tok|)[k - 2]
  {
    SplitFound(t, tok, last, i);
  }

  /** Position `k` of the split holds the token exactly when `k` is odd. */
  lemma {:induction false} SplitTokensAtOdd(t: string, tok: string, last: nat, k: nat)
    requires |tok| > 0 && k < |SplitFrom(t, tok, last)|
    ensures SplitFrom(t, tok, last)[k] == tok <==> Odd(k)
    decreases |t| - last
  {
    var r := FindToken(t, tok, last);
    if r.None? {
      TokensAtOddNone(t, tok, last, k);
    } else if k < 2 {
      TokensAtOddHead(t, tok, last, r.value, k);
    } else {
      TokensAtOddShift(t, tok, last, r.value, k);
      SplitTokensAtOdd(t, tok, r.value + |tok|, k - 2);
      OddStep(k);
    }
  }

  /** The label `StaticRedactedText` shows for split piece `k`: `spans[floor(k / 2)]` when the piece is the token. */
  function LabelFor<S>(pieces: seq<string>, spans: seq<S>, k: nat): Option<S>
    requires k < |pieces|
  {
    if pieces[k] == Token && k / 2 < |spans| then Some(spans[k / 2]) else None
  }

  /** The `j`-th token of the masked text (split index `2j + 1`) is labelled with `spans[j]`. */
  lemma StaticLabels<S>(t: string, spans: seq<S>, j: nat)
    requires 2 * j + 1 < |SplitKeep(t)| && j < |spans|
    ensures LabelFor(SplitKeep(t), spans, 2 * j + 1) == Some(spans[j])
  {
    SplitTokensAtOdd(t, Token, 0, 2 * j + 1);
  }

  /** The non-empty pieces, in order. */
  function NonEmpty(ss: seq<string>): seq<string>
  {
    if |ss| == 0 then [] else (if |ss[0]| > 0 then [ss[0]] else []) + NonEmpty(ss[1..])
  }

  lemma {:induction false} NonEmptyAppend(a: seq<string>, b: seq<string>)
    ensures NonEmpty(a + b) == NonEmpty(a) + NonEmpty(b)
  {
    if |a| == 0 {
      assert a + b == b;
    } else {
      assert (a + b)[1..] == a[1..] + b;
      NonEmptyAppend(a[1..], b);
    }
  }

  lemma NonEmptyAround(g: string, tok: string, rest: seq<string>)
    requires |tok| > 0
    ensures NonEmpty([g, tok] + rest) == (if |g| > 0 then [g] else []) + [tok] + NonEmpty(rest)
  {
    NonEmptyAppend([g, tok], rest);
    NonEmptyAppend([g], [tok]);
    assert [g, tok] == [g] + [tok];
  }

  /** The split, with its empty pieces dropped, lists the texts of the parsed parts. */
  predicate Agree(t: string, tok: string, last: nat)
    requires |tok| > 0
  {
    NonEmpty(SplitFrom(t, tok, last)) == Texts(ParseFrom(t, tok, last))
  }

  lemma AgreeNone(t: string, tok: string, last: nat)
    requires |tok| > 0 && FindToken(t, tok, last).None?
    ensures Agree(t, tok, last)
  {
    SplitNone(t, tok, last);
    assert NonEmpty([SliceFrom(t, last)]) == (if |SliceFrom(t, last)| > 0 then [SliceFrom(t, last)] else []);
  }

  lemma AgreeFound(t: string, tok: string, last: nat, i: nat)
    requires |tok| > 0 && FindToken(t, tok, last) == Some(i) && Agree(t, tok, i + |tok|)
    ensures Agree(t, tok, last)
  {
    SplitFound(t, tok, last, i);
    ParseFound(t, tok, last, i);
    var g := t[last..i];
    var gap := if i > last then [Part(g, false)] else [];
    var lead := if |g| > 0 then [g] else [];
    assert Texts(gap) == lead;
    NonEmptyAround(g, tok, SplitFrom(t, tok, i + |tok|));
    TextsAround(gap, tok, ParseFrom(t, tok, i + |tok|));
  }

  /** The two parsers agree: dropping the empty split pieces leaves the texts of the parsed parts. */
  lemma {:induction false} SplitAgreesWithParse(t: string, tok: string, last: nat)
    requires |tok| > 0
    ensures Agree(t, tok, last)
    decreases |t| - last
  {
    var r := FindToken(t, tok, last);
    if r.None? {
      AgreeNone(t, tok, last);
    } else {
      SplitAgreesWithParse(t, tok, r.value + |tok|);
      AgreeFound(t, tok, last, r.value);
    }
  }
}

=== FILE: matcher.dfy ===
/**
 * `collectMatches`: run a global regex over a text with `exec` until it fails.
 *
 * `exec` from `lastIndex` tries the start positions `lastIndex, lastIndex + 1, ...` and stops at
 * the first one where the pattern matches at all; that start is computed here. Which end the
 * backtracking engine then reports (greedy and lazy quantifiers decide it) is not modelled: it is
 * the `Chooser` parameter, constrained only to report a real match.
 *
 * The scan is written for any match relation `lang`; the redactor runs it with `Patterns.MatchAt`.
 */
module Matcher {
  import opened Wrappers
  import opened Patterns

  /** Which `t[s..e]` a pattern matches when the match starts at `s`. */
  type Lang = (Pattern, string, int, int) -> bool

  /** Some match of `p` starts at index `s`. */
  predicate Starts(lang: Lang, p: Pattern, t: string, s: int)
  {
    exists e | s <= e <= |t| :: lang(p, t, s, e)
  }

  lemma StartsMatchAt(p: Pattern, t: string, s: int)
    ensures Starts(MatchAt, p, t, s) <==> MatchesFrom(p, t, s)
  {
  }

  /** The length of the match the regex engine reports for a pattern at a start position. */
  type Chooser = (Pattern, string, nat) -> nat

  /** The chooser reports a genuine match inside the text wherever a match starts. */
  ghost predicate ValidChooser(lang: Lang, choose: Chooser)
  {
    forall p, t, s: nat :: Starts(lang, p, t, s) ==> s + choose(p, t, s) <= |t| && lang(p, t, s, s + choose(p, t, s))
  }

  /** The least start `s >= pos` at which `p` matches; `None` when there is none. */
  function LeftmostStart(lang: Lang, p: Pattern, t: string, pos: nat): (r: Option<nat>)
    ensures r.Some? ==> pos <= r.value <= |t|
    decreases |t| + 1 - pos
  {
    if pos > |t| then None
    else if Starts(lang, p, t, pos) then Some(pos)
    else LeftmostStart(lang, p, t, pos + 1)
  }

  lemma {:induction false} LeftmostStartSpec(lang: Lang, p: Pattern, t: string, pos: nat)
    ensures LeftmostStart(lang, p, t, pos).Some? ==> Starts(lang, p, t, LeftmostStart(lang, p, t, pos).value)
    ensures LeftmostStart(lang, p, t, pos).Some? ==>
      forall s :: pos <= s < LeftmostStart(lang, p, t, pos).value ==> !Starts(lang, p, t, s)
    ensures LeftmostStart(lang, p, t, pos).None? ==> forall s :: pos <= s <= |t| ==> !Starts(lang, p, t, s)
    decreases |t| + 1 - pos
  {
    if pos <= |t| && !Starts(lang, p, t, pos) {
      LeftmostStartSpec(lang, p, t, pos + 1);
    }
  }

  /** `r.exec(t)` with `r.lastIndex == pos`: the start and end of the match, or `null`. */
  function Exec(lang: Lang, p: Pattern, t: string, pos: nat, choose: Chooser): (r: Option<(nat, nat)>)
    ensures r.Some? ==> pos <= r.value.0 <= r.value.1
  {
    var s := LeftmostStart(lang, p, t, pos);
    if s.None? then None else Some((s.value, s.value + choose(p, t, s.value)))
  }

  /** `exec` finds the leftmost start, reports a real match there, and fails only when nothing matches. */
  lemma ExecSpec(lang: Lang, p: Pattern, t: string, pos: nat, choose: Chooser)
    requires ValidChooser(lang, choose)
    ensures var r := Exec(lang, p, t, pos, choose);
      && (r.Some? ==> r.value.1 <= |t| && lang(p, t, r.value.0, r.value.1))
      && (r.Some? ==> forall s :: pos <= s < r.value.0 ==> !Starts(lang, p, t, s))
      && (r.None? <==> forall s :: pos <= s <= |t| ==> !Starts(lang, p, t, s))
  {
    LeftmostStartSpec(lang, p, t, pos);
  }

  /** `lastIndex` after a match `[s, e)`: `e`, bumped by one for an empty match. */
  function NextIndex(s: nat, e: nat): nat
  {
    if s == e then e + 1 else e
  }

  /** One recorded match. */
  datatype Hit = Hit(start: nat, end: nat)

  /** The matches `exec` reports from `lastIndex == pos` until it returns `null`. */
  function Collect(lang: Lang, p: Pattern, t: string, pos: nat, choose: Chooser): (hs: seq<Hit>)
    ensures forall i :: 0 <= i < |hs| ==> pos <= hs[i].start <= hs[i].end
    decreases |t| + 1 - pos
  {
    var r := Exec(lang, p, t, pos, choose);
    if r.None? then []
    else
      var (s, e) := r.value;
      [Hit(s, e)] + Collect(lang, p, t, NextIndex(s, e), choose)
  }

  /** `Collect` after a match `[s, e)` reported from `pos`. */
  lemma CollectFound(lang: Lang, p: Pattern, t: string, pos: nat, choose: Chooser, s: nat, e: nat)
    requires Exec(lang, p, t, pos, choose) == Some((s, e))
    ensures Collect(lang, p, t, pos, choose) == [Hit(s, e)] + Collect(lang, p, t, NextIndex(s, e), choose)
  {
  }

  /** Every recorded match is a real match of the pattern inside the text. */
  lemma {:induction false} CollectMember(lang: Lang, p: Pattern, t: string, pos: nat, choose: Chooser, h: Hit)
    requires ValidChooser(lang, choose)
    requires h in Collect(lang, p, t, pos, choose)
    ensures pos <= h.start <= h.end <= |t| && lang(p, t, h.start, h.end)
    decreases |t| + 1 - pos
  {
    var r := Exec(lang, p, t, pos, choose);
    ExecSpec(lang, p, t, pos, choose);
    if r.Some? {
      var (s, e) := r.value;
      CollectFound(lang, p, t, pos, choose, s, e);
      if h != Hit(s, e) {
        CollectMember(lang, p, t, NextIndex(s, e), choose, h);
      }
    }
  }

  /** Recorded matches come in increasing start order and do not overlap. */
  ghost predicate Ordered(hs: seq<Hit>)
  {
    forall i :: 0 <= i < |hs| - 1 ==> hs[i].end <= hs[i + 1].start && hs[i].start < hs[i + 1].start
  }

  lemma {:induction false} CollectOrdered(lang: Lang, p: Pattern, t: string, pos: nat, choose: Chooser)
    ensures Ordered(Collect(lang, p, t, pos, choose))
    decreases |t| + 1 - pos
  {
    var r := Exec(lang, p, t, pos, choose);
    if r.Some? {
      var (s, e) := r.value;
      var rest := Collect(lang, p, t, NextIndex(s, e), choose);
      CollectFound(lang, p, t, pos, choose, s, e);
      CollectOrdered(lang, p, t, NextIndex(s, e), choose);
      var hs := [Hit(s, e)] + rest;
      forall i | 0 <= i < |hs| - 1
        ensures hs[i].end <= hs[i + 1].start && hs[i].start < hs[i + 1].start
      {
        if i > 0 {
          assert hs[i] == rest[i - 1] && hs[i + 1] == rest[i];
        } else {
          assert hs[1] == rest[0];
        }
      }
    }
  }

  /** The scan window of a recorded match: the starts `exec` skips because of it. */
  ghost predicate Shadows(h: Hit, s: int)
  {
    h.start <= s < NextIndex(h.start, h.end)
  }

  /** Every position from `pos` on where the pattern matches lies in the window of a recorded match. */
  lemma {:induction false} CollectComplete(lang: Lang, p: Pattern, t: string, pos: nat, choose: Chooser, s: nat)
    requires ValidChooser(lang, choose)
    requires pos <= s <= |t| && Starts(lang, p, t, s)
    ensures exists i :: 0 <= i < |Collect(lang, p, t, pos, choose)| && Shadows(Collect(lang, p, t, pos, choose)[i], s)
    decreases |t| + 1 - pos
  {
    var hs := Collect(lang, p, t, pos, choose);
    var x := Exec(lang, p, t, pos, choose);
    ExecSpec(lang, p, t, pos, choose);
    var (s0, e0) := x.value;
    CollectFound(lang, p, t, pos, choose, s0, e0);
    if s >= NextIndex(s0, e0) {
      var rest := Collect(lang, p, t, NextIndex(s0, e0), choose);
      CollectComplete(lang, p, t, NextIndex(s0, e0), choose, s);
      var i :| 0 <= i < |rest| && Shadows(rest[i], s);
      assert hs[i + 1] == rest[i];
    } else {
      assert Shadows(hs[0], s);
    }
  }

  /** `collectMatches` records nothing exactly when the pattern matches nowhere from `pos` on. */
  lemma CollectEmptyIff(lang: Lang, p: Pattern, t: string, pos: nat, choose: Chooser)
    requires ValidChooser(lang, choose)
    ensures |Collect(lang, p, t, pos, choose)| == 0 <==> forall s :: pos <= s <= |t| ==> !Starts(lang, p, t, s)
  {
    var r := Exec(lang, p, t, pos, choose);
    ExecSpec(lang, p, t, pos, choose);
    if r.Some? {
      var (s, e) := r.value;
      CollectFound(lang, p, t, pos, choose, s, e);
    }
  }
}

=== FILE: merge.dfy ===
/**
 * `mergeAndSortSpans`: sort by (start ascending, end descending), then fold the sorted list,
 * widening the last merged span over every span that overlaps or touches it.
 */
module Merge {
  import opened JsString
  import opened Spans
  import opened Sorting

  /** The comparator `a.start - b.start || b.end - a.end` as a lexicographic key. */
  function MergeKey(s: Span): Key
  {
    (s.start, -s.end)
  }

  /** One iteration of the `for (const s of sorted)` loop. */
  function Step(merged: seq<Span>, s: Span): (r: seq<Span>)
    ensures |merged| <= |r| <= |merged| + 1 && |r| > 0
    ensures forall i :: 0 <= i < |merged| - 1 ==> r[i] == merged[i]
  {
    if |merged| == 0 then [s]
    else
      var last := merged[|merged| - 1];
      if s.start <= last.end then merged[..|merged| - 1] + [last.(end := Max(last.end, s.end))]
      else merged + [s]
  }

  /** The fold over the sorted list, from the left. */
  function MergeSorted(ss: seq<Span>): (r: seq<Span>)
    ensures |r| <= |ss|
    ensures |r| == 0 <==> |ss| == 0
  {
    if |ss| == 0 then [] else Step(MergeSorted(ss[..|ss| - 1]), ss[|ss| - 1])
  }

  function MergeAndSortSpans(spans: seq<Span>): (r: seq<Span>)
    ensures |r| <= |spans|
    ensures |r| == 0 <==> |spans| == 0
  {
    MergeSorted(SortBy(spans, MergeKey))
  }

  /** Sorting by `MergeKey` orders by start. */
  lemma MergeKeySortedByStart(ss: seq<Span>)
    requires SortedBy(ss, MergeKey)
    ensures StartSorted(ss)
  {
    forall i, j | 0 <= i < j < |ss| ensures ss[i].start <= ss[j].start {
      assert KeyLe(MergeKey(ss[i]), MergeKey(ss[j]));
    }
  }

  /** Span `i` of a sorted list opens a new group: nothing before it reaches its start. */
  ghost predicate IsLeader(ss: seq<Span>, i: int)
    requires 0 <= i < |ss|
  {
    i == 0 || ss[i].start > MaxEnd(ss[..i])
  }

  /** The indices of the group leaders, in increasing order. */
  ghost function Leaders(ss: seq<Span>): seq<nat>
  {
    if |ss| == 0 then []
    else Leaders(ss[..|ss| - 1]) + (if IsLeader(ss, |ss| - 1) then [|ss| - 1] else [])
  }

  /** One past the last index of group `j`. */
  ghost function GroupEnd(ls: seq<nat>, j: int, n: nat): int
    requires 0 <= j < |ls|
  {
    if j + 1 < |ls| then ls[j + 1] else n
  }

  /** One fold step keeps the merged list well formed and separated and moves its last end to the maximum. */
  lemma StepShape(m: seq<Span>, s: Span)
    requires WellFormed(m) && Separated(m) && s.start <= s.end
    requires |m| > 0 ==> m[|m| - 1].start <= s.start
    ensures WellFormed(Step(m, s)) && Separated(Step(m, s))
    ensures 0 < |Step(m, s)| <= |m| + 1
    ensures |m| == 0 ==> Step(m, s)[|Step(m, s)| - 1].end == s.end
    ensures |m| > 0 ==> Step(m, s)[|Step(m, s)| - 1].end == Max(m[|m| - 1].end, s.end)
    ensures forall i :: 0 <= i < |Step(m, s)| ==> Step(m, s)[i].start <= s.start
  {
    if |m| > 0 {
      var last := m[|m| - 1];
      var r := Step(m, s);
      if s.start <= last.end {
        assert r == m[..|m| - 1] + [last.(end := Max(last.end, s.end))];
        assert forall i :: 0 <= i < |m| - 1 ==> r[i] == m[i];
        forall i | 0 <= i < |r| ensures r[i].start <= s.start {
          if i < |m| - 1 {
            assert m[i].end < m[i + 1].start || i + 1 == |m| - 1;
            StartsBelowLast(m, i);
          }
        }
      } else {
        assert r == m + [s];
        forall i | 0 <= i < |r| ensures r[i].start <= s.start {
          if i < |m| {
            StartsBelowLast(m, i);
          }
        }
      }
    }
  }

  lemma {:induction false} StartsBelowLast(m: seq<Span>, i: int)
    requires WellFormed(m) && Separated(m) && 0 <= i < |m|
    ensures m[i].start <= m[|m| - 1].start
    decreases |m| - i
  {
    if i < |m| - 1 {
      StartsBelowLast(m, i + 1);
    }
  }

  /** What the fold keeps true: the shape of the merged list and its last end. */
  lemma {:induction false} MergeShape(ss: seq<Span>)
    requires WellFormed(ss) && StartSorted(ss)
    ensures WellFormed(MergeSorted(ss)) && Separated(MergeSorted(ss))
    ensures |MergeSorted(ss)| <= |ss|
    ensures |MergeSorted(ss)| == 0 <==> |ss| == 0
    ensures |ss| > 0 ==> MergeSorted(ss)[|MergeSorted(ss)| - 1].end == MaxEnd(ss)
    ensures |ss| > 0 ==> forall i :: 0 <= i < |MergeSorted(ss)| ==> MergeSorted(ss)[i].start <= ss[|ss| - 1].start
  {
    if |ss| > 0 {
      var n := |ss| - 1;
      var pre := ss[..n];
      var s := ss[n];
      MergeShape(pre);
      var m := MergeSorted(pre);
      if n > 0 {
        assert pre[n - 1] == ss[n - 1];
      }
      StepShape(m, s);
      if n > 0 {
        assert MaxEnd(ss) == Max(MaxEnd(pre), s.end);
      }
    }
  }

  lemma CoversSnoc(ss: seq<Span>, s: Span, k: int)
    ensures Covers(ss + [s], k) <==> Covers(ss, k) || s.start <= k < s.end
  {
    var t := ss + [s];
    if Covers(t, k) {
      var i :| 0 <= i < |t| && t[i].start <= k < t[i].end;
      if i < |ss| { assert ss[i] == t[i]; }
    }
    if Covers(ss, k) {
      var i :| 0 <= i < |ss| && ss[i].start <= k < ss[i].end;
      assert t[i] == ss[i];
    }
    if s.start <= k < s.end {
      assert t[|ss|] == s;
    }
  }

  /** Widening the last span over a span that starts inside or right after it covers exactly both. */
  lemma CoversWiden(m: seq<Span>, s: Span, k: int)
    requires |m| > 0
    requires m[|m| - 1].start <= s.start <= m[|m| - 1].end
    ensures Covers(m[..|m| - 1] + [m[|m| - 1].(end := Max(m[|m| - 1].end, s.end))], k)
        <==> Covers(m, k) || s.start <= k < s.end
  {
    var last := m[|m| - 1];
    var init := m[..|m| - 1];
    assert m == init + [last];
    CoversSnoc(init, last, k);
    CoversSnoc(init, last.(end := Max(last.end, s.end)), k);
  }

  lemma StepCovers(m: seq<Span>, s: Span, k: int)
    requires |m| > 0 ==> m[|m| - 1].start <= s.start
    ensures Covers(Step(m, s), k) <==> Covers(m, k) || s.start <= k < s.end
  {
    if |m| == 0 {
      assert Step(m, s) == m + [s];
      CoversSnoc(m, s, k);
    } else if s.start <= m[|m| - 1].end {
      CoversWiden(m, s, k);
    } else {
      CoversSnoc(m, s, k);
    }
  }

  /** Merging neither adds nor loses a covered character position. */
  lemma {:induction false} MergeCovers(ss: seq<Span>, k: int)
    requires WellFormed(ss) && StartSorted(ss)
    ensures Covers(MergeSorted(ss), k) <==> Covers(ss, k)
  {
    if |ss| > 0 {
      var n := |ss| - 1;
      var pre := ss[..n];
      assert ss == pre + [ss[n]];
      MergeCovers(pre, k);
      MergeShape(pre);
      if n > 0 {
        assert pre[n - 1] == ss[n - 1];
      }
      StepCovers(MergeSorted(pre), ss[n], k);
      CoversSnoc(pre, ss[n], k);
    }
  }
}

module MergeGroups {
  import opened JsString
  import opened Spans
  import opened Merge

  /** Merged span `j` starts at leader `ls[j]` and carries its label. */
  ghost predicate Heads(ss: seq<Span>, m: seq<Span>, ls: seq<nat>)
  {
    && |m| == |ls|
    && (forall j :: 0 <= j < |ls| ==> ls[j] < |ss|)
    && (forall j :: 0 <= j < |ls| ==> m[j].start == ss[ls[j]].start && m[j].kind == ss[ls[j]].kind)
  }

  /** Index `k` of the sorted list belongs to group `j`. */
  ghost predicate InGroup(ls: seq<nat>, j: int, k: int, n: nat)
  {
    0 <= j < |ls| && ls[j] <= k < GroupEnd(ls, j, n)
  }

  /** No span of group `j` ends after merged span `j`. */
  ghost predicate EndsBounded(ss: seq<Span>, m: seq<Span>, ls: seq<nat>)
    requires |m| == |ls|
  {
    forall j, k :: InGroup(ls, j, k, |ss|) ==> 0 <= k < |ss| && ss[k].end <= m[j].end
  }

  /** Some span of group `j` ends exactly where merged span `j` ends. */
  ghost predicate EndsReached(ss: seq<Span>, m: seq<Span>, ls: seq<nat>)
    requires |m| == |ls|
  {
    forall j :: 0 <= j < |ls| ==> exists k :: ls[j] <= k < GroupEnd(ls, j, |ss|) && 0 <= k < |ss| && ss[k].end == m[j].end
  }

  /**
   * `m` is the merge of the sorted list `ss` with group leaders `ls`: merged span `j` starts at
   * leader `ls[j]` and carries its label, and its end is the largest end in group `j`.
   */
  ghost predicate Grouped(ss: seq<Span>, m: seq<Span>, ls: seq<nat>)
  {
    Heads(ss, m, ls) && EndsBounded(ss, m, ls) && EndsReached(ss, m, ls)
  }

  lemma GroupedPush(pre: seq<Span>, s: Span, m: seq<Span>, ls: seq<nat>)
    requires Grouped(pre, m, ls)
    requires |ls| > 0 ==> ls[|ls| - 1] < |pre|
    ensures Grouped(pre + [s], m + [s], ls + [|pre|])
  {
    PushHeads(pre, s, m, ls);
    PushBounded(pre, s, m, ls);
    PushReached(pre, s, m, ls);
  }

  lemma PushGroupEnd(ls: seq<nat>, n: nat)
    ensures forall j :: 0 <= j < |ls| ==> GroupEnd(ls + [n], j, n + 1) == GroupEnd(ls, j, n)
    ensures GroupEnd(ls + [n], |ls|, n + 1) == n + 1
  {
  }

  lemma PushHeads(pre: seq<Span>, s: Span, m: seq<Span>, ls: seq<nat>)
    requires Heads(pre, m, ls)
    ensures Heads(pre + [s], m + [s], ls + [|pre|])
  {
    var ss := pre + [s];
    var m' := m + [s];
    var ls' := ls + [|pre|];
    forall j | 0 <= j < |ls'| ensures ls'[j] < |ss| && m'[j].start == ss[ls'[j]].start && m'[j].kind == ss[ls'[j]].kind {
      if j < |ls| { assert ss[ls[j]] == pre[ls[j]] && m'[j] == m[j] && ls'[j] == ls[j]; }
    }
  }

  lemma PushBounded(pre: seq<Span>, s: Span, m: seq<Span>, ls: seq<nat>)
    requires |m| == |ls| && EndsBounded(pre, m, ls)
    ensures EndsBounded(pre + [s], m + [s], ls + [|pre|])
  {
    var ss := pre + [s];
    var m' := m + [s];
    var ls' := ls + [|pre|];
    PushGroupEnd(ls, |pre|);
    forall j, k | InGroup(ls', j, k, |ss|) ensures 0 <= k < |ss| && ss[k].end <= m'[j].end {
      if j < |ls| {
        assert ls'[j] == ls[j];
        assert InGroup(ls, j, k, |pre|);
        assert 0 <= k < |pre| && pre[k].end <= m[j].end;
        assert ss[k] == pre[k] && m'[j] == m[j];
      } else {
        assert ls'[j] == |pre| && k == |pre| && ss[k] == s && m'[j] == s;
      }
    }
  }

  lemma PushReached(pre: seq<Span>, s: Span, m: seq<Span>, ls: seq<nat>)
    requires |m| == |ls| && EndsReached(pre, m, ls)
    ensures EndsReached(pre + [s], m + [s], ls + [|pre|])
  {
    var ss := pre + [s];
    var m' := m + [s];
    var ls' := ls + [|pre|];
    PushGroupEnd(ls, |pre|);
    forall j | 0 <= j < |ls'| ensures exists k :: ls'[j] <= k < GroupEnd(ls', j, |ss|) && 0 <= k < |ss| && ss[k].end == m'[j].end {
      if j < |ls| {
        var k :| ls[j] <= k < GroupEnd(ls, j, |pre|) && 0 <= k < |pre| && pre[k].end == m[j].end;
        assert ls'[j] == ls[j] && ss[k] == pre[k] && m'[j] == m[j];
      } else {
        assert ss[|pre|] == s;
      }
    }
  }

  lemma GroupedWiden(pre: seq<Span>, s: Span, m: seq<Span>, ls: seq<nat>)
    requires Grouped(pre, m, ls) && |ls| > 0
    ensures Grouped(pre + [s], m[..|m| - 1] + [m[|m| - 1].(end := Max(m[|m| - 1].end, s.end))], ls)
  {
    WidenHeads(pre, s, m, ls);
    WidenBounded(pre, s, m, ls);
    WidenReached(pre, s, m, ls);
  }

  lemma WidenHeads(pre: seq<Span>, s: Span, m: seq<Span>, ls: seq<nat>)
    requires Heads(pre, m, ls) && |ls| > 0
    ensures Heads(pre + [s], m[..|m| - 1] + [m[|m| - 1].(end := Max(m[|m| - 1].end, s.end))], ls)
  {
    var ss := pre + [s];
    var m' := m[..|m| - 1] + [m[|m| - 1].(end := Max(m[|m| - 1].end, s.end))];
    forall j | 0 <= j < |ls| ensures ls[j] < |ss| && m'[j].start == ss[ls[j]].start && m'[j].kind == ss[ls[j]].kind {
      assert ss[ls[j]] == pre[ls[j]];
      if j < |ls| - 1 { assert m'[j] == m[j]; }
    }
  }

  lemma WidenBounded(pre: seq<Span>, s: Span, m: seq<Span>, ls: seq<nat>)
    requires |m| == |ls| && EndsBounded(pre, m, ls) && |ls| > 0
    ensures EndsBounded(pre + [s], m[..|m| - 1] + [m[|m| - 1].(end := Max(m[|m| - 1].end, s.end))], ls)
  {
    var ss := pre + [s];
    var m' := m[..|m| - 1] + [m[|m| - 1].(end := Max(m[|m| - 1].end, s.end))];
    var z := |ls| - 1;
    forall j, k | InGroup(ls, j, k, |ss|) ensures 0 <= k < |ss| && ss[k].end <= m'[j].end {
      if j < z {
        assert GroupEnd(ls, j, |ss|) == GroupEnd(ls, j, |pre|);
        assert InGroup(ls, j, k, |pre|);
        assert 0 <= k < |pre| && pre[k].end <= m[j].end;
        assert ss[k] == pre[k] && m'[j] == m[j];
      } else if k < |pre| {
        assert GroupEnd(ls, j, |pre|) == |pre|;
        assert InGroup(ls, j, k, |pre|);
        assert 0 <= k < |pre| && pre[k].end <= m[j].end;
        assert ss[k] == pre[k];
      } else {
        assert GroupEnd(ls, j, |ss|) == |ss|;
        assert k == |pre| && ss[k] == s;
      }
    }
  }

  lemma WidenReached(pre: seq<Span>, s: Span, m: seq<Span>, ls: seq<nat>)
    requires |m| == |ls| && EndsReached(pre, m, ls) && |ls| > 0
    ensures EndsReached(pre + [s], m[..|m| - 1] + [m[|m| - 1].(end := Max(m[|m| - 1].end, s.end))], ls)
  {
    var ss := pre + [s];
    var last := m[|m| - 1];
    var m' := m[..|m| - 1] + [last.(end := Max(last.end, s.end))];
    var z := |ls| - 1;
    forall j | 0 <= j < |ls| ensures exists k :: ls[j] <= k < GroupEnd(ls, j, |ss|) && 0 <= k < |ss| && ss[k].end == m'[j].end {
      var k :| ls[j] <= k < GroupEnd(ls, j, |pre|) && 0 <= k < |pre| && pre[k].end == m[j].end;
      assert ss[k] == pre[k];
      if j < z {
        assert GroupEnd(ls, j, |ss|) == GroupEnd(ls, j, |pre|);
        assert m'[j] == m[j];
      } else {
        assert GroupEnd(ls, j, |ss|) == |ss| && GroupEnd(ls, j, |pre|) == |pre|;
        if last.end < s.end {
          assert ss[|pre|] == s;
        }
      }
    }
  }

  lemma {:induction false} LeadersBelow(ss: seq<Span>)
    ensures forall j :: 0 <= j < |Leaders(ss)| ==> Leaders(ss)[j] < |ss|
  {
    if |ss| > 0 {
      LeadersBelow(ss[..|ss| - 1]);
    }
  }

  lemma LeaderPrefix(ss: seq<Span>, n: nat, k: nat)
    requires k < n <= |ss|
    ensures IsLeader(ss[..n], k) == IsLeader(ss, k)
  {
    assert ss[..n][..k] == ss[..k];
  }

  /** The leaders are exactly the indices that open a group, listed in increasing order from 0. */
  lemma {:induction false} LeadersExactly(ss: seq<Span>)
    ensures forall j :: 0 <= j < |Leaders(ss)| ==> Leaders(ss)[j] < |ss| && IsLeader(ss, Leaders(ss)[j])
    ensures forall k :: 0 <= k < |ss| && IsLeader(ss, k) ==> k in Leaders(ss)
    ensures forall a, b :: 0 <= a < b < |Leaders(ss)| ==> Leaders(ss)[a] < Leaders(ss)[b]
    ensures |ss| > 0 ==> |Leaders(ss)| > 0 && Leaders(ss)[0] == 0
  {
    if |ss| > 0 {
      var n := |ss| - 1;
      assert ss == ss[..n] + [ss[n]];
      LeadersExactly(ss[..n]);
      LeadersSoundStep(ss[..n], ss[n]);
      LeadersCompleteStep(ss[..n], ss[n]);
      if n == 0 {
        assert IsLeader(ss, 0);
      }
    }
  }

  lemma LeadersSoundStep(pre: seq<Span>, s: Span)
    requires forall j :: 0 <= j < |Leaders(pre)| ==> Leaders(pre)[j] < |pre| && IsLeader(pre, Leaders(pre)[j])
    ensures forall j :: 0 <= j < |Leaders(pre + [s])| ==>
      Leaders(pre + [s])[j] < |pre| + 1 && IsLeader(pre + [s], Leaders(pre + [s])[j])
  {
    var ss := pre + [s];
    assert ss[..|pre|] == pre;
    var ls := Leaders(pre);
    var l := Leaders(ss);
    assert l == ls + (if IsLeader(ss, |pre|) then [|pre|] else []);
    forall j | 0 <= j < |l| ensures l[j] < |ss| && IsLeader(ss, l[j]) {
      if j < |ls| {
        assert l[j] == ls[j];
        LeaderPrefix(ss, |pre|, ls[j]);
      }
    }
  }

  lemma LeadersCompleteStep(pre: seq<Span>, s: Span)
    requires forall k :: 0 <= k < |pre| && IsLeader(pre, k) ==> k in Leaders(pre)
    ensures forall k :: 0 <= k < |pre| + 1 && IsLeader(pre + [s], k) ==> k in Leaders(pre + [s])
  {
    var ss := pre + [s];
    assert ss[..|pre|] == pre;
    var ls := Leaders(pre);
    var l := Leaders(ss);
    assert l == ls + (if IsLeader(ss, |pre|) then [|pre|] else []);
    forall k | 0 <= k < |ss| && IsLeader(ss, k) ensures k in l {
      if k < |pre| {
        LeaderPrefix(ss, |pre|, k);
        assert k in ls;
      }
    }
  }

  /** The fold produces exactly one merged span per group, opened by the group's leader. */
  lemma {:induction false} MergeIsGrouped(ss: seq<Span>)
    requires WellFormed(ss) && StartSorted(ss)
    ensures Grouped(ss, MergeSorted(ss), Leaders(ss))
  {
    if |ss| > 0 {
      var n := |ss| - 1;
      assert ss == ss[..n] + [ss[n]];
      MergeIsGrouped(ss[..n]);
      if n == 0 || ss[n].start > MaxEnd(ss[..n]) {
        PushIsGrouped(ss[..n], ss[n]);
      } else {
        WidenIsGrouped(ss[..n], ss[n]);
      }
    }
  }

  /** A span that starts after everything before it opens a new group. */
  lemma PushIsGrouped(pre: seq<Span>, s: Span)
    requires WellFormed(pre) && StartSorted(pre)
    requires Grouped(pre, MergeSorted(pre), Leaders(pre))
    requires |pre| == 0 || s.start > MaxEnd(pre)
    ensures Grouped(pre + [s], MergeSorted(pre + [s]), Leaders(pre + [s]))
  {
    PushShape(pre, s);
    LeadersBelow(pre);
    GroupedPush(pre, s, MergeSorted(pre), Leaders(pre));
  }

  lemma PushShape(pre: seq<Span>, s: Span)
    requires WellFormed(pre) && StartSorted(pre)
    requires |pre| == 0 || s.start > MaxEnd(pre)
    ensures Leaders(pre + [s]) == Leaders(pre) + [|pre|]
    ensures MergeSorted(pre + [s]) == MergeSorted(pre) + [s]
  {
    PushLeader(pre, s);
    PushMerged(pre, s);
  }

  lemma PushLeader(pre: seq<Span>, s: Span)
    requires |pre| == 0 || s.start > MaxEnd(pre)
    ensures Leaders(pre + [s]) == Leaders(pre) + [|pre|]
  {
    var ss := pre + [s];
    assert ss[..|pre|] == pre;
    assert IsLeader(ss, |pre|);
  }

  lemma PushMerged(pre: seq<Span>, s: Span)
    requires WellFormed(pre) && StartSorted(pre)
    requires |pre| == 0 || s.start > MaxEnd(pre)
    ensures MergeSorted(pre + [s]) == MergeSorted(pre) + [s]
  {
    var m := MergeSorted(pre);
    MergeSnoc(pre, s);
    if |pre| == 0 {
      assert m == [];
    } else {
      MergeLastEnd(pre);
      StepApart(m, s);
    }
  }

  /** Folding one more span is one more loop iteration. */
  lemma MergeSnoc(pre: seq<Span>, s: Span)
    ensures MergeSorted(pre + [s]) == Step(MergeSorted(pre), s)
  {
    var ss := pre + [s];
    assert ss[..|ss| - 1] == pre && ss[|ss| - 1] == s;
  }

  /** A span that starts past the last merged end opens a new merged span. */
  lemma StepApart(m: seq<Span>, s: Span)
    requires |m| > 0 && s.start > m[|m| - 1].end
    ensures Step(m, s) == m + [s]
  {
  }

  /** The last merged span ends at the largest end of the input. */
  lemma MergeLastEnd(ss: seq<Span>)
    requires WellFormed(ss) && StartSorted(ss) && |ss| > 0
    ensures |MergeSorted(ss)| > 0 && MergeSorted(ss)[|MergeSorted(ss)| - 1].end == MaxEnd(ss)
  {
    MergeShape(ss);
  }

  /** A span that starts inside the reach of the spans before it joins the last group. */
  lemma WidenIsGrouped(pre: seq<Span>, s: Span)
    requires WellFormed(pre) && StartSorted(pre)
    requires Grouped(pre, MergeSorted(pre), Leaders(pre))
    requires |pre| > 0 && s.start <= MaxEnd(pre)
    ensures Grouped(pre + [s], MergeSorted(pre + [s]), Leaders(pre + [s]))
  {
    WidenShape(pre, s);
    var m := MergeSorted(pre);
    GroupedWiden(pre, s, m, Leaders(pre));
  }

  lemma WidenShape(pre: seq<Span>, s: Span)
    requires WellFormed(pre) && StartSorted(pre)
    requires |pre| > 0 && s.start <= MaxEnd(pre)
    ensures |MergeSorted(pre)| > 0
    ensures Leaders(pre + [s]) == Leaders(pre)
    ensures MergeSorted(pre + [s])
         == MergeSorted(pre)[..|MergeSorted(pre)| - 1]
          + [MergeSorted(pre)[|MergeSorted(pre)| - 1].(end := Max(MergeSorted(pre)[|MergeSorted(pre)| - 1].end, s.end))]
  {
    WidenLeader(pre, s);
    var ss := pre + [s];
    assert ss[..|pre|] == pre;
    MergeShape(pre);
  }

  lemma WidenLeader(pre: seq<Span>, s: Span)
    requires |pre| > 0 && s.start <= MaxEnd(pre)
    ensures Leaders(pre + [s]) == Leaders(pre)
  {
    var ss := pre + [s];
    assert ss[..|pre|] == pre;
    assert !IsLeader(ss, |pre|);
  }
}

/** What `mergeAndSortSpans` promises its caller, stated on the unsorted input. */
module MergeProperties {
  import opened Spans
  import opened Sorting
  import opened Merge
  import opened MergeGroups

  lemma SortedFacts(spans: seq<Span>)
    requires WellFormed(spans)
    ensures WellFormed(SortBy(spans, MergeKey)) && StartSorted(SortBy(spans, MergeKey))
    ensures forall x :: x in SortBy(spans, MergeKey) <==> x in spans
  {
    var ss := SortBy(spans, MergeKey);
    assert forall x :: x in ss <==> x in multiset(ss);
    assert forall x :: x in spans <==> x in multiset(spans);
    forall i | 0 <= i < |ss| ensures ss[i].start <= ss[i].end {
      assert ss[i] in spans;
    }
    SortBySorted(spans, MergeKey);
    MergeKeySortedByStart(ss);
  }

  lemma CoversSameElements(a: seq<Span>, b: seq<Span>, k: int)
    requires forall x :: x in a <==> x in b
    ensures Covers(a, k) <==> Covers(b, k)
  {
    if Covers(a, k) {
      var i :| 0 <= i < |a| && a[i].start <= k < a[i].end;
      assert a[i] in b;
    }
    if Covers(b, k) {
      var i :| 0 <= i < |b| && b[i].start <= k < b[i].end;
      assert b[i] in a;
    }
  }

  /** The merged spans are well formed and strictly separated, and there are no more of them. */
  lemma MergeSeparated(spans: seq<Span>)
    requires WellFormed(spans)
    ensures WellFormed(MergeAndSortSpans(spans)) && Separated(MergeAndSortSpans(spans))
    ensures |MergeAndSortSpans(spans)| <= |spans|
    ensures |MergeAndSortSpans(spans)| == 0 <==> |spans| == 0
  {
    SortedFacts(spans);
    MergeShape(SortBy(spans, MergeKey));
  }

  /** The merged spans cover exactly the character positions the input spans cover. */
  lemma MergePreservesCoverage(spans: seq<Span>, k: int)
    requires WellFormed(spans)
    ensures Covers(MergeAndSortSpans(spans), k) <==> Covers(spans, k)
  {
    SortedFacts(spans);
    MergeCovers(SortBy(spans, MergeKey), k);
    CoversSameElements(SortBy(spans, MergeKey), spans, k);
  }

  /**
   * Merged span `j` is opened by the `j`-th group leader of the sorted list: it has that span's
   * start and label, and the largest end of its group.
   */
  lemma MergeFirstLabelMaxEnd(spans: seq<Span>)
    requires WellFormed(spans)
    ensures Grouped(SortBy(spans, MergeKey), MergeAndSortSpans(spans), Leaders(SortBy(spans, MergeKey)))
  {
    SortedFacts(spans);
    MergeIsGrouped(SortBy(spans, MergeKey));
  }

  /** A group leader ends no earlier than any span of the sorted list with the same start. */
  lemma LeaderLongest(ss: seq<Span>, a: int, q: int)
    requires WellFormed(ss) && SortedBy(ss, MergeKey)
    requires 0 <= a < |ss| && IsLeader(ss, a) && 0 <= q < |ss| && ss[q].start == ss[a].start
    ensures ss[q].end <= ss[a].end
  {
    // A span before the leader that reaches its start would keep `a` from leading.
    if q > a {
      assert KeyLe(MergeKey(ss[a]), MergeKey(ss[q]));
    }
  }

  /**
   * The comparator puts the longer of two spans with the same start first, so a merged span
   * takes the label of the input span that starts where it starts and reaches furthest.
   */
  lemma MergeLabelFromLongest(spans: seq<Span>, l: int) returns (x: Span)
    requires WellFormed(spans) && 0 <= l < |MergeAndSortSpans(spans)|
    ensures x in spans && x.start == MergeAndSortSpans(spans)[l].start && x.kind == MergeAndSortSpans(spans)[l].kind
    ensures forall c :: c in spans && c.start == x.start ==> c.end <= x.end
  {
    var ss := SortBy(spans, MergeKey);
    var ls := Leaders(ss);
    MergeFirstLabelMaxEnd(spans);
    SortedFacts(spans);
    SortBySorted(spans, MergeKey);
    LeadersExactly(ss);
    x := ss[ls[l]];
    forall c | c in spans && c.start == x.start ensures c.end <= x.end {
      var q :| 0 <= q < |ss| && ss[q] == c;
      LeaderLongest(ss, ls[l], q);
    }
  }

  /** Every merged span starts like, is labelled like, and ends like some input span. */
  lemma MergeFromInputs(spans: seq<Span>)
    requires WellFormed(spans)
    ensures forall i :: 0 <= i < |MergeAndSortSpans(spans)| ==>
      (exists x :: x in spans && x.start == MergeAndSortSpans(spans)[i].start && x.kind == MergeAndSortSpans(spans)[i].kind)
      && (exists y :: y in spans && y.end == MergeAndSortSpans(spans)[i].end)
  {
    var ss := SortBy(spans, MergeKey);
    MergeFirstLabelMaxEnd(spans);
    SortedFacts(spans);
    forall i | 0 <= i < |MergeAndSortSpans(spans)|
      ensures (exists x :: x in spans && x.start == MergeAndSortSpans(spans)[i].start && x.kind == MergeAndSortSpans(spans)[i].kind)
      ensures (exists y :: y in spans && y.end == MergeAndSortSpans(spans)[i].end)
    {
      GroupFromInputs(ss, MergeAndSortSpans(spans), Leaders(ss), spans, i);
    }
  }

  lemma GroupFromInputs(ss: seq<Span>, m: seq<Span>, ls: seq<nat>, spans: seq<Span>, i: int)
    requires Grouped(ss, m, ls) && 0 <= i < |m|
    requires forall x :: x in ss <==> x in spans
    ensures exists x :: x in spans && x.start == m[i].start && x.kind == m[i].kind
    ensures exists y :: y in spans && y.end == m[i].end
  {
    assert ss[ls[i]] in spans;
    var k :| ls[i] <= k < GroupEnd(ls, i, |ss|) && 0 <= k < |ss| && ss[k].end == m[i].end;
    assert ss[k] in spans;
  }

  /** Spans within `[0, n]` merge into spans within `[0, n]`. */
  lemma MergeInBounds(spans: seq<Span>, n: int)
    requires InBounds(spans, n)
    ensures InBounds(MergeAndSortSpans(spans), n)
  {
    var m := MergeAndSortSpans(spans);
    MergeFromInputs(spans);
    MergeSeparated(spans);
    forall i | 0 <= i < |m| ensures 0 <= m[i].start <= m[i].end <= n {
      var x :| x in spans && x.start == m[i].start && x.kind == m[i].kind;
      var y :| y in spans && y.end == m[i].end;
    }
  }
}

=== FILE: patterns.dfy ===
/**
 * The three structured-PII regular expressions, as the sets of strings they match.
 *
 *   EMAIL  [A-Z0-9._%+-]+@[A-Z0-9.-]+\.[A-Z]{2,}                         (case-insensitive)
 *   PHONE  (?:(?:\+\d{1,3}[\s-]?)?\(?\d{2,4}\)?[\s-]?\d{3,4}[\s-]?\d{3,4})
 *   CARD   \b(?:\d[ -]*?){13,19}\b
 *
 * The text redactor and the policy gate use character-identical sources, so both are
 * modelled by the one predicate `MatchAt`. Only WHETHER `text[s..e]` matches at `s` is
 * defined here; which of several possible ends the backtracking engine reports is left to
 * the matcher (module Matcher).
 */
module Patterns {
  import opened JsString

  datatype Pattern = Email | Phone | Card

  /** The character classes that occur in the three sources. */
  datatype CharClass =
    | Digit                 // \d
    | SpaceOrHyphen         // [\s-]
    | Exactly(c: char)      // an escaped literal such as \+ \( \) \. or @
    | EmailLocal            // [A-Z0-9._%+-] under the i flag
    | EmailDomain           // [A-Z0-9.-] under the i flag
    | Letter                // [A-Z] under the i flag

  datatype Bound = AtMost(n: nat) | Unbounded

  /** One quantified atom `cls{min,max}`. */
  datatype Piece = Piece(cls: CharClass, min: nat, max: Bound)

  predicate InClass(c: char, cls: CharClass)
  {
    match cls
    case Digit => IsDigit(c)
    case SpaceOrHyphen => IsJsSpace(c) || c == '-'
    case Exactly(d) => c == d
    case EmailLocal => IsAsciiLetter(c) || IsDigit(c) || c == '.' || c == '_' || c == '%' || c == '+' || c == '-'
    case EmailDomain => IsAsciiLetter(c) || IsDigit(c) || c == '.' || c == '-'
    case Letter => IsAsciiLetter(c)
  }

  predicate AllIn(w: string, cls: CharClass)
  {
    forall i :: 0 <= i < |w| ==> InClass(w[i], cls)
  }

  predicate Admits(p: Piece, k: nat)
  {
    p.min <= k && (p.max.AtMost? ==> k <= p.max.n)
  }

  /** `w` is matched by the concatenation of the pieces `ps`. */
  predicate Spells(w: string, ps: seq<Piece>)
    decreases |ps|
  {
    if |ps| == 0 then |w| == 0
    else exists k :: 0 <= k <= |w| && Admits(ps[0], k) && AllIn(w[..k], ps[0].cls) && Spells(w[k..], ps[1..])
  }

  const EmailPieces: seq<Piece> := [
    Piece(EmailLocal, 1, Unbounded),
    Piece(Exactly('@'), 1, AtMost(1)),
    Piece(EmailDomain, 1, Unbounded),
    Piece(Exactly('.'), 1, AtMost(1)),
    Piece(Letter, 2, Unbounded)
  ]

  /** The optional international prefix group `\+\d{1,3}[\s-]?`. */
  const PhonePrefix: seq<Piece> := [
    Piece(Exactly('+'), 1, AtMost(1)),
    Piece(Digit, 1, AtMost(3)),
    Piece(SpaceOrHyphen, 0, AtMost(1))
  ]

  /** `\(?\d{2,4}\)?[\s-]?\d{3,4}[\s-]?\d{3,4}`. */
  const PhoneCore: seq<Piece> := [
    Piece(Exactly('('), 0, AtMost(1)),
    Piece(Digit, 2, AtMost(4)),
    Piece(Exactly(')'), 0, AtMost(1)),
    Piece(SpaceOrHyphen, 0, AtMost(1)),
    Piece(Digit, 3, AtMost(4)),
    Piece(SpaceOrHyphen, 0, AtMost(1)),
    Piece(Digit, 3, AtMost(4))
  ]

  predicate IsEmail(w: string) { Spells(w, EmailPieces) }

  predicate IsPhone(w: string) { Spells(w, PhoneCore) || Spells(w, PhonePrefix + PhoneCore) }

  /** The character before index `i` and the one at `i` differ in being `\w` (`\b` at `i`). */
  predicate WordBoundary(t: string, i: int)
  {
    var before := 0 < i <= |t| && IsWordChar(t[i - 1]);
    var after := 0 <= i < |t| && IsWordChar(t[i]);
    before != after
  }

  predicate CardChar(c: char) { IsDigit(c) || c == ' ' || c == '-' }

  /**
   * `(?:\d[ -]*?){13,19}` matches exactly the strings that start with a digit, consist of
   * digits, spaces and hyphens, and hold 13 to 19 digits; `\b` on both sides.
   */
  predicate CardAt(t: string, s: int, e: int)
  {
    && 0 <= s < e <= |t|
    && IsDigit(t[s])
    && (forall i :: s <= i < e ==> CardChar(t[i]))
    && 13 <= DigitCount(t[s..e]) <= 19
    && WordBoundary(t, s)
    && WordBoundary(t, e)
  }

  /** Pattern `p` matches `t[s..e]` when the engine tries it at index `s`. */
  predicate MatchAt(p: Pattern, t: string, s: int, e: int)
  {
    && 0 <= s <= e <= |t|
    && match p
       case Email => IsEmail(t[s..e])
       case Phone => IsPhone(t[s..e])
       case Card => CardAt(t, s, e)
  }

  /** Some match of `p` starts at index `s`. */
  predicate MatchesFrom(p: Pattern, t: string, s: int)
  {
    exists e | s <= e <= |t| :: MatchAt(p, t, s, e)
  }

  /** `p` matches somewhere in `t`: the result of `regex.test(t)` for a regex without the g flag. */
  predicate Found(p: Pattern, t: string)
  {
    exists s | 0 <= s <= |t| :: MatchesFrom(p, t, s)
  }

  /** A piece that needs at least one character leaves a character of its class in the word. */
  lemma {:induction false} SpellsHasClass(w: string, ps: seq<Piece>, i: nat)
    requires Spells(w, ps)
    requires i < |ps| && ps[i].min >= 1
    ensures exists j :: 0 <= j < |w| && InClass(w[j], ps[i].cls)
    decreases |ps|
  {
    var k :| 0 <= k <= |w| && Admits(ps[0], k) && AllIn(w[..k], ps[0].cls) && Spells(w[k..], ps[1..]);
    if i == 0 {
      assert w[..k][0] == w[0];
      assert InClass(w[0], ps[0].cls);
    } else {
      SpellsHasClass(w[k..], ps[1..], i - 1);
      var j :| 0 <= j < |w[k..]| && InClass(w[k..][j], ps[1..][i - 1].cls);
      assert w[k + j] == w[k..][j];
      assert InClass(w[k + j], ps[i].cls);
    }
  }

  /** Every EMAIL match contains an `@`. */
  lemma EmailHasAt(t: string, s: int, e: int)
    requires MatchAt(Email, t, s, e)
    ensures exists j :: s <= j < e && t[j] == '@'
  {
    var w := t[s..e];
    assert EmailPieces[1] == Piece(Exactly('@'), 1, AtMost(1));
    SpellsHasClass(w, EmailPieces, 1);
    var j :| 0 <= j < |w| && InClass(w[j], Exactly('@'));
    assert t[s + j] == w[j];
  }

  /** Every PHONE match contains a decimal digit. */
  lemma PhoneHasDigit(t: string, s: int, e: int)
    requires MatchAt(Phone, t, s, e)
    ensures exists j :: s <= j < e && IsDigit(t[j])
  {
    var w := t[s..e];
    if Spells(w, PhoneCore) {
      assert PhoneCore[1] == Piece(Digit, 2, AtMost(4));
      SpellsHasClass(w, PhoneCore, 1);
    } else {
      assert (PhonePrefix + PhoneCore)[4] == Piece(Digit, 2, AtMost(4));
      SpellsHasClass(w, PhonePrefix + PhoneCore, 4);
    }
    var j :| 0 <= j < |w| && InClass(w[j], Digit);
    assert t[s + j] == w[j];
  }

  /** Every CARD match contains a decimal digit (it starts with one). */
  lemma CardHasDigit(t: string, s: int, e: int)
    requires MatchAt(Card, t, s, e)
    ensures exists j :: s <= j < e && IsDigit(t[j])
  {
    assert IsDigit(t[s]);
  }

  /** Every match of every pattern holds an `@` or a decimal digit. */
  lemma MatchHasTrigger(p: Pattern, t: string, s: int, e: int)
    requires MatchAt(p, t, s, e)
    ensures exists j :: s <= j < e && (t[j] == '@' || IsDigit(t[j]))
  {
    match p
    case Email => EmailHasAt(t, s, e);
    case Phone => PhoneHasDigit(t, s, e);
    case Card => CardHasDigit(t, s, e);
  }

  /** None of the three patterns matches the empty string. */
  lemma MatchNonEmpty(p: Pattern, t: string, s: int, e: int)
    requires MatchAt(p, t, s, e)
    ensures s < e
  {
    MatchHasTrigger(p, t, s, e);
  }

  /** A text without `@` and without decimal digits contains no match of any pattern. */
  lemma NoTriggerCharsNoMatch(p: Pattern, t: string)
    requires forall i :: 0 <= i < |t| ==> t[i] != '@' && !IsDigit(t[i])
    ensures !Found(p, t)
  {
    if Found(p, t) {
      var s :| 0 <= s <= |t| && MatchesFrom(p, t, s);
      var e :| s <= e <= |t| && MatchAt(p, t, s, e);
      MatchHasTrigger(p, t, s, e);
    }
  }

  // The address `a@b.com`, spelled piece by piece from the end.

  /** One step of `Spells`: the first piece takes all of `a`, the rest spell `b`. */
  lemma SpellsCons(a: string, b: string, ps: seq<Piece>)
    requires |ps| > 0 && Admits(ps[0], |a|) && AllIn(a, ps[0].cls)
    requires Spells(b, ps[1..])
    ensures Spells(a + b, ps)
  {
    assert (a + b)[..|a|] == a;
    assert (a + b)[|a|..] == b;
  }

  lemma SpellsTld()
    ensures Spells("com", EmailPieces[4..])
  {
    var ps := EmailPieces[4..];
    assert Spells("", ps[1..]);
    SpellsCons("com", "", ps);
    AddressSplits();
  }

  lemma SpellsDotTld()
    ensures Spells(".com", EmailPieces[3..])
  {
    var ps := EmailPieces[3..];
    SpellsTld();
    assert ps[1..] == EmailPieces[4..];
    SpellsCons(".", "com", ps);
    AddressSplits();
  }

  lemma SpellsDomain()
    ensures Spells("b.com", EmailPieces[2..])
  {
    var ps := EmailPieces[2..];
    SpellsDotTld();
    assert ps[1..] == EmailPieces[3..];
    SpellsCons("b", ".com", ps);
    AddressSplits();
  }

  lemma SpellsAtDomain()
    ensures Spells("@b.com", EmailPieces[1..])
  {
    var ps := EmailPieces[1..];
    SpellsDomain();
    assert ps[1..] == EmailPieces[2..];
    SpellsCons("@", "b.com", ps);
    AddressSplits();
  }

  /** The address cut before each of its pieces. */
  lemma AddressSplits()
    ensures "a" + "@b.com" == "a@b.com"
    ensures "@" + "b.com" == "@b.com"
    ensures "b" + ".com" == "b.com"
    ensures "." + "com" == ".com"
    ensures "com" + "" == "com"
  {
  }

  lemma AddressSpells()
    ensures IsEmail("a@b.com")
  {
    SpellsAtDomain();
    SpellsCons("a", "@b.com", EmailPieces);
    AddressSplits();
  }
}

=== FILE: policypopover.dfy ===
/**
 * The policy popover: the fixed list of category switches, how a checkbox reads the policy, and
 * the update a click sends back.
 */
module PolicyToggles {
  import TextRedactor
  import opened Patterns

  /** The browser's policy: category key to on/off; a key may be missing. */
  type Policy = map<string, bool>

  datatype ToggleEntry = ToggleEntry(key: string, title: string)

  /** The switches, in display order. */
  const Toggles: seq<ToggleEntry> := [
    ToggleEntry("emails", "Emails"),
    ToggleEntry("phones", "Phones"),
    ToggleEntry("cards", "Cards"),
    ToggleEntry("faces", "Faces"),
    ToggleEntry("plates", "License Plates"),
    ToggleEntry("ids", "IDs")
  ]

  /** `!!policy[k]`: a missing key reads as off. */
  function Checked(p: Policy, k: string): (b: bool)
    ensures k !in p ==> !b
    ensures k in p ==> (b <==> p[k])
  {
    k in p && p[k]
  }

  /** `{ ...policy, [k]: !policy[k] }`. */
  function Toggle(p: Policy, k: string): (r: Policy)
    ensures r.Keys == p.Keys + {k}
    ensures Checked(r, k) <==> !Checked(p, k)
    ensures forall j :: j in p && j != k ==> r[j] == p[j]
  {
    p[k := !Checked(p, k)]
  }

  /** A click flips exactly the clicked box and leaves every other box as it was. */
  lemma ToggleFlipsOnlyKey(p: Policy, k: string, j: string)
    ensures Checked(Toggle(p, k), k) != Checked(p, k)
    ensures j != k ==> Checked(Toggle(p, k), j) == Checked(p, j)
  {
  }

  /** Two clicks on a key that holds a value restore the policy; a missing key ends up present. */
  lemma ToggleTwice(p: Policy, k: string)
    ensures k in p ==> Toggle(Toggle(p, k), k) == p
    ensures k !in p ==> Toggle(Toggle(p, k), k) == p[k := false]
  {
    var q := Toggle(Toggle(p, k), k);
    if k in p {
      assert q.Keys == p.Keys;
      assert forall j :: j in p ==> q[j] == p[j];
    }
  }

  /** A missing key is switched on by its first click. */
  lemma ToggleAbsentKey(p: Policy, k: string)
    requires k !in p
    ensures Toggle(p, k) == p[k := true]
  {
  }

  /** The six switches have distinct keys, in the order emails, phones, cards, faces, plates, ids. */
  lemma TogglesDistinct(i: nat, j: nat)
    requires i < |Toggles| && j < |Toggles| && i != j
    ensures Toggles[i].key != Toggles[j].key
  {
  }

  /** The policy field the text redactor receives for a key of the browser's policy. */
  function ServerToggle(p: Policy, k: string): TextRedactor.Toggle
  {
    if k in p then TextRedactor.Given(p[k]) else TextRedactor.Absent
  }

  /** The browser's policy as the text redactor's partial policy. */
  function ServerPolicy(p: Policy): TextRedactor.PartialPolicy
  {
    TextRedactor.PartialPolicy(ServerToggle(p, "emails"), ServerToggle(p, "phones"), ServerToggle(p, "cards"))
  }

  /** Where a text category's switch sits in the list. */
  function Position(c: Pattern): nat
  {
    match c
    case Email => 0
    case Phone => 1
    case Card => 2
  }

  /**
   * For a key the policy holds, the checkbox shows exactly what the redactor does; for a missing
   * key the box shows off while the redactor treats the category as on.
   */
  lemma CheckboxAgreesWithRedactor(p: Policy, c: Pattern)
    ensures var k := Toggles[Position(c)].key;
      && (k in p ==> (Checked(p, k) <==> TextRedactor.Enabled(ServerPolicy(p), c)))
      && (k !in p ==> !Checked(p, k) && TextRedactor.Enabled(ServerPolicy(p), c))
  {
  }
}

=== FILE: raster.dfy ===
/** Raster images and the two operations the image redactors take from their graphics libraries. */
module Raster {

  /** A packed RGBA colour. */
  type Pixel = int

  /** Rows of pixels, top to bottom. */
  datatype Image = Image(width: nat, height: nat, px: seq<seq<Pixel>>)

  predicate Valid(im: Image)
  {
    |im.px| == im.height && forall r :: 0 <= r < |im.px| ==> |im.px[r]| == im.width
  }

  predicate SameSize(a: Image, b: Image)
  {
    a.width == b.width && a.height == b.height
  }

  /** A pixel rectangle: left column, top row, width and height. */
  datatype Rect = Rect(x: int, y: int, w: int, h: int)

  predicate InRect(rc: Rect, r: int, c: int)
  {
    rc.x <= c < rc.x + rc.w && rc.y <= r < rc.y + rc.h
  }

  /** A non-empty rectangle inside a `width` by `height` image. */
  predicate Fits(rc: Rect, width: int, height: int)
  {
    0 <= rc.x && 0 <= rc.y && 1 <= rc.w && 1 <= rc.h && rc.x + rc.w <= width && rc.y + rc.h <= height
  }

  /** The pixels of `rc` as an image of their own. */
  function Crop(im: Image, rc: Rect): (out: Image)
    requires Valid(im) && Fits(rc, im.width, im.height)
    ensures Valid(out) && out.width == rc.w && out.height == rc.h
    ensures forall r, c :: 0 <= r < rc.h && 0 <= c < rc.w ==> out.px[r][c] == im.px[rc.y + r][rc.x + c]
  {
    Image(rc.w, rc.h, seq(rc.h, r requires 0 <= r < rc.h => seq(rc.w, c requires 0 <= c < rc.w => im.px[rc.y + r][rc.x + c])))
  }

  /** The colour of `base` at `(r, c)` after drawing `src` with its top-left corner at `(x, y)`. */
  function CompositePixel(base: Image, src: Image, x: int, y: int, over: (Pixel, Pixel) -> Pixel, r: int, c: int): Pixel
    requires Valid(base) && Valid(src)
    requires 0 <= r < base.height && 0 <= c < base.width
  {
    if InRect(Rect(x, y, src.width, src.height), r, c) then over(base.px[r][c], src.px[r - y][c - x])
    else base.px[r][c]
  }

  /**
   * Draws `src` onto `base` at `(x, y)`, blending each covered pixel with `over`
   * (source colour over destination colour); the part of `src` outside `base` is dropped.
   */
  function Composite(base: Image, src: Image, x: int, y: int, over: (Pixel, Pixel) -> Pixel): (out: Image)
    requires Valid(base) && Valid(src)
    ensures Valid(out) && SameSize(out, base)
    ensures forall r, c :: 0 <= r < base.height && 0 <= c < base.width && !InRect(Rect(x, y, src.width, src.height), r, c) ==>
      out.px[r][c] == base.px[r][c]
  {
    Image(base.width, base.height,
      seq(base.height, r requires 0 <= r < base.height =>
        seq(base.width, c requires 0 <= c < base.width => CompositePixel(base, src, x, y, over, r, c))))
  }

  lemma CompositeAt(base: Image, src: Image, x: int, y: int, over: (Pixel, Pixel) -> Pixel, r: int, c: int)
    requires Valid(base) && Valid(src)
    requires 0 <= r < base.height && 0 <= c < base.width
    ensures Composite(base, src, x, y, over).px[r][c] == CompositePixel(base, src, x, y, over, r, c)
  {
  }

  /** An image filter that returns an image of the size it was given. */
  ghost predicate KeepsSize(filter: (Image, int) -> Image)
  {
    forall im, n :: Valid(im) ==> Valid(filter(im, n)) && SameSize(filter(im, n), im)
  }
}

/** `redactImageBuffer`: pixelate rectangles of a decoded image, clamped to the image. */
module ServerImage {
  import opened Wrappers
  import opened JsString
  import opened Raster

  /** A requested rectangle, in pixels. */
  datatype BoundingBox = BoundingBox(x: int, y: int, width: int, height: int)

  /** `{ boxes?, pixelSize? }`. */
  datatype RedactOptions = RedactOptions(boxes: Option<seq<BoundingBox>>, pixelSize: Option<int>)

  const DefaultPixelSize: int := 16
  const MinPixelSize: int := 6
  const MaxPixelSize: int := 64

  /** `max(6, min(pixelSize ?? 16, 64))`. */
  function EffectivePixelSize(requested: Option<int>): (n: int)
    ensures MinPixelSize <= n <= MaxPixelSize
    ensures requested.None? ==> n == DefaultPixelSize
    ensures requested.Some? && MinPixelSize <= requested.value <= MaxPixelSize ==> n == requested.value
    ensures requested.Some? && requested.value < MinPixelSize ==> n == MinPixelSize
    ensures requested.Some? && requested.value > MaxPixelSize ==> n == MaxPixelSize
  {
    Max(MinPixelSize, Min(requested.GetOr(DefaultPixelSize), MaxPixelSize))
  }

  /** `Math.floor(n * f)` for a non-negative integer `n`. */
  function FloorTimes(n: nat, f: real): int
  {
    ((n as real) * f).Floor
  }

  /** `Math.floor(n * 0.1)` is `n / 10`, and likewise for 0.2 and 0.3. */
  lemma FloorTenths(n: nat, k: nat)
    requires 1 <= k <= 3
    ensures FloorTimes(n, (k as real) / 10.0) == (k * n) / 10
  {
    var q := (k * n) / 10;
    var m := (k * n) % 10;
    assert (n as real) * ((k as real) / 10.0) == (q as real) + (m as real) / 10.0;
  }

  /** The demonstration box used when no boxes are given. */
  function DefaultBox(width: nat, height: nat): (b: BoundingBox)
    ensures b == BoundingBox(width / 10, height / 10, (3 * width) / 10, (2 * height) / 10)
  {
    FloorTenths(width, 1);
    FloorTenths(height, 1);
    FloorTenths(width, 3);
    FloorTenths(height, 2);
    BoundingBox(FloorTimes(width, 0.1), FloorTimes(height, 0.1), FloorTimes(width, 0.3), FloorTimes(height, 0.2))
  }

  /** `options.boxes ?? [default box]`. */
  function BoxesToProcess(options: RedactOptions, width: nat, height: nat): (bs: seq<BoundingBox>)
    ensures options.boxes.None? ==> bs == [DefaultBox(width, height)]
    ensures options.boxes.Some? ==> bs == options.boxes.value
  {
    options.boxes.GetOr([DefaultBox(width, height)])
  }

  /** The loop's clamp: origin into the image, size at least one pixel and not past the far edge. */
  function ClampBox(b: BoundingBox, width: int, height: int): (rc: Rect)
    ensures width >= 1 ==> 0 <= rc.x <= width - 1 && rc.x + rc.w <= width
    ensures height >= 1 ==> 0 <= rc.y <= height - 1 && rc.y + rc.h <= height
    ensures 1 <= rc.w && 1 <= rc.h
    ensures width >= 1 && height >= 1 ==> Fits(rc, width, height)
    ensures b.x < 0 ==> rc.x == 0
    ensures b.y < 0 ==> rc.y == 0
    ensures b.width <= 0 ==> rc.w == 1
    ensures b.height <= 0 ==> rc.h == 1
  {
    var x := Max(0, Min(b.x, width - 1));
    var y := Max(0, Min(b.y, height - 1));
    var w := Max(1, Min(b.width, width - x));
    var h := Max(1, Min(b.height, height - y));
    Rect(x, y, w, h)
  }

  /** A box that already lies inside the image is used as given. */
  lemma ClampBoxKeepsFittingBox(b: BoundingBox, width: int, height: int)
    requires Fits(Rect(b.x, b.y, b.width, b.height), width, height)
    ensures ClampBox(b, width, height) == Rect(b.x, b.y, b.width, b.height)
  {
  }

  /** One iteration: crop the clamped rectangle, pixelate it, and draw it back in place. */
  function RedactBox(im: Image, b: BoundingBox, n: int, pixelate: (Image, int) -> Image, over: (Pixel, Pixel) -> Pixel): (out: Image)
    requires Valid(im) && im.width >= 1 && im.height >= 1 && KeepsSize(pixelate)
    ensures Valid(out) && SameSize(out, im)
  {
    var rc := ClampBox(b, im.width, im.height);
    Composite(im, pixelate(Crop(im, rc), n), rc.x, rc.y, over)
  }

  /** Some box of `bs` clamps to a rectangle containing `(r, c)`. */
  predicate Touched(bs: seq<BoundingBox>, width: int, height: int, r: int, c: int)
  {
    exists i :: 0 <= i < |bs| && InRect(ClampBox(bs[i], width, height), r, c)
  }

  /** The boxes in list order, each one cropped from the image the previous ones produced. */
  function RedactBoxes(im: Image, bs: seq<BoundingBox>, n: int, pixelate: (Image, int) -> Image, over: (Pixel, Pixel) -> Pixel): (out: Image)
    requires Valid(im) && im.width >= 1 && im.height >= 1 && KeepsSize(pixelate)
    ensures Valid(out) && SameSize(out, im)
    ensures forall r, c :: 0 <= r < im.height && 0 <= c < im.width && !Touched(bs, im.width, im.height, r, c) ==>
      out.px[r][c] == im.px[r][c]
    decreases |bs|
  {
    if |bs| == 0 then im
    else
      var mid := RedactBoxes(im, bs[..|bs| - 1], n, pixelate, over);
      var last := bs[|bs| - 1];
      var out := RedactBox(mid, last, n, pixelate, over);
      assert forall r, c :: 0 <= r < im.height && 0 <= c < im.width && !Touched(bs, im.width, im.height, r, c) ==>
        !Touched(bs[..|bs| - 1], im.width, im.height, r, c) && !InRect(ClampBox(last, im.width, im.height), r, c)
      by {
        forall r, c | 0 <= r < im.height && 0 <= c < im.width && Touched(bs[..|bs| - 1], im.width, im.height, r, c)
          ensures Touched(bs, im.width, im.height, r, c)
        {
          var i :| 0 <= i < |bs| - 1 && InRect(ClampBox(bs[..|bs| - 1][i], im.width, im.height), r, c);
          assert bs[..|bs| - 1][i] == bs[i];
        }
      }
      out
  }

  /**
   * `redactImageBuffer` on a decoded image. Decoding and PNG encoding are not modelled; a
   * decoded image is at least one pixel wide and high.
   */
  function RedactImage(im: Image, options: RedactOptions, pixelate: (Image, int) -> Image, over: (Pixel, Pixel) -> Pixel): (out: Image)
    requires Valid(im) && im.width >= 1 && im.height >= 1 && KeepsSize(pixelate)
    ensures Valid(out) && SameSize(out, im)
  {
    RedactBoxes(im, BoxesToProcess(options, im.width, im.height), EffectivePixelSize(options.pixelSize), pixelate, over)
  }

  /** Pixels outside every clamped rectangle keep their colour. */
  lemma RedactImageOutside(im: Image, options: RedactOptions, pixelate: (Image, int) -> Image, over: (Pixel, Pixel) -> Pixel, r: int, c: int)
    requires Valid(im) && im.width >= 1 && im.height >= 1 && KeepsSize(pixelate)
    requires 0 <= r < im.height && 0 <= c < im.width
    requires !Touched(BoxesToProcess(options, im.width, im.height), im.width, im.height, r, c)
    ensures RedactImage(im, options, pixelate, over).px[r][c] == im.px[r][c]
  {
  }

  /** An explicit empty box list leaves the image as it was. */
  lemma RedactImageNoBoxes(im: Image, pixelSize: Option<int>, pixelate: (Image, int) -> Image, over: (Pixel, Pixel) -> Pixel)
    requires Valid(im) && im.width >= 1 && im.height >= 1 && KeepsSize(pixelate)
    ensures RedactImage(im, RedactOptions(Some([]), pixelSize), pixelate, over) == im
  {
  }

  /**
   * The last box is drawn last: inside its rectangle the result is the pixelated crop of the
   * image the earlier boxes produced, blended over that image; elsewhere it is that image.
   */
  lemma {:induction false} LaterBoxPaintsOver(im: Image, bs: seq<BoundingBox>, b: BoundingBox, n: int,
                                             pixelate: (Image, int) -> Image, over: (Pixel, Pixel) -> Pixel, r: int, c: int)
    requires Valid(im) && im.width >= 1 && im.height >= 1 && KeepsSize(pixelate)
    requires 0 <= r < im.height && 0 <= c < im.width
    ensures var mid := RedactBoxes(im, bs, n, pixelate, over);
      var rc := ClampBox(b, im.width, im.height);
      var out := RedactBoxes(im, bs + [b], n, pixelate, over);
      (InRect(rc, r, c) ==> out.px[r][c] == over(mid.px[r][c], pixelate(Crop(mid, rc), n).px[r - rc.y][c - rc.x])) &&
      (!InRect(rc, r, c) ==> out.px[r][c] == mid.px[r][c])
  {
    var mid := RedactBoxes(im, bs, n, pixelate, over);
    var rc := ClampBox(b, im.width, im.height);
    assert (bs + [b])[..|bs + [b]| - 1] == bs;
    var region := pixelate(Crop(mid, rc), n);
    assert region.width == rc.w && region.height == rc.h;
    CompositeAt(mid, region, rc.x, rc.y, over, r, c);
  }
}

=== FILE: redactexample.dfy ===
/**
 * The redactor on the test sentence: whatever match ends the regular-expression engine picks,
 * `basicRedactText` masks one e-mail address, one phone number and one card number in it.
 */
module RedactExample {
  import opened JsString
  import opened Patterns
  import opened Matcher
  import opened Spans
  import opened Merge
  import opened MergeProperties
  import opened TextRedactor
  import opened SampleText

  // ---------------------------------------------------------------------------------------------
  // Any text

  /** No match of any pattern covers position `k` of `text`. */
  ghost predicate Uncovered(text: string, k: int)
  {
    forall q, s, e :: MatchAt(q, text, s, e) ==> k < s || e <= k
  }

  lemma UncoveredNotReported(text: string, choose: Chooser, k: int)
    requires ValidChooser(MatchAt, choose) && Uncovered(text, k)
    ensures !Reported(text, DefaultPolicy, choose, k)
  {
    if Reported(text, DefaultPolicy, choose, k) {
      var q, h :| Enabled(DefaultPolicy, q) && h in Collect(MatchAt, q, text, 0, choose) && h.start <= k < h.end;
      CollectMember(MatchAt, q, text, 0, choose, h);
    }
  }

  /** A covered position right after an uncovered one is where a span starts. */
  lemma StartOfCover(sp: seq<Span>, k: int) returns (i: int)
    requires Covers(sp, k) && !Covers(sp, k - 1)
    ensures 0 <= i < |sp| && sp[i].start == k
  {
    i :| 0 <= i < |sp| && sp[i].start <= k < sp[i].end;
  }

  /** A match that starts right after an uncovered position makes a returned span start there. */
  lemma SpanStartingAfter(text: string, choose: Chooser, p: Pattern, k: nat, e: nat) returns (i: int)
    requires ValidChooser(MatchAt, choose)
    requires MatchAt(p, text, k, e) && Uncovered(text, k - 1)
    ensures var sp := BasicRedactText(text, DefaultPolicy, choose).spans;
      0 <= i < |sp| && sp[i].start == k
  {
    assert MatchesFrom(p, text, k);
    RedactCoversEveryMatch(text, DefaultPolicy, choose, p, k);
    RedactCoverage(text, DefaultPolicy, choose, k - 1);
    UncoveredNotReported(text, choose, k - 1);
    i := StartOfCover(BasicRedactText(text, DefaultPolicy, choose).spans, k);
  }

  /**
   * A returned span is labelled after a pattern that matches where the span starts, and that
   * match reaches at least as far as every recorded match starting there.
   */
  lemma SpanFromLongest(text: string, choose: Chooser, l: int) returns (p: Pattern, e: int)
    requires ValidChooser(MatchAt, choose)
    requires 0 <= l < |BasicRedactText(text, DefaultPolicy, choose).spans|
    ensures var sp := BasicRedactText(text, DefaultPolicy, choose).spans;
      MatchAt(p, text, sp[l].start, e) && LabelOf(p) == sp[l].kind
    ensures var sp := BasicRedactText(text, DefaultPolicy, choose).spans;
      forall c :: c in Gathered(text, DefaultPolicy, choose) && c.start == sp[l].start ==> c.end <= e
  {
    var g := Gathered(text, DefaultPolicy, choose);
    GatheredWellFormed(text, DefaultPolicy, choose);
    GatheredFacts(text, DefaultPolicy, choose);
    var x := MergeLabelFromLongest(g, l);
    p :| Enabled(DefaultPolicy, p) && LabelOf(p) == x.kind && 0 <= x.start <= x.end <= |text| && MatchAt(p, text, x.start, x.end);
    e := x.end;
  }

  // ---------------------------------------------------------------------------------------------
  // The test sentence

  lemma GapUncovered(k: int)
    requires Gap(k)
    ensures Uncovered(Sample, k)
  {
    forall q, s, e | MatchAt(q, Sample, s, e) ensures k < s || e <= k {
      NoMatchOver(q, s, e, k);
    }
  }

  /** The card number is recorded whole. */
  lemma CardGathered(choose: Chooser)
    requires ValidChooser(MatchAt, choose)
    ensures Span(41, 60, CARD) in Gathered(Sample, DefaultPolicy, choose)
  {
    CardAt41();
    assert MatchesFrom(Card, Sample, 41);
    var h := HitOver(Sample, choose, Card, 41);
    CollectMember(MatchAt, Card, Sample, 0, choose, h);
    NoMatchOver(Card, h.start, h.end, 40);
    CardEndsAt60(h.end);
    HitGathered(Sample, DefaultPolicy, Card, choose, h);
  }

  /** A span starts at the address and is labelled EMAIL: no other pattern starts with a letter. */
  lemma EmailSpan(choose: Chooser) returns (i: int)
    requires ValidChooser(MatchAt, choose)
    ensures var sp := BasicRedactText(Sample, DefaultPolicy, choose).spans;
      0 <= i < |sp| && sp[i].start == 6 && sp[i].kind == EMAIL
  {
    AddressAt6();
    i := SpanStartingAt(choose, Email, 6, 13);
    var p, e := SpanFromLongest(Sample, choose, i);
    SampleChars();
    MatchStart(p, Sample, 6, e);
  }

  /** A span starts at the phone number and is labelled PHONE: no address starts there. */
  lemma PhoneSpan(choose: Chooser) returns (j: int)
    requires ValidChooser(MatchAt, choose)
    ensures var sp := BasicRedactText(Sample, DefaultPolicy, choose).spans;
      0 <= j < |sp| && sp[j].start == 20 && sp[j].kind == PHONE
  {
    NumberAt20();
    j := SpanStartingAt(choose, Phone, 20, 35);
    var p, e := SpanFromLongest(Sample, choose, j);
    NoEmailFrom20(20, e);
    SampleChars();
    MatchStart(p, Sample, 20, e);
  }

  /**
   * A span starts at the card number and is labelled CARD: the whole card number reaches
   * further than any phone number there, and no address starts there.
   */
  lemma CardSpan(choose: Chooser) returns (l: int)
    requires ValidChooser(MatchAt, choose)
    ensures var sp := BasicRedactText(Sample, DefaultPolicy, choose).spans;
      0 <= l < |sp| && sp[l].start == 41 && sp[l].kind == CARD
  {
    CardAt41();
    l := SpanStartingAt(choose, Card, 41, 60);
    var p, e := SpanFromLongest(Sample, choose, l);
    CardGathered(choose);
    NoEmailFrom20(41, e);
    if p == Phone {
      PhoneAt41Short(e);
    }
  }

  /** A match that starts right after a gap makes a returned span start exactly there. */
  lemma SpanStartingAt(choose: Chooser, p: Pattern, k: nat, e: nat) returns (i: int)
    requires ValidChooser(MatchAt, choose)
    requires MatchAt(p, Sample, k, e) && Gap(k - 1)
    ensures var sp := BasicRedactText(Sample, DefaultPolicy, choose).spans;
      0 <= i < |sp| && sp[i].start == k
  {
    GapUncovered(k - 1);
    i := SpanStartingAfter(Sample, choose, p, k, e);
  }

  lemma StartsOrdered(sp: seq<Span>, i: int, j: int, l: int)
    requires StartSorted(sp) && 0 <= i < |sp| && 0 <= j < |sp| && 0 <= l < |sp|
    requires sp[i].start < sp[j].start < sp[l].start
    ensures i < j < l
  {
  }

  /**
   * `basicRedactText` on the test sentence, with the default policy and whatever match ends the
   * engine picks: spans labelled EMAIL, PHONE and CARD start at the address, the phone number
   * and the card number, in this order.
   */
  lemma SampleSpans(choose: Chooser) returns (i: int, j: int, l: int)
    requires ValidChooser(MatchAt, choose)
    ensures var sp := BasicRedactText(Sample, DefaultPolicy, choose).spans;
      && 0 <= i < j < l < |sp|
      && sp[i].start == 6 && sp[i].kind == EMAIL
      && sp[j].start == 20 && sp[j].kind == PHONE
      && sp[l].start == 41 && sp[l].kind == CARD
  {
    i := EmailSpan(choose);
    j := PhoneSpan(choose);
    l := CardSpan(choose);
    RedactSpansShape(Sample, DefaultPolicy, choose);
    StartsOrdered(BasicRedactText(Sample, DefaultPolicy, choose).spans, i, j, l);
  }

  /** Masked text that shows the placeholder of every span, among them one of each label. */
  lemma PlaceholdersShown(r: Redaction, i: int, j: int, l: int)
    requires forall k :: 0 <= k < |r.spans| ==> Contains(r.masked, Placeholder(r.spans[k].kind))
    requires 0 <= i < j < l < |r.spans|
    requires r.spans[i].kind == EMAIL && r.spans[j].kind == PHONE && r.spans[l].kind == CARD
    ensures Contains(r.masked, "[EMAIL]") && Contains(r.masked, "[PHONE]") && Contains(r.masked, "[CARD]")
    ensures |r.spans| >= 3
  {
    assert Placeholder(EMAIL) == "[EMAIL]" && Placeholder(PHONE) == "[PHONE]" && Placeholder(CARD) == "[CARD]";
    assert Contains(r.masked, Placeholder(r.spans[i].kind));
    assert Contains(r.masked, Placeholder(r.spans[j].kind));
    assert Contains(r.masked, Placeholder(r.spans[l].kind));
  }

  /** So the masked test sentence shows all three placeholders. */
  lemma SampleRedacted(choose: Chooser)
    requires ValidChooser(MatchAt, choose)
    ensures var r := BasicRedactText(Sample, DefaultPolicy, choose);
      Contains(r.masked, "[EMAIL]") && Contains(r.masked, "[PHONE]") && Contains(r.masked, "[CARD]") && |r.spans| >= 3
  {
    var i, j, l := SampleSpans(choose);
    PlaceholdersShown(BasicRedactText(Sample, DefaultPolicy, choose), i, j, l);
  }
}

=== FILE: redactor.dfy ===
/**
 * `basicRedactText`: gather the matches of the enabled patterns, merge them, and mask the text.
 */
module TextRedactor {
  import opened JsString
  import opened Patterns
  import opened Matcher
  import opened Spans
  import opened Merge
  import opened MergeProperties
  import opened Masking

  /**
   * One policy field as the caller passes it: left out, `null`, or some other value, which the
   * redactor only ever tests for JavaScript truthiness.
   */
  datatype Toggle = Absent | Null | Given(truthy: bool)

  datatype PartialPolicy = PartialPolicy(emails: Toggle, phones: Toggle, cards: Toggle)

  /** The default argument: every category on. */
  const DefaultPolicy: PartialPolicy := PartialPolicy(Given(true), Given(true), Given(true))

  /** `field ?? true`. */
  function Effective(t: Toggle): bool
  {
    match t
    case Given(b) => b
    case _ => true
  }

  function LabelOf(p: Pattern): Label
  {
    match p
    case Email => EMAIL
    case Phone => PHONE
    case Card => CARD
  }

  /** Whether the effective policy turns the category of `p` on. */
  predicate Enabled(policy: PartialPolicy, p: Pattern)
  {
    match p
    case Email => Effective(policy.emails)
    case Phone => Effective(policy.phones)
    case Card => Effective(policy.cards)
  }

  datatype Redaction = Redaction(masked: string, spans: seq<Span>)

  function ToSpans(hs: seq<Hit>, l: Label): (ss: seq<Span>)
    ensures |ss| == |hs|
    ensures forall i :: 0 <= i < |ss| ==> ss[i] == Span(hs[i].start, hs[i].end, l)
  {
    seq(|hs|, i requires 0 <= i < |hs| => Span(hs[i].start, hs[i].end, l))
  }

  /** `collectMatches(text, regex, label)` with a fresh `lastIndex` of 0. */
  function CollectMatches(text: string, p: Pattern, choose: Chooser): seq<Span>
  {
    ToSpans(Collect(MatchAt, p, text, 0, choose), LabelOf(p))
  }

  function MatchesIf(text: string, policy: PartialPolicy, p: Pattern, choose: Chooser): seq<Span>
  {
    if Enabled(policy, p) then CollectMatches(text, p, choose) else []
  }

  /** The raw spans: emails, then phones, then cards, each kind only when enabled. */
  function Gathered(text: string, policy: PartialPolicy, choose: Chooser): seq<Span>
  {
    MatchesIf(text, policy, Email, choose) + MatchesIf(text, policy, Phone, choose) + MatchesIf(text, policy, Card, choose)
  }

  /**
   * `basicRedactText`: the merged spans of every enabled pattern, and the text with each span
   * replaced by its placeholder. Nothing found leaves the text as it was.
   */
  function BasicRedactText(text: string, policy: PartialPolicy, choose: Chooser): (r: Redaction)
    ensures r.spans == [] ==> r.masked == text
    ensures forall i :: 0 <= i < |r.spans| ==> Contains(r.masked, Placeholder(r.spans[i].kind))
  {
    var merged := MergeAndSortSpans(Gathered(text, policy, choose));
    Redaction(Masked(text, merged), merged)
  }

  /** A raw span is a match of an enabled pattern, labelled by that pattern. */
  ghost predicate RawMatch(text: string, policy: PartialPolicy, x: Span)
  {
    exists p :: Enabled(policy, p) && LabelOf(p) == x.kind && 0 <= x.start <= x.end <= |text| && MatchAt(p, text, x.start, x.end)
  }

  lemma ToSpansMember(hs: seq<Hit>, l: Label, x: Span)
    requires x in ToSpans(hs, l)
    ensures x.kind == l && Hit(x.start, x.end) in hs
  {
    var ss := ToSpans(hs, l);
    var i :| 0 <= i < |ss| && ss[i] == x;
    assert hs[i] == Hit(x.start, x.end);
  }

  /** The spans recorded for one pattern are its reported matches, labelled by it. */
  lemma MatchesIfFacts(text: string, policy: PartialPolicy, p: Pattern, choose: Chooser, x: Span)
    requires ValidChooser(MatchAt, choose)
    requires x in MatchesIf(text, policy, p, choose)
    ensures Enabled(policy, p) && x.kind == LabelOf(p)
    ensures Hit(x.start, x.end) in Collect(MatchAt, p, text, 0, choose)
    ensures 0 <= x.start <= x.end <= |text| && MatchAt(p, text, x.start, x.end)
  {
    var hs := Collect(MatchAt, p, text, 0, choose);
    ToSpansMember(hs, LabelOf(p), x);
    CollectMember(MatchAt, p, text, 0, choose, Hit(x.start, x.end));
  }

  /** Each reported match of an enabled pattern is among the raw spans. */
  lemma HitGathered(text: string, policy: PartialPolicy, p: Pattern, choose: Chooser, h: Hit)
    requires ValidChooser(MatchAt, choose)
    requires Enabled(policy, p) && h in Collect(MatchAt, p, text, 0, choose)
    ensures Span(h.start, h.end, LabelOf(p)) in Gathered(text, policy, choose)
  {
    var hs := Collect(MatchAt, p, text, 0, choose);
    var j :| 0 <= j < |hs| && hs[j] == h;
    assert ToSpans(hs, LabelOf(p))[j] == Span(h.start, h.end, LabelOf(p));
    assert Span(h.start, h.end, LabelOf(p)) in MatchesIf(text, policy, p, choose);
  }

  /** A raw span comes from one of the three patterns. */
  lemma GatheredFrom(text: string, policy: PartialPolicy, choose: Chooser, x: Span) returns (p: Pattern)
    requires ValidChooser(MatchAt, choose)
    requires x in Gathered(text, policy, choose)
    ensures x in MatchesIf(text, policy, p, choose)
  {
    if x in MatchesIf(text, policy, Email, choose) {
      p := Email;
    } else if x in MatchesIf(text, policy, Phone, choose) {
      p := Phone;
    } else {
      p := Card;
    }
  }

  lemma GatheredFacts(text: string, policy: PartialPolicy, choose: Chooser)
    requires ValidChooser(MatchAt, choose)
    ensures InBounds(Gathered(text, policy, choose), |text|)
    ensures forall x :: x in Gathered(text, policy, choose) ==> RawMatch(text, policy, x)
  {
    var g := Gathered(text, policy, choose);
    forall x | x in g ensures RawMatch(text, policy, x) && 0 <= x.start <= x.end <= |text| {
      var p := GatheredFrom(text, policy, choose, x);
      MatchesIfFacts(text, policy, p, choose, x);
    }
    forall i | 0 <= i < |g| ensures 0 <= g[i].start <= g[i].end <= |text| {
      assert g[i] in g;
    }
  }

  /** The returned spans are ordered, neither overlap nor touch, and lie inside the text. */
  lemma RedactSpansShape(text: string, policy: PartialPolicy, choose: Chooser)
    requires ValidChooser(MatchAt, choose)
    ensures var r := BasicRedactText(text, policy, choose);
      InBounds(r.spans, |text|) && StartSorted(r.spans) && Separated(r.spans)
  {
    var g := Gathered(text, policy, choose);
    GatheredFacts(text, policy, choose);
    MergeInBounds(g, |text|);
    MergeSeparated(g);
    var m := MergeAndSortSpans(g);
    forall i, j | 0 <= i < j < |m| ensures m[i].start <= m[j].start {
      DisjointTransitive(m, i, j);
    }
  }

  /**
   * Every returned span starts where an enabled pattern matches and carries that pattern's
   * label, and ends where some enabled pattern's match ends.
   */
  lemma RedactSpansFromMatches(text: string, policy: PartialPolicy, choose: Chooser)
    requires ValidChooser(MatchAt, choose)
    ensures var r := BasicRedactText(text, policy, choose);
      forall i :: 0 <= i < |r.spans| ==>
        (exists x :: RawMatch(text, policy, x) && x.start == r.spans[i].start && x.kind == r.spans[i].kind) &&
        (exists y :: RawMatch(text, policy, y) && y.end == r.spans[i].end)
  {
    var g := Gathered(text, policy, choose);
    GatheredFacts(text, policy, choose);
    MergeFromInputs(g);
  }

  /** Only enabled categories appear among the returned labels. */
  lemma RedactLabelsEnabled(text: string, policy: PartialPolicy, choose: Chooser)
    requires ValidChooser(MatchAt, choose)
    ensures var r := BasicRedactText(text, policy, choose);
      forall i :: 0 <= i < |r.spans| ==> exists p :: Enabled(policy, p) && LabelOf(p) == r.spans[i].kind
  {
    RedactSpansFromMatches(text, policy, choose);
  }

  /** Some match `exec` reported for an enabled pattern contains character `k`. */
  ghost predicate Reported(text: string, policy: PartialPolicy, choose: Chooser, k: int)
  {
    exists p, h :: Enabled(policy, p) && h in Collect(MatchAt, p, text, 0, choose) && h.start <= k < h.end
  }

  lemma GatheredCoverageOnly(text: string, policy: PartialPolicy, choose: Chooser, k: int)
    requires ValidChooser(MatchAt, choose)
    requires Covers(Gathered(text, policy, choose), k)
    ensures Reported(text, policy, choose, k)
  {
    var g := Gathered(text, policy, choose);
    var i :| 0 <= i < |g| && g[i].start <= k < g[i].end;
    assert g[i] in g;
    var p := GatheredFrom(text, policy, choose, g[i]);
    MatchesIfFacts(text, policy, p, choose, g[i]);
    var h := Hit(g[i].start, g[i].end);
    assert Enabled(policy, p) && h in Collect(MatchAt, p, text, 0, choose) && h.start <= k < h.end;
  }

  lemma HitCovered(text: string, policy: PartialPolicy, choose: Chooser, p: Pattern, h: Hit, k: int)
    requires ValidChooser(MatchAt, choose)
    requires Enabled(policy, p) && h in Collect(MatchAt, p, text, 0, choose) && h.start <= k < h.end
    ensures Covers(Gathered(text, policy, choose), k)
  {
    var g := Gathered(text, policy, choose);
    HitGathered(text, policy, p, choose, h);
    var i :| 0 <= i < |g| && g[i] == Span(h.start, h.end, LabelOf(p));
    assert g[i].start <= k < g[i].end;
  }

  lemma GatheredCoverageAll(text: string, policy: PartialPolicy, choose: Chooser, k: int)
    requires ValidChooser(MatchAt, choose)
    requires Reported(text, policy, choose, k)
    ensures Covers(Gathered(text, policy, choose), k)
  {
    var p, h :| Enabled(policy, p) && h in Collect(MatchAt, p, text, 0, choose) && h.start <= k < h.end;
    HitCovered(text, policy, choose, p, h, k);
  }

  lemma GatheredCoverage(text: string, policy: PartialPolicy, choose: Chooser, k: int)
    requires ValidChooser(MatchAt, choose)
    ensures Covers(Gathered(text, policy, choose), k) <==> Reported(text, policy, choose, k)
  {
    if Covers(Gathered(text, policy, choose), k) {
      GatheredCoverageOnly(text, policy, choose, k);
    }
    if Reported(text, policy, choose, k) {
      GatheredCoverageAll(text, policy, choose, k);
    }
  }

  lemma GatheredWellFormed(text: string, policy: PartialPolicy, choose: Chooser)
    requires ValidChooser(MatchAt, choose)
    ensures WellFormed(Gathered(text, policy, choose))
  {
    GatheredFacts(text, policy, choose);
  }

  /**
   * A character is inside a returned span exactly when it is inside a match that `exec`
   * reported for an enabled pattern.
   */
  lemma RedactCoverage(text: string, policy: PartialPolicy, choose: Chooser, k: int)
    requires ValidChooser(MatchAt, choose)
    ensures Covers(BasicRedactText(text, policy, choose).spans, k) <==> Reported(text, policy, choose, k)
  {
    var g := Gathered(text, policy, choose);
    GatheredWellFormed(text, policy, choose);
    MergePreservesCoverage(g, k);
    GatheredCoverage(text, policy, choose, k);
  }

  /** Every character where an enabled pattern can start a match is masked. */
  lemma RedactCoversEveryMatch(text: string, policy: PartialPolicy, choose: Chooser, p: Pattern, s: nat)
    requires ValidChooser(MatchAt, choose)
    requires Enabled(policy, p) && s <= |text| && MatchesFrom(p, text, s)
    ensures Covers(BasicRedactText(text, policy, choose).spans, s)
  {
    var h := HitOver(text, choose, p, s);
    HitCovered(text, policy, choose, p, h, s);
    GatheredWellFormed(text, policy, choose);
    MergePreservesCoverage(Gathered(text, policy, choose), s);
  }

  /** A position where a match can start lies inside a match the scan reports. */
  lemma HitOver(text: string, choose: Chooser, p: Pattern, s: nat) returns (h: Hit)
    requires ValidChooser(MatchAt, choose)
    requires s <= |text| && MatchesFrom(p, text, s)
    ensures h in Collect(MatchAt, p, text, 0, choose) && h.start <= s < h.end
  {
    StartsMatchAt(p, text, s);
    CollectComplete(MatchAt, p, text, 0, choose, s);
    var hs := Collect(MatchAt, p, text, 0, choose);
    var i :| 0 <= i < |hs| && Shadows(hs[i], s);
    h := hs[i];
    CollectMember(MatchAt, p, text, 0, choose, h);
    MatchNonEmpty(p, text, h.start, h.end);
  }

  /**
   * The masked text is the verbatim text between the spans with one `[LABEL]` per span, and
   * putting each span's original characters back in place of its placeholder restores the text.
   */
  lemma RedactMaskRoundTrip(text: string, policy: PartialPolicy, choose: Chooser)
    requires ValidChooser(MatchAt, choose)
    ensures var r := BasicRedactText(text, policy, choose);
      r.masked == Weave(Gaps(text, r.spans, 0), Placeholders(r.spans)) &&
      Weave(Gaps(text, r.spans, 0), Originals(text, r.spans)) == text
  {
    var r := BasicRedactText(text, policy, choose);
    RedactSpansShape(text, policy, choose);
    SeparatedIsDisjoint(r.spans);
    MaskIsWeave(text, r.spans, 0);
    WeaveOriginals(text, r.spans, 0);
  }

  /** With every category switched off nothing is found and the text comes back unchanged. */
  lemma RedactAllDisabled(text: string, choose: Chooser)
    ensures var r := BasicRedactText(text, PartialPolicy(Given(false), Given(false), Given(false)), choose);
      r.spans == [] && r.masked == text
  {
    var policy := PartialPolicy(Given(false), Given(false), Given(false));
    MergeSeparated(Gathered(text, policy, choose));
  }

  /** A missing or `null` field counts as switched on. */
  lemma RedactAbsentIsDefault(text: string, policy: PartialPolicy, choose: Chooser)
    requires policy.emails != Given(false) && policy.phones != Given(false) && policy.cards != Given(false)
    ensures BasicRedactText(text, policy, choose) == BasicRedactText(text, DefaultPolicy, choose)
  {
    assert forall p :: Enabled(policy, p) == Enabled(DefaultPolicy, p);
  }

  /** When no enabled pattern matches anywhere, nothing is masked. */
  lemma RedactNothingFound(text: string, policy: PartialPolicy, choose: Chooser)
    requires ValidChooser(MatchAt, choose)
    requires forall p :: Enabled(policy, p) ==> !Found(p, text)
    ensures BasicRedactText(text, policy, choose) == Redaction(text, [])
  {
    var g := Gathered(text, policy, choose);
    forall p | Enabled(policy, p) ensures Collect(MatchAt, p, text, 0, choose) == [] {
      forall s | 0 <= s <= |text| ensures !Starts(MatchAt, p, text, s) {
        StartsMatchAt(p, text, s);
      }
      CollectEmptyIff(MatchAt, p, text, 0, choose);
    }
    assert g == [];
    MergeSeparated(g);
  }

  /** When some enabled pattern matches somewhere, at least one span is reported. */
  lemma RedactSomethingFound(text: string, policy: PartialPolicy, choose: Chooser, p: Pattern)
    requires ValidChooser(MatchAt, choose)
    requires Enabled(policy, p) && Found(p, text)
    ensures |BasicRedactText(text, policy, choose).spans| > 0
  {
    var s :| 0 <= s <= |text| && MatchesFrom(p, text, s);
    RedactCoversEveryMatch(text, policy, choose, p, s);
  }
}

=== FILE: resize.dfy ===
/**
 * The resize step of `blobUrlToBase64`: an image is scaled down so that its longer side is at
 * most 1024 pixels, keeping its aspect ratio, before it is drawn on a canvas and re-encoded.
 */
module ImageResize {
  const MaxSize: nat := 1024

  /** A drawing size; the arithmetic is in floating point, so the sides need not be whole. */
  datatype Size = Size(width: real, height: real)

  function MaxOf(a: real, b: real): real
  {
    if a >= b then a else b
  }

  /**
   * A wider-than-tall image over the limit is brought to 1024 wide, any other image over the
   * limit to 1024 tall; the other side is scaled by the same factor.
   */
  function Resize(width: nat, height: nat): (r: Size)
    ensures r.width >= 0.0 && r.height >= 0.0
    ensures r.width <= MaxSize as real && r.height <= MaxSize as real
    ensures r.width * height as real == r.height * width as real
    ensures width <= MaxSize && height <= MaxSize ==> r == Size(width as real, height as real)
    ensures width > MaxSize || height > MaxSize ==> MaxOf(r.width, r.height) == MaxSize as real
  {
    var w := width as real;
    var h := height as real;
    var m := MaxSize as real;
    if width > height then
      if width > MaxSize then ScaleDown(h, w, m); Size(m, (h * m) / w) else Size(w, h)
    else
      if height > MaxSize then ScaleDown(w, h, m); Size((w * m) / h, m) else Size(w, h)
  }

  /** The shorter side `a` scaled by `m / b` stays within `[0, m]` and keeps the ratio. */
  lemma ScaleDown(a: real, b: real, m: real)
    requires 0.0 <= a <= b && 0.0 < m < b
    ensures 0.0 <= (a * m) / b <= m
    ensures ((a * m) / b) * b == a * m
  {
    assert a * m <= b * m;
  }

  /** The factor both sides are multiplied by: one for a small image, else 1024 over the longer side. */
  function ScaleFactor(width: nat, height: nat): real
  {
    var longer := MaxOf(width as real, height as real);
    if longer <= MaxSize as real then 1.0 else MaxSize as real / longer
  }

  /** Resizing is a uniform scaling by `ScaleFactor`, whichever branch is taken. */
  lemma ResizeIsScaling(width: nat, height: nat)
    ensures ScaleFactor(width, height) > 0.0 && ScaleFactor(width, height) <= 1.0
    ensures Resize(width, height)
         == Size(width as real * ScaleFactor(width, height), height as real * ScaleFactor(width, height))
  {
    var w := width as real;
    var h := height as real;
    var m := MaxSize as real;
    if width > height && width > MaxSize {
      assert ScaleFactor(width, height) == m / w;
      assert (h * m) / w == h * (m / w);
      assert w * (m / w) == m;
    } else if width <= height && height > MaxSize {
      assert ScaleFactor(width, height) == m / h;
      assert (w * m) / h == w * (m / h);
      assert h * (m / h) == m;
    }
  }

  /** A second resize changes nothing: the result is already within the limit. */
  lemma ResizeSettles(width: nat, height: nat, w2: nat, h2: nat)
    requires w2 as real == Resize(width, height).width && h2 as real == Resize(width, height).height
    ensures Resize(w2, h2) == Resize(width, height)
  {
  }

  /**
   * Assigning a fractional size to a canvas keeps its whole part (the sides here are never
   * negative, where truncation and floor agree).
   */
  function CanvasSide(v: real): (n: nat)
    requires v >= 0.0
    ensures n as real <= v < n as real + 1.0
  {
    v.Floor
  }

  /**
   * The canvas the image is drawn on: no side over 1024, the longer side exactly 1024 when the
   * image was over the limit, and the image's own size when it was not.
   */
  lemma CanvasBounds(width: nat, height: nat)
    ensures var r := Resize(width, height);
      && CanvasSide(r.width) <= MaxSize && CanvasSide(r.height) <= MaxSize
      && (width <= MaxSize && height <= MaxSize ==> CanvasSide(r.width) == width && CanvasSide(r.height) == height)
      && (width > MaxSize || height > MaxSize ==>
            (if width > height then CanvasSide(r.width) else CanvasSide(r.height)) == MaxSize)
  {
    var r := Resize(width, height);
    if width > MaxSize || height > MaxSize {
      if width > height {
        assert r.width == MaxSize as real;
      } else {
        assert r.height == MaxSize as real;
      }
    }
  }

  /** A strip much longer than it is wide loses its short side: 5000 by 1 becomes a 1024 by 0 canvas. */
  lemma ThinStripVanishes(width: nat, height: nat)
    requires width == 5000 && height == 1
    ensures CanvasSide(Resize(width, height).width) == MaxSize
    ensures CanvasSide(Resize(width, height).height) == 0
  {
    assert Resize(width, height).height == 1024.0 / 5000.0;
  }
}

=== FILE: sampletext.dfy ===
/**
 * The example sentence of the redactor's test and what the three patterns can and cannot match
 * in it: the address, the phone number and the card number each match, and nothing matches
 * across the spaces in front of them.
 */
module SampleText {
  import opened JsString
  import opened Patterns

  // The sentence, cut into its words so that each character is easy to locate.
  const Head: string := "Email "
  const Address: string := "a@b.com"
  const PhoneWord: string := " phone "
  const Number: string := "+1-415-555-1212"
  const CardWord: string := " card "
  const CardNo: string := "4111 1111 1111 1111"

  /** `'Email a@b.com phone +1-415-555-1212 card 4111 1111 1111 1111'`. */
  const Sample: string := Head + Address + PhoneWord + Number + CardWord + CardNo

  // ---------------------------------------------------------------------------------------------
  // What a match can be made of

  /** The characters a match of `p` can contain. */
  predicate InAlphabet(p: Pattern, c: char)
  {
    match p
    case Email => InClass(c, EmailLocal) || c == '@'
    case Phone => IsDigit(c) || IsJsSpace(c) || c == '-' || c == '+' || c == '(' || c == ')'
    case Card => CardChar(c)
  }

  /** The characters a match of `p` can start with. */
  predicate CanStart(p: Pattern, c: char)
  {
    match p
    case Email => InClass(c, EmailLocal)
    case Phone => IsDigit(c) || c == '+' || c == '('
    case Card => IsDigit(c)
  }

  /** Every character of a spelled word belongs to the class of one of the pieces. */
  lemma {:induction false} SpellsChar(w: string, ps: seq<Piece>, i: int) returns (j: int)
    requires Spells(w, ps) && 0 <= i < |w|
    ensures 0 <= j < |ps| && InClass(w[i], ps[j].cls)
    decreases |ps|
  {
    var k :| 0 <= k <= |w| && Admits(ps[0], k) && AllIn(w[..k], ps[0].cls) && Spells(w[k..], ps[1..]);
    if i < k {
      assert w[..k][i] == w[i];
      j := 0;
    } else {
      var j' := SpellsChar(w[k..], ps[1..], i - k);
      assert w[k..][i - k] == w[i];
      j := j' + 1;
    }
  }

  /** A word whose first piece needs a character starts with a character of that piece's class. */
  lemma FirstPieceChar(w: string, ps: seq<Piece>)
    requires Spells(w, ps) && |ps| > 0 && ps[0].min >= 1
    ensures |w| > 0 && InClass(w[0], ps[0].cls)
  {
    var k :| 0 <= k <= |w| && Admits(ps[0], k) && AllIn(w[..k], ps[0].cls) && Spells(w[k..], ps[1..]);
    assert w[..k][0] == w[0];
  }

  /** Every class among the pieces lies inside the alphabet of `p`. */
  ghost predicate ClassesIn(ps: seq<Piece>, p: Pattern)
  {
    forall j, c :: 0 <= j < |ps| && InClass(c, ps[j].cls) ==> InAlphabet(p, c)
  }

  lemma SpellsInAlphabet(w: string, ps: seq<Piece>, p: Pattern, i: int)
    requires Spells(w, ps) && ClassesIn(ps, p) && 0 <= i < |w|
    ensures InAlphabet(p, w[i])
  {
    var j := SpellsChar(w, ps, i);
  }

  lemma PatternClasses()
    ensures ClassesIn(EmailPieces, Email)
    ensures ClassesIn(PhoneCore, Phone) && ClassesIn(PhonePrefix + PhoneCore, Phone)
  {
  }

  lemma EmailInAlphabet(w: string, i: int)
    requires IsEmail(w) && 0 <= i < |w|
    ensures InAlphabet(Email, w[i])
  {
    PatternClasses();
    SpellsInAlphabet(w, EmailPieces, Email, i);
  }

  lemma PhoneInAlphabet(w: string, i: int)
    requires IsPhone(w) && 0 <= i < |w|
    ensures InAlphabet(Phone, w[i])
  {
    PatternClasses();
    if Spells(w, PhoneCore) {
      SpellsInAlphabet(w, PhoneCore, Phone, i);
    } else {
      SpellsInAlphabet(w, PhonePrefix + PhoneCore, Phone, i);
    }
  }

  lemma EmailMatchChar(t: string, s: int, e: int, i: int)
    requires 0 <= s <= i < e <= |t| && IsEmail(t[s..e])
    ensures InAlphabet(Email, t[i])
  {
    EmailInAlphabet(t[s..e], i - s);
    assert t[s..e][i - s] == t[i];
  }

  lemma PhoneMatchChar(t: string, s: int, e: int, i: int)
    requires 0 <= s <= i < e <= |t| && IsPhone(t[s..e])
    ensures InAlphabet(Phone, t[i])
  {
    PhoneInAlphabet(t[s..e], i - s);
    assert t[s..e][i - s] == t[i];
  }

  /** Every character of a match belongs to its pattern's alphabet. */
  lemma MatchInAlphabet(p: Pattern, t: string, s: int, e: int, i: int)
    requires MatchAt(p, t, s, e) && s <= i < e
    ensures InAlphabet(p, t[i])
  {
    match p
    case Email => EmailMatchChar(t, s, e, i);
    case Phone => PhoneMatchChar(t, s, e, i);
    case Card =>
  }

  /** A word whose first piece is optional starts with a character of the first or the second class. */
  lemma OptionalFirstChar(w: string, ps: seq<Piece>)
    requires Spells(w, ps) && |ps| >= 2 && ps[1].min >= 1
    ensures |w| > 0 && (InClass(w[0], ps[0].cls) || InClass(w[0], ps[1].cls))
  {
    var k :| 0 <= k <= |w| && Admits(ps[0], k) && AllIn(w[..k], ps[0].cls) && Spells(w[k..], ps[1..]);
    if k == 0 {
      assert w[k..] == w;
      FirstPieceChar(w, ps[1..]);
    } else {
      assert w[..k][0] == w[0];
    }
  }

  lemma MatchStart(p: Pattern, t: string, s: int, e: int)
    requires MatchAt(p, t, s, e)
    ensures s < e && CanStart(p, t[s])
  {
    MatchNonEmpty(p, t, s, e);
    var w := t[s..e];
    assert w[0] == t[s];
    if p == Email {
      FirstPieceChar(w, EmailPieces);
    } else if p == Phone {
      if Spells(w, PhoneCore) {
        OptionalFirstChar(w, PhoneCore);
      } else {
        FirstPieceChar(w, PhonePrefix + PhoneCore);
      }
    }
  }

  /** Every piece has an upper bound. */
  ghost predicate Bounded(ps: seq<Piece>)
  {
    forall i :: 0 <= i < |ps| ==> ps[i].max.AtMost?
  }

  /** The longest word the pieces can spell. */
  function MaxLength(ps: seq<Piece>): nat
    requires Bounded(ps)
  {
    if |ps| == 0 then 0 else ps[0].max.n + MaxLength(ps[1..])
  }

  lemma {:induction false} SpellsAtMost(w: string, ps: seq<Piece>)
    requires Spells(w, ps) && Bounded(ps)
    ensures |w| <= MaxLength(ps)
    decreases |ps|
  {
    if |ps| > 0 {
      var k :| 0 <= k <= |w| && Admits(ps[0], k) && AllIn(w[..k], ps[0].cls) && Spells(w[k..], ps[1..]);
      SpellsAtMost(w[k..], ps[1..]);
    }
  }

  // ---------------------------------------------------------------------------------------------
  // The sentence

  lemma SampleLength()
    ensures |Sample| == 60
  {
  }

  /** Where the address, the phone number and the card number sit. */
  lemma SampleWords()
    ensures |Sample| == 60
    ensures Sample[6..13] == Address && Sample[20..35] == Number && Sample[41..60] == CardNo
  {
  }

  /** The characters on both sides of each gap and at the ends of the words. */
  lemma SampleChars()
    ensures |Sample| == 60
    ensures Sample[4] == 'l' && Sample[5] == ' ' && Sample[6] == 'a' && Sample[12] == 'm' && Sample[13] == ' '
    ensures Sample[18] == 'e' && Sample[19] == ' ' && Sample[20] == '+' && Sample[34] == '2' && Sample[35] == ' '
    ensures Sample[39] == 'd' && Sample[40] == ' ' && Sample[41] == '4' && Sample[59] == '1'
  {
  }

  lemma SampleNoAt()
    ensures forall i :: 20 <= i < 60 ==> Sample[i] != '@'
  {
  }

  lemma SampleCardChars()
    ensures |Sample| == 60 && Sample[45] == ' ' && Sample[50] == ' ' && Sample[55] == ' '
    ensures forall i :: 41 <= i < 60 ==> CardChar(Sample[i])
    ensures forall i :: 41 <= i < 60 && i != 45 && i != 50 && i != 55 ==> IsDigit(Sample[i])
  {
  }

  lemma DigitCountSlices(t: string, i: nat, j: nat, k: nat)
    requires i <= j <= k <= |t|
    ensures DigitCount(t[i..k]) == DigitCount(t[i..j]) + DigitCount(t[j..k])
  {
    assert t[i..k] == t[i..j] + t[j..k];
    DigitCountAppend(t[i..j], t[j..k]);
  }

  lemma {:induction false} AllDigitsCount(s: string)
    requires forall i :: 0 <= i < |s| ==> IsDigit(s[i])
    ensures DigitCount(s) == |s|
  {
    if |s| > 0 {
      AllDigitsCount(s[1..]);
    }
  }

  /** Four digits and a space hold four digits. */
  lemma GroupCount(t: string, i: nat)
    requires i + 5 <= |t| && t[i + 4] == ' '
    requires forall k :: i <= k < i + 4 ==> IsDigit(t[k])
    ensures DigitCount(t[i..i + 5]) == 4
  {
    DigitCountSlices(t, i, i + 4, i + 5);
    AllDigitsCount(t[i..i + 4]);
    assert t[i + 4..i + 5] == [' '];
  }

  /** The card number holds twelve digits in its first fifteen characters and sixteen in all. */
  lemma CardDigitCounts()
    ensures DigitCount(Sample[41..56]) == 12 && DigitCount(Sample[41..60]) == 16
  {
    SampleCardChars();
    GroupCount(Sample, 41);
    GroupCount(Sample, 46);
    GroupCount(Sample, 51);
    DigitCountSlices(Sample, 41, 46, 51);
    DigitCountSlices(Sample, 41, 51, 56);
    AllDigitsCount(Sample[56..60]);
    DigitCountSlices(Sample, 41, 56, 60);
  }

  /** The positions just before the address, the phone number and the card number. */
  predicate Gap(k: int)
  {
    k == 5 || k == 19 || k == 40
  }

  /** An address holds no space, so none reaches over a gap. */
  lemma NoEmailOver(s: int, e: int, k: int)
    requires MatchAt(Email, Sample, s, e) && Gap(k)
    ensures k < s || e <= k
  {
    if s <= k < e {
      SampleChars();
      MatchInAlphabet(Email, Sample, s, e, k);
    }
  }

  /** A phone or card number holds no letter, and the character before each gap is a letter. */
  lemma LetterNotNumeric(c: char)
    requires IsAsciiLetter(c)
    ensures !InAlphabet(Phone, c) && !InAlphabet(Card, c)
  {
  }

  lemma LetterBeforeGap(k: int)
    requires Gap(k)
    ensures 0 < k < |Sample| && IsAsciiLetter(Sample[k - 1])
  {
    SampleChars();
  }

  lemma NoNumberAcross(p: Pattern, s: int, e: int, k: int)
    requires p != Email && Gap(k) && s < k < e
    ensures !MatchAt(p, Sample, s, e)
  {
    LetterBeforeGap(k);
    LetterNotNumeric(Sample[k - 1]);
    if MatchAt(p, Sample, s, e) {
      MatchInAlphabet(p, Sample, s, e, k - 1);
    }
  }

  /** A phone or card number does not start with a space. */
  lemma NoNumberAtGap(p: Pattern, e: int, k: int)
    requires p != Email && Gap(k)
    ensures !MatchAt(p, Sample, k, e)
  {
    if MatchAt(p, Sample, k, e) {
      SampleChars();
      MatchStart(p, Sample, k, e);
    }
  }

  lemma NoNumberOver(p: Pattern, s: int, e: int, k: int)
    requires p != Email && MatchAt(p, Sample, s, e) && Gap(k)
    ensures k < s || e <= k
  {
    if s < k < e {
      NoNumberAcross(p, s, e, k);
    } else if s == k {
      NoNumberAtGap(p, e, k);
    }
  }

  /** No match of any pattern reaches over a gap. */
  lemma NoMatchOver(p: Pattern, s: int, e: int, k: int)
    requires MatchAt(p, Sample, s, e) && Gap(k)
    ensures k < s || e <= k
  {
    if p == Email {
      NoEmailOver(s, e, k);
    } else {
      NoNumberOver(p, s, e, k);
    }
  }

  /** The only card number at index 41 runs to the end of the text. */
  lemma CardEndsAt60(e: int)
    requires CardAt(Sample, 41, e)
    ensures e == 60
  {
    SampleLength();
    if 57 <= e < 60 {
      // Both sides of `e` are digits, so there is no word boundary at `e`.
      SampleCardChars();
    } else if e < 57 {
      // The card number's first fifteen characters hold only twelve digits.
      CardDigitCounts();
      DigitCountSlices(Sample, 41, e, 56);
    }
  }

  /** A phone number that starts with a digit has no prefix, so it is at most sixteen long. */
  lemma PhoneFromDigitShort(w: string)
    requires IsPhone(w) && |w| > 0 && IsDigit(w[0])
    ensures |w| <= 16
  {
    if !Spells(w, PhoneCore) {
      FirstPieceChar(w, PhonePrefix + PhoneCore);
    }
    CoreBounded();
    SpellsAtMost(w, PhoneCore);
  }

  lemma CoreBounded()
    ensures Bounded(PhoneCore) && MaxLength(PhoneCore) == 16
  {
  }

  /** A phone number at index 41 is shorter than the card number there. */
  lemma PhoneAt41Short(e: int)
    requires MatchAt(Phone, Sample, 41, e)
    ensures e < 60
  {
    SampleChars();
    MatchNonEmpty(Phone, Sample, 41, e);
    assert Sample[41..e][0] == Sample[41];
    PhoneFromDigitShort(Sample[41..e]);
  }

  /** No e-mail address starts at or after index 20. */
  lemma NoEmailFrom20(s: int, e: int)
    requires s >= 20
    ensures !MatchAt(Email, Sample, s, e)
  {
    if MatchAt(Email, Sample, s, e) {
      EmailHasAt(Sample, s, e);
      SampleNoAt();
    }
  }

  // ---------------------------------------------------------------------------------------------
  // The three matches

  /** Spelling a suffix of `w` one piece further back. */
  lemma SpellsSlice(w: string, ps: seq<Piece>, n: nat, i: nat, j: nat)
    requires n < |ps| && i <= j <= |w|
    requires Admits(ps[n], j - i) && AllIn(w[i..j], ps[n].cls) && Spells(w[j..], ps[n + 1..])
    ensures Spells(w[i..], ps[n..])
  {
    assert ps[n..][1..] == ps[n + 1..];
    assert w[i..] == w[i..j] + w[j..];
    SpellsCons(w[i..j], w[j..], ps[n..]);
  }

  /** The characters of `+1-415-555-1212`. */
  predicate NumberShape(w: string)
  {
    && |w| == 15 && w[0] == '+' && w[2] == '-' && w[6] == '-' && w[10] == '-'
    && (forall i :: 0 <= i < 15 && i != 0 && i != 2 && i != 6 && i != 10 ==> IsDigit(w[i]))
  }

  /** The pieces of a phone number with the international prefix, one by one. */
  predicate PrefixedPieces(ps: seq<Piece>)
  {
    && |ps| == 10
    && ps[0] == Piece(Exactly('+'), 1, AtMost(1)) && ps[1] == Piece(Digit, 1, AtMost(3))
    && ps[2] == Piece(SpaceOrHyphen, 0, AtMost(1)) && ps[3] == Piece(Exactly('('), 0, AtMost(1))
    && ps[4] == Piece(Digit, 2, AtMost(4)) && ps[5] == Piece(Exactly(')'), 0, AtMost(1))
    && ps[6] == Piece(SpaceOrHyphen, 0, AtMost(1)) && ps[7] == Piece(Digit, 3, AtMost(4))
    && ps[8] == Piece(SpaceOrHyphen, 0, AtMost(1)) && ps[9] == Piece(Digit, 3, AtMost(4))
  }

  // A word shaped like `+1-415-555-1212` spells the pieces of a phone number with the
  // international prefix, proved from the last piece back in three stretches. Working from the
  // shapes rather than from the literals keeps the verifier from unfolding `Spells` on them.

  lemma ShapeSpellsLine(w: string, ps: seq<Piece>)
    requires NumberShape(w) && PrefixedPieces(ps)
    ensures Spells(w[6..], ps[6..])
  {
    assert w[15..] == [];
    SpellsSlice(w, ps, 9, 11, 15);
    SpellsSlice(w, ps, 8, 10, 11);
    SpellsSlice(w, ps, 7, 7, 10);
    SpellsSlice(w, ps, 6, 6, 7);
  }

  lemma ShapeSpellsArea(w: string, ps: seq<Piece>)
    requires NumberShape(w) && PrefixedPieces(ps)
    ensures Spells(w[3..], ps[3..])
  {
    ShapeSpellsLine(w, ps);
    SpellsSlice(w, ps, 5, 6, 6);
    SpellsSlice(w, ps, 4, 3, 6);
    SpellsSlice(w, ps, 3, 3, 3);
  }

  lemma ShapeSpells(w: string, ps: seq<Piece>)
    requires NumberShape(w) && PrefixedPieces(ps)
    ensures Spells(w, ps)
  {
    ShapeSpellsArea(w, ps);
    SpellsSlice(w, ps, 2, 2, 3);
    SpellsSlice(w, ps, 1, 1, 2);
    SpellsSlice(w, ps, 0, 0, 1);
    assert w[0..] == w && ps[0..] == ps;
  }

  /** `+1-415-555-1212` is a phone number with the international prefix. */
  lemma NumberIsPhone()
    ensures IsPhone(Number)
  {
    assert NumberShape(Number);
    assert PrefixedPieces(PhonePrefix + PhoneCore);
    ShapeSpells(Number, PhonePrefix + PhoneCore);
  }

  lemma AddressAt6()
    ensures MatchAt(Email, Sample, 6, 13)
  {
    SampleWords();
    SampleChars();
    AddressSpells();
  }

  lemma NumberAt20()
    ensures MatchAt(Phone, Sample, 20, 35)
  {
    SampleWords();
    SampleChars();
    NumberIsPhone();
  }

  lemma CardAt41()
    ensures MatchAt(Card, Sample, 41, 60)
  {
    SampleChars();
    SampleCardChars();
    CardDigitCounts();
  }
}

=== FILE: sorting.dfy ===
/**
 * `Array.prototype.sort` with a comparator that compares integer keys lexicographically.
 * The engine's sort is stable, so the result is the unique stable sorted permutation; it is
 * computed here by insertion.
 */
module Sorting {

  type Key = (int, int)

  predicate KeyLe(a: Key, b: Key)
  {
    a.0 < b.0 || (a.0 == b.0 && a.1 <= b.1)
  }

  ghost predicate SortedBy<T>(xs: seq<T>, key: T -> Key)
  {
    forall i, j :: 0 <= i < j < |xs| ==> KeyLe(key(xs[i]), key(xs[j]))
  }

  /** Inserts `x` before the first element whose key is not smaller, so equal keys keep their order. */
  function Insert<T>(x: T, ys: seq<T>, key: T -> Key): (r: seq<T>)
    ensures |r| == |ys| + 1
    ensures multiset(r) == multiset(ys) + multiset{x}
  {
    if |ys| == 0 || KeyLe(key(x), key(ys[0])) then [x] + ys
    else
      assert ys == [ys[0]] + ys[1..];
      [ys[0]] + Insert(x, ys[1..], key)
  }

  function SortBy<T>(xs: seq<T>, key: T -> Key): (r: seq<T>)
    ensures |r| == |xs|
    ensures multiset(r) == multiset(xs)
  {
    if |xs| == 0 then []
    else
      assert xs == [xs[0]] + xs[1..];
      Insert(xs[0], SortBy(xs[1..], key), key)
  }

  lemma {:induction false} InsertSorted<T>(x: T, ys: seq<T>, key: T -> Key)
    requires SortedBy(ys, key)
    ensures SortedBy(Insert(x, ys, key), key)
  {
    if |ys| == 0 || KeyLe(key(x), key(ys[0])) {
    } else {
      InsertSorted(x, ys[1..], key);
      var tail := Insert(x, ys[1..], key);
      var r := [ys[0]] + tail;
      forall j | 0 < j < |r| ensures KeyLe(key(r[0]), key(r[j])) {
        assert r[j] in multiset(tail);
        assert r[j] == x || r[j] in multiset(ys[1..]);
      }
    }
  }

  /** The sort's result is ordered by key. */
  lemma {:induction false} SortBySorted<T>(xs: seq<T>, key: T -> Key)
    ensures SortedBy(SortBy(xs, key), key)
  {
    if |xs| > 0 {
      SortBySorted(xs[1..], key);
      InsertSorted(xs[0], SortBy(xs[1..], key), key);
    }
  }

  /** The elements of `xs` whose key is `k`, in order. */
  function WithKey<T>(xs: seq<T>, key: T -> Key, k: Key): seq<T>
  {
    if |xs| == 0 then []
    else (if key(xs[0]) == k then [xs[0]] else []) + WithKey(xs[1..], key, k)
  }

  lemma {:induction false} InsertWithKey<T>(x: T, ys: seq<T>, key: T -> Key, k: Key)
    ensures WithKey(Insert(x, ys, key), key, k) == (if key(x) == k then [x] else []) + WithKey(ys, key, k)
  {
    if |ys| == 0 || KeyLe(key(x), key(ys[0])) {
      assert ([x] + ys)[1..] == ys;
    } else {
      InsertWithKey(x, ys[1..], key, k);
      assert ([ys[0]] + Insert(x, ys[1..], key))[1..] == Insert(x, ys[1..], key);
    }
  }

  /** Stability: for every key, the elements carrying it keep their relative order. */
  lemma {:induction false} SortByStable<T>(xs: seq<T>, key: T -> Key, k: Key)
    ensures WithKey(SortBy(xs, key), key, k) == WithKey(xs, key, k)
  {
    if |xs| > 0 {
      SortByStable(xs[1..], key, k);
      InsertWithKey(xs[0], SortBy(xs[1..], key), key, k);
    }
  }
}

=== FILE: spans.dfy ===
/** Redaction spans: half-open character ranges of the original text, each with a label. */
module Spans {

  datatype Label = EMAIL | PHONE | CARD

  function LabelName(l: Label): string
  {
    match l
    case EMAIL => "EMAIL"
    case PHONE => "PHONE"
    case CARD => "CARD"
  }

  /** The text that replaces a span in the masked output: `[EMAIL]`, `[PHONE]` or `[CARD]`. */
  function Placeholder(l: Label): (r: string)
    ensures |r| >= 2 && r[0] == '[' && r[|r| - 1] == ']'
    ensures r[1..|r| - 1] == LabelName(l)
  {
    "[" + LabelName(l) + "]"
  }

  /** Distinct labels have distinct placeholders, so a placeholder names its label. */
  lemma PlaceholderInjective(l: Label, m: Label)
    ensures Placeholder(l) == Placeholder(m) ==> l == m
  {
    if Placeholder(l) == Placeholder(m) {
      assert LabelName(l) == Placeholder(l)[1..|Placeholder(l)| - 1];
      assert LabelName(l) == LabelName(m);
      assert LabelName(l)[0] == LabelName(m)[0];
    }
  }

  /** `{ start, end, label }`; `label` is a Dafny keyword, so the field is called `kind`. */
  datatype Span = Span(start: int, end: int, kind: Label)

  ghost predicate WellFormed(ss: seq<Span>)
  {
    forall i :: 0 <= i < |ss| ==> ss[i].start <= ss[i].end
  }

  ghost predicate InBounds(ss: seq<Span>, n: int)
  {
    forall i :: 0 <= i < |ss| ==> 0 <= ss[i].start <= ss[i].end <= n
  }

  /** Ordered by start. */
  ghost predicate StartSorted(ss: seq<Span>)
  {
    forall i, j :: 0 <= i < j < |ss| ==> ss[i].start <= ss[j].start
  }

  /** Each span ends strictly before the next one starts: neither overlapping nor touching. */
  ghost predicate Separated(ss: seq<Span>)
  {
    forall i :: 0 <= i < |ss| - 1 ==> ss[i].end < ss[i + 1].start
  }

  /** Each span ends no later than the next one starts. */
  ghost predicate Disjoint(ss: seq<Span>)
  {
    forall i :: 0 <= i < |ss| - 1 ==> ss[i].end <= ss[i + 1].start
  }

  /** Character position `k` lies inside some span of `ss`. */
  ghost predicate Covers(ss: seq<Span>, k: int)
  {
    exists i :: 0 <= i < |ss| && ss[i].start <= k < ss[i].end
  }

  /** The largest end among the spans. */
  function MaxEnd(ss: seq<Span>): (m: int)
    requires |ss| > 0
    ensures forall i :: 0 <= i < |ss| ==> ss[i].end <= m
    ensures exists i :: 0 <= i < |ss| && ss[i].end == m
  {
    if |ss| == 1 then ss[0].end
    else
      var m := MaxEnd(ss[..|ss| - 1]);
      if m < ss[|ss| - 1].end then ss[|ss| - 1].end else m
  }

  lemma SeparatedIsDisjoint(ss: seq<Span>)
    requires Separated(ss)
    ensures Disjoint(ss)
  {
  }

  /** Disjoint and well formed spans are ordered end-to-start across any distance. */
  lemma {:induction false} DisjointTransitive(ss: seq<Span>, i: int, j: int)
    requires WellFormed(ss) && Disjoint(ss)
    requires 0 <= i < j < |ss|
    ensures ss[i].end <= ss[j].start
    decreases j - i
  {
    if j > i + 1 {
      DisjointTransitive(ss, i, j - 1);
    }
  }
}

=== FILE: sseclient.dfy ===
/**
 * The line-buffering server-sent-events decoder of `streamLLMResponse`: chunks of text come in,
 * complete lines are cut off at `'\n'`, and `data: ` lines become tokens, an error, or the end.
 */
module SseClient {
  import opened Wrappers
  import opened JsString

  /**
   * What the decoder reads from a parsed payload: its `content` and `error` fields when they
   * are strings, `None` when they are missing.
   */
  datatype Payload = Payload(content: Option<string>, error: Option<string>)

  /** `JSON.parse` as the decoder sees it: `None` when parsing throws. */
  type Parser = string -> Option<Payload>

  /** The callbacks, in the order they are called. */
  datatype Event = Token(text: string) | Complete | Failure(message: string)

  /** `buffer`, the callbacks made so far, and whether the function has returned. */
  datatype Decoder = Decoder(buffer: string, events: seq<Event>, stopped: bool)

  const Initial: Decoder := Decoder("", [], false)

  const DataPrefix: string := "data: "

  const DoneMarker: string := "[DONE]"

  predicate StartsWith(s: string, prefix: string)
  {
    |prefix| <= |s| && s[..|prefix|] == prefix
  }

  /** JavaScript truthiness of a string field: present and non-empty. */
  predicate Truthy(o: Option<string>)
  {
    o.Some? && |o.value| > 0
  }

  /**
   * The body of the `for (const line of lines)` loop for one line: at most one callback, never
   * taking back an earlier one, and the function returns exactly when that callback is final.
   */
  function HandleLine(d: Decoder, line: string, parse: Parser): (r: Decoder)
    ensures r.buffer == d.buffer
    ensures d.events <= r.events && |r.events| <= |d.events| + 1
    ensures d.stopped ==> r == d
    ensures r.stopped <==> d.stopped || (|r.events| > |d.events| && !r.events[|r.events| - 1].Token?)
  {
    if d.stopped || !StartsWith(line, DataPrefix) then d
    else
      var data := line[|DataPrefix|..];
      if data == DoneMarker then d.(events := d.events + [Complete], stopped := true)
      else
        var parsed := parse(data);
        if parsed.None? then d
        else if Truthy(parsed.value.content) then d.(events := d.events + [Token(parsed.value.content.value)])
        else if Truthy(parsed.value.error) then d.(events := d.events + [Failure(parsed.value.error.value)], stopped := true)
        else d
  }

  /** The lines in order, until one of them makes the function return. */
  function HandleLines(d: Decoder, lines: seq<string>, parse: Parser): (r: Decoder)
    ensures r.buffer == d.buffer && d.events <= r.events
    ensures d.stopped ==> r == d
    decreases |lines|
  {
    if |lines| == 0 then d else HandleLines(HandleLine(d, lines[0], parse), lines[1..], parse)
  }

  /** `s.split('\n')`: the pieces between newlines, always at least one. */
  function SplitLines(s: string): (r: seq<string>)
    ensures |r| >= 1
  {
    if |s| == 0 then [""]
    else
      var rest := SplitLines(s[1..]);
      if s[0] == '\n' then [""] + rest else [[s[0]] + rest[0]] + rest[1..]
  }

  /** One read: append the chunk, keep the unterminated last piece as the buffer, handle the rest. */
  function Feed(d: Decoder, chunk: string, parse: Parser): (r: Decoder)
    ensures d.events <= r.events
    ensures d.stopped ==> r == d
  {
    if d.stopped then d
    else
      var lines := SplitLines(d.buffer + chunk);
      var n := |lines| - 1;
      HandleLines(d.(buffer := lines[n]), lines[..n], parse)
  }

  /** The read loop over a sequence of chunks. */
  function Run(d: Decoder, chunks: seq<string>, parse: Parser): (r: Decoder)
    ensures d.events <= r.events
    ensures d.stopped ==> r == d
    decreases |chunks|
  {
    if |chunks| == 0 then d else Run(Feed(d, chunks[0], parse), chunks[1..], parse)
  }

  /** After the loop: a function that has not returned yet calls `onComplete`; the buffer is dropped. */
  function Outcome(d: Decoder): seq<Event>
  {
    if d.stopped then d.events else d.events + [Complete]
  }

  /** The callbacks for a response: a non-OK status reports an error, an OK one is decoded. */
  function ClientEvents(status: nat, chunks: seq<string>, parse: Parser): (es: seq<Event>)
    ensures |es| > 0 && !es[|es| - 1].Token?
    ensures forall i :: 0 <= i < |es| - 1 ==> es[i].Token?
  {
    if 200 <= status <= 299 then CallbacksEndOnce(chunks, parse); Outcome(Run(Initial, chunks, parse))
    else [Failure("HTTP error! status: " + NatToString(status))]
  }

  // ---------------------------------------------------------------------------------------------
  // Splitting into lines

  /** The lines, each followed by a newline. */
  function Terminated(lines: seq<string>): string
  {
    if |lines| == 0 then [] else lines[0] + "\n" + Terminated(lines[1..])
  }

  function AllButLast(r: seq<string>): seq<string>
    requires |r| >= 1
  {
    r[..|r| - 1]
  }

  function LastOf(r: seq<string>): string
    requires |r| >= 1
  {
    r[|r| - 1]
  }

  /** No piece of the split contains a newline. */
  lemma {:induction false} SplitNoNewline(s: string)
    ensures forall i :: 0 <= i < |SplitLines(s)| ==> '\n' !in SplitLines(s)[i]
  {
    if |s| > 0 {
      SplitNoNewline(s[1..]);
      var rest := SplitLines(s[1..]);
      var r := SplitLines(s);
      if s[0] != '\n' {
        forall i | 0 <= i < |r| ensures '\n' !in r[i] {
          if i == 0 {
            assert r[0] == [s[0]] + rest[0];
          } else {
            assert r[i] == rest[i];
          }
        }
      } else {
        forall i | 0 <= i < |r| ensures '\n' !in r[i] {
          if i > 0 {
            assert r[i] == rest[i - 1];
          }
        }
      }
    }
  }

  /** Putting the newlines back between the pieces gives the string again. */
  lemma {:induction false} SplitRoundTrip(s: string)
    ensures s == Terminated(AllButLast(SplitLines(s))) + LastOf(SplitLines(s))
  {
    if |s| > 0 {
      SplitRoundTrip(s[1..]);
      var rest := SplitLines(s[1..]);
      var r := SplitLines(s);
      if s[0] == '\n' {
        assert AllButLast(r) == [""] + AllButLast(rest);
        assert LastOf(r) == LastOf(rest);
        assert Terminated(AllButLast(r)) == "" + "\n" + Terminated(AllButLast(rest)) by {
          assert AllButLast(r)[1..] == AllButLast(rest);
        }
      } else if |rest| == 1 {
        assert AllButLast(rest) == [];
        assert AllButLast(r) == [];
        assert LastOf(r) == [s[0]] + rest[0];
      } else {
        var head := [s[0]] + rest[0];
        assert AllButLast(r) == [head] + AllButLast(rest)[1..];
        assert LastOf(r) == LastOf(rest);
        assert Terminated(AllButLast(r)) == head + "\n" + Terminated(AllButLast(rest)[1..]) by {
          assert AllButLast(r)[1..] == AllButLast(rest)[1..];
        }
        assert Terminated(AllButLast(rest)) == rest[0] + "\n" + Terminated(AllButLast(rest)[1..]);
      }
    }
  }

  lemma {:induction false} SplitWithoutNewline(s: string)
    requires '\n' !in s
    ensures SplitLines(s) == [s]
  {
    if |s| > 0 {
      assert '\n' !in s[1..] by {
        forall k | 0 <= k < |s| - 1 ensures s[1..][k] != '\n' {
          assert s[1..][k] == s[k + 1];
        }
      }
      SplitWithoutNewline(s[1..]);
      assert [s[0]] + s[1..] == s;
    }
  }

  /** A line without newlines, a newline, and the rest split into that line and the rest's pieces. */
  lemma {:induction false} SplitAfterLine(b: string, s: string)
    requires '\n' !in b
    ensures SplitLines(b + "\n" + s) == [b] + SplitLines(s)
  {
    if |b| == 0 {
      assert b + "\n" + s == ['\n'] + s;
      assert (['\n'] + s)[1..] == s;
    } else {
      var t := b + "\n" + s;
      assert t[0] == b[0] && t[1..] == b[1..] + "\n" + s;
      assert '\n' !in b[1..] by {
        forall k | 0 <= k < |b| - 1 ensures b[1..][k] != '\n' {
          assert b[1..][k] == b[k + 1];
        }
      }
      SplitAfterLine(b[1..], s);
      assert [b[0]] + b[1..] == b;
    }
  }

  // ---------------------------------------------------------------------------------------------
  // The decoder one character at a time

  /** A newline completes the buffered line; any other character is buffered. */
  function PushChar(d: Decoder, c: char, parse: Parser): Decoder
  {
    if d.stopped then d
    else if c == '\n' then HandleLine(d.(buffer := []), d.buffer, parse)
    else d.(buffer := d.buffer + [c])
  }

  function PushChars(d: Decoder, s: string, parse: Parser): Decoder
    decreases |s|
  {
    if |s| == 0 then d else PushChars(PushChar(d, s[0], parse), s[1..], parse)
  }

  /** Two decoder states that will behave alike: the buffer only matters while running. */
  predicate Same(a: Decoder, b: Decoder)
  {
    a.events == b.events && a.stopped == b.stopped && (!a.stopped ==> a.buffer == b.buffer)
  }

  /** The buffer never holds a complete line while the decoder runs. */
  predicate Clean(d: Decoder)
  {
    d.stopped || '\n' !in d.buffer
  }

  lemma HandleLineKeepsBuffer(d: Decoder, line: string, parse: Parser, x: string)
    ensures HandleLine(d.(buffer := x), line, parse) == HandleLine(d, line, parse).(buffer := x)
    ensures HandleLine(d, line, parse).buffer == d.buffer
    ensures d.stopped ==> HandleLine(d, line, parse) == d
  {
  }

  lemma {:induction false} HandleLinesKeepsBuffer(d: Decoder, lines: seq<string>, parse: Parser, x: string)
    ensures HandleLines(d.(buffer := x), lines, parse) == HandleLines(d, lines, parse).(buffer := x)
    ensures HandleLines(d, lines, parse).buffer == d.buffer
    ensures d.stopped ==> HandleLines(d, lines, parse) == d
    decreases |lines|
  {
    if |lines| > 0 {
      HandleLineKeepsBuffer(d, lines[0], parse, x);
      HandleLinesKeepsBuffer(HandleLine(d, lines[0], parse), lines[1..], parse, x);
    }
  }

  lemma {:induction false} PushCharsStopped(d: Decoder, s: string, parse: Parser)
    requires d.stopped
    ensures PushChars(d, s, parse) == d
    decreases |s|
  {
    if |s| > 0 {
      PushCharsStopped(d, s[1..], parse);
    }
  }

  lemma {:induction false} PushCharsAppend(d: Decoder, a: string, b: string, parse: Parser)
    ensures PushChars(d, a + b, parse) == PushChars(PushChars(d, a, parse), b, parse)
    decreases |a|
  {
    if |a| == 0 {
      assert a + b == b;
    } else {
      assert (a + b)[0] == a[0] && (a + b)[1..] == a[1..] + b;
      PushCharsAppend(PushChar(d, a[0], parse), a[1..], b, parse);
    }
  }

  /** Characters without a newline are only buffered. */
  lemma {:induction false} PushCharsNoNewline(d: Decoder, s: string, parse: Parser)
    requires !d.stopped && '\n' !in s
    ensures PushChars(d, s, parse) == d.(buffer := d.buffer + s)
    decreases |s|
  {
    if |s| == 0 {
      assert d.buffer + s == d.buffer;
    } else {
      assert '\n' !in s[1..] by {
        forall k | 0 <= k < |s| - 1 ensures s[1..][k] != '\n' {
          assert s[1..][k] == s[k + 1];
        }
      }
      PushCharsNoNewline(d.(buffer := d.buffer + [s[0]]), s[1..], parse);
      assert d.buffer + [s[0]] + s[1..] == d.buffer + s;
    }
  }

  lemma PushOneStep(b: string, s: string)
    requires '\n' !in b && |s| > 0 && s[0] != '\n'
    ensures '\n' !in b + [s[0]]
    ensures (b + [s[0]]) + s[1..] == b + s
  {
    assert s == [s[0]] + s[1..];
    forall k | 0 <= k < |b| + 1 ensures (b + [s[0]])[k] != '\n' {
      if k < |b| {
        assert (b + [s[0]])[k] == b[k];
      }
    }
  }

  lemma PushLineStep(d: Decoder, s: string, parse: Parser)
    requires !d.stopped && '\n' !in d.buffer && |s| > 0 && s[0] == '\n'
    ensures SplitLines(d.buffer + s) == [d.buffer] + SplitLines(s[1..])
  {
    assert d.buffer + s == d.buffer + "\n" + s[1..];
    SplitAfterLine(d.buffer, s[1..]);
  }

  /**
   * Pushing characters one at a time handles the same complete lines, in the same order, and
   * leaves the same unterminated rest as splitting the buffer and the characters at once.
   */
  lemma {:induction false} PushCharsIsSplit(d: Decoder, s: string, parse: Parser)
    requires !d.stopped && '\n' !in d.buffer
    ensures Same(PushChars(d, s, parse),
                 HandleLines(d.(buffer := LastOf(SplitLines(d.buffer + s))), AllButLast(SplitLines(d.buffer + s)), parse))
    decreases |s|
  {
    if |s| == 0 {
      assert d.buffer + s == d.buffer;
      SplitWithoutNewline(d.buffer);
    } else if s[0] != '\n' {
      PushOneStep(d.buffer, s);
      var d' := d.(buffer := d.buffer + [s[0]]);
      PushCharsIsSplit(d', s[1..], parse);
    } else {
      PushLineStep(d, s, parse);
      var e := HandleLine(d.(buffer := []), d.buffer, parse);
      var rest := SplitLines(s[1..]);
      var x := LastOf(rest);
      assert AllButLast([d.buffer] + rest) == [d.buffer] + AllButLast(rest);
      assert LastOf([d.buffer] + rest) == x;
      HandleLineKeepsBuffer(d.(buffer := []), d.buffer, parse, x);
      assert HandleLines(d.(buffer := x), [d.buffer] + AllButLast(rest), parse)
          == HandleLines(e.(buffer := x), AllButLast(rest), parse);
      if e.stopped {
        PushCharsStopped(e, s[1..], parse);
        HandleLinesKeepsBuffer(e, AllButLast(rest), parse, x);
      } else {
        assert e.buffer == [];
        assert [] + s[1..] == s[1..];
        PushCharsIsSplit(e, s[1..], parse);
      }
    }
  }

  /** One read of the source's loop does what pushing its characters one at a time does. */
  lemma FeedIsPushChars(d: Decoder, chunk: string, parse: Parser)
    requires Clean(d)
    ensures Same(Feed(d, chunk, parse), PushChars(d, chunk, parse))
    ensures Clean(Feed(d, chunk, parse))
  {
    if d.stopped {
      PushCharsStopped(d, chunk, parse);
    } else {
      var lines := SplitLines(d.buffer + chunk);
      PushCharsIsSplit(d, chunk, parse);
      HandleLinesKeepsBuffer(d, AllButLast(lines), parse, LastOf(lines));
      SplitNoNewline(d.buffer + chunk);
    }
  }

  lemma SameStep(a: Decoder, b: Decoder, chunk: string, parse: Parser)
    requires Same(a, b) && Clean(a)
    ensures Same(Feed(a, chunk, parse), PushChars(b, chunk, parse))
    ensures Clean(Feed(a, chunk, parse))
  {
    FeedIsPushChars(a, chunk, parse);
    if a.stopped {
      PushCharsStopped(b, chunk, parse);
    } else {
      assert a == b;
    }
  }

  /** Reading chunk after chunk does what pushing all their characters does. */
  lemma {:induction false} RunIsPushChars(a: Decoder, b: Decoder, chunks: seq<string>, parse: Parser)
    requires Same(a, b) && Clean(a)
    ensures Same(Run(a, chunks, parse), PushChars(b, Concat(chunks), parse))
    decreases |chunks|
  {
    if |chunks| > 0 {
      SameStep(a, b, chunks[0], parse);
      RunIsPushChars(Feed(a, chunks[0], parse), PushChars(b, chunks[0], parse), chunks[1..], parse);
      PushCharsAppend(b, chunks[0], Concat(chunks[1..]), parse);
    }
  }

  /** The whole stream decoded at once: every complete line handled in order, then the end. */
  function DecodeWhole(text: string, parse: Parser): seq<Event>
  {
    Outcome(HandleLines(Initial, AllButLast(SplitLines(text)), parse))
  }

  /** However the stream is cut into chunks, the callbacks are those of decoding it whole. */
  lemma ChunkingInvariant(chunks: seq<string>, parse: Parser)
    ensures Outcome(Run(Initial, chunks, parse)) == DecodeWhole(Concat(chunks), parse)
  {
    var text := Concat(chunks);
    RunIsPushChars(Initial, Initial, chunks, parse);
    PushCharsIsSplit(Initial, text, parse);
    assert Initial.buffer + text == text;
    HandleLinesKeepsBuffer(Initial, AllButLast(SplitLines(text)), parse, LastOf(SplitLines(text)));
    assert Initial.(buffer := LastOf(SplitLines(text))) == Initial.(buffer := LastOf(SplitLines(text)));
  }

  /**
   * While the decoder runs, the buffer holds no newline and is exactly the unterminated rest:
   * what was received is the complete lines, each with its newline, then the buffer.
   */
  lemma BufferInvariant(chunks: seq<string>, parse: Parser)
    requires !Run(Initial, chunks, parse).stopped
    ensures '\n' !in Run(Initial, chunks, parse).buffer
    ensures Concat(chunks) == Terminated(AllButLast(SplitLines(Concat(chunks)))) + Run(Initial, chunks, parse).buffer
  {
    var text := Concat(chunks);
    RunIsPushChars(Initial, Initial, chunks, parse);
    PushCharsIsSplit(Initial, text, parse);
    assert Initial.buffer + text == text;
    HandleLinesKeepsBuffer(Initial, AllButLast(SplitLines(text)), parse, LastOf(SplitLines(text)));
    SplitRoundTrip(text);
    SplitNoNewline(text);
  }

  // ---------------------------------------------------------------------------------------------
  // The shape of the callbacks

  /** Only tokens so far, except that a decoder which has returned ended with one `Complete` or `Failure`. */
  predicate EndsOnce(d: Decoder)
  {
    && (forall i :: 0 <= i < |d.events| ==> d.events[i].Token? || (d.stopped && i == |d.events| - 1))
    && (d.stopped ==> |d.events| > 0 && !d.events[|d.events| - 1].Token?)
  }

  lemma HandleLineEndsOnce(d: Decoder, line: string, parse: Parser)
    requires EndsOnce(d)
    ensures EndsOnce(HandleLine(d, line, parse))
  {
  }

  lemma {:induction false} HandleLinesEndsOnce(d: Decoder, lines: seq<string>, parse: Parser)
    requires EndsOnce(d)
    ensures EndsOnce(HandleLines(d, lines, parse))
    decreases |lines|
  {
    if |lines| > 0 {
      HandleLineEndsOnce(d, lines[0], parse);
      HandleLinesEndsOnce(HandleLine(d, lines[0], parse), lines[1..], parse);
    }
  }

  lemma {:induction false} RunEndsOnce(d: Decoder, chunks: seq<string>, parse: Parser)
    requires EndsOnce(d)
    ensures EndsOnce(Run(d, chunks, parse))
    decreases |chunks|
  {
    if |chunks| > 0 {
      if !d.stopped {
        var lines := SplitLines(d.buffer + chunks[0]);
        HandleLinesEndsOnce(d.(buffer := lines[|lines| - 1]), lines[..|lines| - 1], parse);
      }
      RunEndsOnce(Feed(d, chunks[0], parse), chunks[1..], parse);
    }
  }

  /**
   * The callbacks of an OK response are tokens followed by exactly one `onComplete` or
   * `onError`, and nothing after it.
   */
  lemma CallbacksEndOnce(chunks: seq<string>, parse: Parser)
    ensures var es := Outcome(Run(Initial, chunks, parse));
      && |es| > 0
      && !es[|es| - 1].Token?
      && forall i :: 0 <= i < |es| - 1 ==> es[i].Token?
  {
    RunEndsOnce(Initial, chunks, parse);
  }

  // ---------------------------------------------------------------------------------------------
  // Lines the decoder ignores

  /**
   * A line with no effect: it does not start with `data: `, or its payload is not `[DONE]` and
   * either fails to parse or has neither a non-empty `content` nor a non-empty `error`.
   */
  predicate Ignored(line: string, parse: Parser)
  {
    !StartsWith(line, DataPrefix) ||
    (var data := line[|DataPrefix|..];
     data != DoneMarker && (parse(data).None? || (!Truthy(parse(data).value.content) && !Truthy(parse(data).value.error))))
  }

  lemma {:induction false} HandleLinesAppend(d: Decoder, a: seq<string>, b: seq<string>, parse: Parser)
    ensures HandleLines(d, a + b, parse) == HandleLines(HandleLines(d, a, parse), b, parse)
    decreases |a|
  {
    if |a| > 0 {
      assert (a + b)[0] == a[0] && (a + b)[1..] == a[1..] + b;
      HandleLinesAppend(HandleLine(d, a[0], parse), a[1..], b, parse);
    } else {
      assert a + b == b;
    }
  }

  /** Complete lines in front of a rest split into those lines and the rest's pieces. */
  lemma {:induction false} SplitTerminated(ls: seq<string>, x: string)
    requires forall i :: 0 <= i < |ls| ==> '\n' !in ls[i]
    ensures SplitLines(Terminated(ls) + x) == ls + SplitLines(x)
    decreases |ls|
  {
    if |ls| > 0 {
      var tail := Terminated(ls[1..]) + x;
      assert Terminated(ls) + x == ls[0] + "\n" + tail;
      SplitAfterLine(ls[0], tail);
      SplitTerminated(ls[1..], x);
      assert ls == [ls[0]] + ls[1..];
    } else {
      assert Terminated(ls) + x == x;
    }
  }

  lemma AllButLastAppend(a: seq<string>, b: seq<string>)
    requires |b| >= 1
    ensures AllButLast(a + b) == a + AllButLast(b)
  {
    assert (a + b)[..|a + b| - 1] == a + b[..|b| - 1];
  }

  /** The complete lines of complete lines followed by a rest: those lines, then the rest's. */
  lemma LinesOf(ls: seq<string>, rest: string)
    requires forall i :: 0 <= i < |ls| ==> '\n' !in ls[i]
    ensures AllButLast(SplitLines(Terminated(ls) + rest)) == ls + AllButLast(SplitLines(rest))
  {
    SplitTerminated(ls, rest);
    AllButLastAppend(ls, SplitLines(rest));
  }

  lemma LinesWithLine(ls: seq<string>, line: string, rest: string)
    requires forall i :: 0 <= i < |ls| ==> '\n' !in ls[i]
    requires '\n' !in line
    ensures AllButLast(SplitLines(Terminated(ls) + line + "\n" + rest)) == ls + ([line] + AllButLast(SplitLines(rest)))
  {
    assert Terminated(ls) + line + "\n" + rest == Terminated(ls) + (line + "\n" + rest);
    LinesOf(ls, line + "\n" + rest);
    SplitAfterLine(line, rest);
    AllButLastAppend([line], SplitLines(rest));
  }

  lemma SkipIgnored(d: Decoder, line: string, body: seq<string>, parse: Parser)
    requires Ignored(line, parse)
    ensures HandleLines(d, [line] + body, parse) == HandleLines(d, body, parse)
  {
    assert ([line] + body)[0] == line && ([line] + body)[1..] == body;
    assert HandleLine(d, line, parse) == d;
  }

  /** An ignored line may be added between any two complete lines without changing the callbacks. */
  lemma IgnoredLineInvisible(ls: seq<string>, line: string, rest: string, parse: Parser)
    requires forall i :: 0 <= i < |ls| ==> '\n' !in ls[i]
    requires '\n' !in line && Ignored(line, parse)
    ensures DecodeWhole(Terminated(ls) + line + "\n" + rest, parse) == DecodeWhole(Terminated(ls) + rest, parse)
  {
    var body := AllButLast(SplitLines(rest));
    LinesWithLine(ls, line, rest);
    LinesOf(ls, rest);
    HandleLinesAppend(Initial, ls, [line] + body, parse);
    HandleLinesAppend(Initial, ls, body, parse);
    SkipIgnored(HandleLines(Initial, ls, parse), line, body, parse);
  }
}

=== FILE: webimage.dfy ===
/** `pixelateRegions`: normalised boxes turned into canvas rectangles and mosaicked. */
module WebPixelate {
  import opened Wrappers
  import opened JsString
  import opened Raster

  /** A box in fractions of the image size. */
  datatype NormBox = NormBox(x: real, y: real, w: real, h: real)

  const DefaultIntensity: real := 0.04

  /** `Math.ceil`. */
  function Ceil(v: real): (n: int)
    ensures v <= n as real < v + 1.0
  {
    -((-v).Floor)
  }

  /** `img.naturalWidth || img.width`: a zero natural size falls back to the element size. */
  function SourceSize(natural: nat, fallback: nat): nat
  {
    if natural != 0 then natural else fallback
  }

  /** `Math.max(0, Math.floor(f * n))`: where a box starts along a side of `n` pixels. */
  function AxisStart(f: real, n: nat): int
  {
    Max(0, (f * n as real).Floor)
  }

  /** `Math.min(n - start, Math.ceil(size * n))`: how far it extends. */
  function AxisLength(f: real, size: real, n: nat): int
  {
    Min(n - AxisStart(f, n), Ceil(size * n as real))
  }

  lemma {:induction false} AxisFacts(f: real, size: real, n: nat)
    ensures AxisStart(f, n) >= 0 && AxisStart(f, n) + AxisLength(f, size, n) <= n
    ensures AxisStart(f, n) == (if f < 0.0 then 0 else (f * n as real).Floor)
    ensures n >= 1 ==> (AxisLength(f, size, n) > 0 <==> f < 1.0 && size > 0.0)
    ensures n == 0 ==> AxisLength(f, size, n) <= 0
  {
    SignOfFloor(f, n);
    if n >= 1 {
      if f >= 1.0 {
        assert f * n as real >= 1.0 * n as real;
      } else {
        assert f * n as real < 1.0 * n as real;
      }
      if size > 0.0 {
        assert size * n as real > 0.0;
      } else {
        assert size * n as real <= 0.0;
      }
    }
  }

  /** The pixel rectangle of `b` on a `width` by `height` canvas, or `None` when the loop skips it. */
  function PixelRect(b: NormBox, width: nat, height: nat): (r: Option<Rect>)
    ensures r.Some? ==> Fits(r.value, width, height)
    ensures width >= 1 && height >= 1 ==> (r.None? <==> b.x >= 1.0 || b.y >= 1.0 || b.w <= 0.0 || b.h <= 0.0)
    ensures width == 0 || height == 0 ==> r.None?
    ensures r.Some? ==> r.value.x == (if b.x < 0.0 then 0 else (b.x * width as real).Floor)
    ensures r.Some? ==> r.value.y == (if b.y < 0.0 then 0 else (b.y * height as real).Floor)
  {
    AxisFacts(b.x, b.w, width);
    AxisFacts(b.y, b.h, height);
    var w := AxisLength(b.x, b.w, width);
    var h := AxisLength(b.y, b.h, height);
    if w <= 0 || h <= 0 then None else Some(Rect(AxisStart(b.x, width), AxisStart(b.y, height), w, h))
  }

  /** A negative fraction of a canvas side floors to a non-positive pixel index, a non-negative one to a non-negative index. */
  lemma SignOfFloor(f: real, n: nat)
    ensures f < 0.0 ==> (f * n as real).Floor <= 0
    ensures f >= 0.0 ==> (f * n as real).Floor >= 0
  {
  }

  /** A box starting just left of the image is moved to column 0. */
  lemma NegativeOriginClamps(width: nat, height: nat)
    requires width >= 1 && height >= 1
    ensures PixelRect(NormBox(-0.1, 0.0, 0.5, 0.5), width, height).Some?
    ensures PixelRect(NormBox(-0.1, 0.0, 0.5, 0.5), width, height).value.x == 0
  {
  }

  /** `max(1, floor(side * intensity))`: the size of the downsampled copy along one side. */
  function DownSize(side: int, intensity: real): (n: int)
    ensures n >= 1
    ensures side >= 1 && 0.0 <= intensity <= 1.0 ==> n <= side
    ensures side >= 1 && intensity * side as real >= 1.0 ==> n == (side as real * intensity).Floor
  {
    ScaleBelow(side, intensity);
    Max(1, (side as real * intensity).Floor)
  }

  lemma ScaleBelow(side: int, intensity: real)
    ensures side >= 1 && 0.0 <= intensity <= 1.0 ==> side as real * intensity <= side as real
  {
    if side >= 1 && 0.0 <= intensity <= 1.0 {
      assert side as real * intensity <= side as real * 1.0;
    }
  }

  /** `rc` grown by `d` pixels on every side. */
  function Widen(rc: Rect, d: nat): Rect
  {
    Rect(rc.x - d, rc.y - d, rc.w + 2 * d, rc.h + 2 * d)
  }

  /**
   * The canvas work for one rectangle, in two parts. `mosaic` is lines 42-44: downsample the
   * rectangle to `sw` by `sh` and draw it back scaled up. `blur` is lines 47-48: redraw the
   * rectangle through `blur(4px)`, whose output reaches up to `spread` pixels past it.
   */
  datatype CanvasOps = CanvasOps(mosaic: (Image, Rect, int, int) -> Image, blur: (Image, Rect) -> Image, spread: nat)

  /** The mosaic keeps the canvas size and draws only inside the destination rectangle. */
  ghost predicate MosaicsInside(mosaic: (Image, Rect, int, int) -> Image)
  {
    forall im, rc, sw, sh :: Valid(im) && Fits(rc, im.width, im.height) ==>
      Valid(mosaic(im, rc, sw, sh)) && SameSize(mosaic(im, rc, sw, sh), im) &&
      forall r, c :: 0 <= r < im.height && 0 <= c < im.width && !InRect(rc, r, c) ==> mosaic(im, rc, sw, sh).px[r][c] == im.px[r][c]
  }

  /** The blurred redraw keeps the canvas size and changes nothing more than `spread` pixels away. */
  ghost predicate BlursNear(blur: (Image, Rect) -> Image, spread: nat)
  {
    forall im, rc :: Valid(im) && Fits(rc, im.width, im.height) ==>
      Valid(blur(im, rc)) && SameSize(blur(im, rc), im) &&
      forall r, c :: 0 <= r < im.height && 0 <= c < im.width && !InRect(Widen(rc, spread), r, c) ==> blur(im, rc).px[r][c] == im.px[r][c]
  }

  ghost predicate Sound(ops: CanvasOps)
  {
    MosaicsInside(ops.mosaic) && BlursNear(ops.blur, ops.spread)
  }

  lemma WidenContains(rc: Rect, d: nat, r: int, c: int)
    requires InRect(rc, r, c)
    ensures InRect(Widen(rc, d), r, c)
  {
  }

  /** One iteration of the box loop. */
  function PixelateBox(im: Image, b: NormBox, intensity: real, ops: CanvasOps): (out: Image)
    requires Valid(im) && Sound(ops)
    ensures Valid(out) && SameSize(out, im)
    ensures forall r, c :: 0 <= r < im.height && 0 <= c < im.width && !Reaches(b, im.width, im.height, ops.spread, r, c) ==>
      out.px[r][c] == im.px[r][c]
  {
    match PixelRect(b, im.width, im.height)
    case None => im
    case Some(rc) =>
      PaintOne(im, rc, DownSize(rc.w, intensity), DownSize(rc.h, intensity), ops);
      ops.blur(ops.mosaic(im, rc, DownSize(rc.w, intensity), DownSize(rc.h, intensity)), rc)
  }

  /** Mosaic then blur: the canvas keeps its size, and pixels beyond the blur's reach keep their colour. */
  lemma PaintOne(im: Image, rc: Rect, sw: int, sh: int, ops: CanvasOps)
    requires Valid(im) && Sound(ops) && Fits(rc, im.width, im.height)
    ensures var out := ops.blur(ops.mosaic(im, rc, sw, sh), rc);
      Valid(out) && SameSize(out, im) &&
      forall r, c :: 0 <= r < im.height && 0 <= c < im.width && !InRect(Widen(rc, ops.spread), r, c) ==> out.px[r][c] == im.px[r][c]
  {
    var m := ops.mosaic(im, rc, sw, sh);
    assert Valid(m) && SameSize(m, im);
    var out := ops.blur(m, rc);
    assert Valid(out) && SameSize(out, m);
    forall r, c | 0 <= r < im.height && 0 <= c < im.width && !InRect(Widen(rc, ops.spread), r, c)
      ensures out.px[r][c] == im.px[r][c]
    {
      if InRect(rc, r, c) {
        WidenContains(rc, ops.spread, r, c);
        assert false;
      }
      assert m.px[r][c] == im.px[r][c];
    }
  }

  /** Box `b` is processed and `(r, c)` lies within `spread` pixels of its rectangle. */
  predicate Reaches(b: NormBox, width: nat, height: nat, spread: nat, r: int, c: int)
  {
    PixelRect(b, width, height).Some? && InRect(Widen(PixelRect(b, width, height).value, spread), r, c)
  }

  /** Some box of `bs` is processed and `(r, c)` lies within `spread` pixels of its rectangle. */
  predicate Touched(bs: seq<NormBox>, width: nat, height: nat, spread: nat, r: int, c: int)
  {
    exists i :: 0 <= i < |bs| && Reaches(bs[i], width, height, spread, r, c)
  }

  /** `pixelateRegions` on the canvas holding the decoded image, before PNG encoding. */
  function PixelateRegions(im: Image, bs: seq<NormBox>, intensity: real, ops: CanvasOps): (out: Image)
    requires Valid(im) && Sound(ops)
    ensures Valid(out) && SameSize(out, im)
    ensures forall r, c :: 0 <= r < im.height && 0 <= c < im.width && !Touched(bs, im.width, im.height, ops.spread, r, c) ==>
      out.px[r][c] == im.px[r][c]
    decreases |bs|
  {
    if |bs| == 0 then im
    else
      var mid := PixelateRegions(im, bs[..|bs| - 1], intensity, ops);
      var out := PixelateBox(mid, bs[|bs| - 1], intensity, ops);
      assert forall r, c :: 0 <= r < im.height && 0 <= c < im.width && !Touched(bs, im.width, im.height, ops.spread, r, c) ==>
        !Touched(bs[..|bs| - 1], im.width, im.height, ops.spread, r, c) && !Reaches(bs[|bs| - 1], im.width, im.height, ops.spread, r, c)
      by {
        forall r, c | 0 <= r < im.height && 0 <= c < im.width && Touched(bs[..|bs| - 1], im.width, im.height, ops.spread, r, c)
          ensures Touched(bs, im.width, im.height, ops.spread, r, c)
        {
          var i :| 0 <= i < |bs| - 1 && Reaches(bs[..|bs| - 1][i], im.width, im.height, ops.spread, r, c);
          assert bs[..|bs| - 1][i] == bs[i];
        }
      }
      out
  }

  /**
   * `pixelateRegions` from the loaded image. The canvas takes the image's natural size, or its
   * element size along a side whose natural size is 0, and `intensity` defaults to 0.04. `drawn`
   * is the canvas after `drawImage`, which is modelled by its size alone.
   */
  function PixelateImage(drawn: Image, natural: (nat, nat), element: (nat, nat), bs: seq<NormBox>,
                         intensity: Option<real>, ops: CanvasOps): (out: Image)
    requires Valid(drawn) && Sound(ops)
    requires drawn.width == SourceSize(natural.0, element.0) && drawn.height == SourceSize(natural.1, element.1)
    ensures Valid(out) && SameSize(out, drawn)
    ensures out.width == (if natural.0 > 0 then natural.0 else element.0)
    ensures out.height == (if natural.1 > 0 then natural.1 else element.1)
    ensures forall r, c :: 0 <= r < out.height && 0 <= c < out.width && !Touched(bs, out.width, out.height, ops.spread, r, c) ==>
      out.px[r][c] == drawn.px[r][c]
  {
    PixelateRegions(drawn, bs, intensity.GetOr(DefaultIntensity), ops)
  }

  /**
   * At the default intensity a side shorter than 50 pixels shrinks to one mosaic cell, and a
   * side of 100 pixels to four.
   */
  lemma DefaultCells(side: int)
    requires 1 <= side < 50
    ensures DownSize(side, DefaultIntensity) == 1
    ensures DownSize(100, DefaultIntensity) == 4
  {
    assert side as real * DefaultIntensity < 2.0;
    assert 100.0 * DefaultIntensity == 4.0;
  }

  /** A skipped box changes nothing: it may be dropped from the list. */
  lemma SkippedBoxIsNoOp(im: Image, bs: seq<NormBox>, b: NormBox, intensity: real, ops: CanvasOps)
    requires Valid(im) && Sound(ops)
    requires PixelRect(b, im.width, im.height).None?
    ensures PixelateRegions(im, bs + [b], intensity, ops) == PixelateRegions(im, bs, intensity, ops)
  {
    assert (bs + [b])[..|bs + [b]| - 1] == bs;
  }
}

/** The face-margin expansion in `FaceRedactor.handleFile`. */
module FaceMargin {
  import opened JsString
  import opened WebPixelate

  function RMax(a: real, b: real): real { if a < b then b else a }

  function RMin(a: real, b: real): real { if a < b then a else b }

  /** The intensity the face redactor passes to `pixelateRegions`. */
  const FaceIntensity: real := 0.02

  /** The margins as written: 0.1 left, 0.15 up, width capped at `1 - f.x`, height at `1 - f.y`. */
  function ExpandAsWritten(f: NormBox): (g: NormBox)
    ensures g.x >= 0.0 && g.y >= 0.0
    ensures g.x <= f.x || f.x < 0.0
    ensures g.w <= f.w + 0.2 && g.h <= f.h + 0.3
    ensures f.x >= 0.0 ==> g.x + g.w <= 1.0
    ensures f.y >= 0.0 ==> g.y + g.h <= 1.0
  {
    NormBox(RMax(0.0, f.x - 0.1), RMax(0.0, f.y - 0.15), RMin(1.0 - f.x, f.w + 0.2), RMin(1.0 - f.y, f.h + 0.3))
  }

  /** A face inside the unit square. */
  predicate InUnit(f: NormBox)
  {
    0.0 <= f.x && 0.0 <= f.y && 0.0 <= f.w && 0.0 <= f.h && f.x + f.w <= 1.0 && f.y + f.h <= 1.0
  }

  /** `g` contains `f`. */
  predicate Encloses(g: NormBox, f: NormBox)
  {
    g.x <= f.x && g.y <= f.y && f.x + f.w <= g.x + g.w && f.y + f.h <= g.y + g.h
  }

  /** A face touching the right edge loses a strip 0.1 of the image wide: the cap uses the old left edge. */
  lemma ExpandAsWrittenCutsFace()
    ensures InUnit(NormBox(0.5, 0.0, 0.5, 0.5))
    ensures ExpandAsWritten(NormBox(0.5, 0.0, 0.5, 0.5)).x + ExpandAsWritten(NormBox(0.5, 0.0, 0.5, 0.5)).w == 0.9
    ensures !Encloses(ExpandAsWritten(NormBox(0.5, 0.0, 0.5, 0.5)), NormBox(0.5, 0.0, 0.5, 0.5))
  {
  }

  /** A face touching the bottom edge loses a strip 0.15 of the image high: the cap uses the old top edge. */
  lemma ExpandAsWrittenCutsFaceBelow()
    ensures InUnit(NormBox(0.0, 0.5, 0.5, 0.5))
    ensures ExpandAsWritten(NormBox(0.0, 0.5, 0.5, 0.5)).y + ExpandAsWritten(NormBox(0.0, 0.5, 0.5, 0.5)).h == 0.85
    ensures !Encloses(ExpandAsWritten(NormBox(0.0, 0.5, 0.5, 0.5)), NormBox(0.0, 0.5, 0.5, 0.5))
  {
  }

  /**
   * As written, a face with the full left margin keeps its right edge only up to 0.9, and one
   * with the full top margin keeps its bottom edge only up to 0.85.
   */
  lemma ExpandAsWrittenEdges(f: NormBox)
    ensures f.x >= 0.1 ==> ExpandAsWritten(f).x + ExpandAsWritten(f).w == RMin(0.9, f.x + f.w + 0.1)
    ensures f.y >= 0.15 ==> ExpandAsWritten(f).y + ExpandAsWritten(f).h == RMin(0.85, f.y + f.h + 0.15)
    ensures InUnit(f) && f.x >= 0.1 && f.x + f.w > 0.9 ==> !Encloses(ExpandAsWritten(f), f)
    ensures InUnit(f) && f.y >= 0.15 && f.y + f.h > 0.85 ==> !Encloses(ExpandAsWritten(f), f)
  {
  }

  /** As written, a face inside the image is enclosed when it ends by 0.9 across and 0.85 down. */
  lemma ExpandAsWrittenEncloses(f: NormBox)
    requires InUnit(f) && f.x + f.w <= 0.9 && f.y + f.h <= 0.85
    ensures Encloses(ExpandAsWritten(f), f)
  {
  }

  /** The margins with each cap taken from the expanded origin. */
  function Expand(f: NormBox): (g: NormBox)
    ensures g.x >= 0.0 && g.y >= 0.0
    ensures g.w <= f.w + 0.2 && g.h <= f.h + 0.3
    ensures g.x + g.w <= 1.0 && g.y + g.h <= 1.0
    ensures InUnit(f) ==> Encloses(g, f)
  {
    var x := RMax(0.0, f.x - 0.1);
    var y := RMax(0.0, f.y - 0.15);
    NormBox(x, y, RMin(1.0 - x, f.w + 0.2), RMin(1.0 - y, f.h + 0.3))
  }

  /** A face well inside the image gets the full margin on every side, and both versions agree on it. */
  lemma ExpandFullMargin(f: NormBox)
    requires f.x >= 0.1 && f.y >= 0.15 && f.x + f.w <= 0.8 && f.y + f.h <= 0.7
    ensures Expand(f) == NormBox(f.x - 0.1, f.y - 0.15, f.w + 0.2, f.h + 0.3)
    ensures ExpandAsWritten(f) == Expand(f)
  {
  }

  /** `faces.map(...)` at lines 32-37, as written. */
  function WithMargins(faces: seq<NormBox>): (gs: seq<NormBox>)
    ensures |gs| == |faces|
    ensures forall i :: 0 <= i < |faces| ==> gs[i] == ExpandAsWritten(faces[i])
  {
    seq(|faces|, i requires 0 <= i < |faces| => ExpandAsWritten(faces[i]))
  }

  /** What the redactor reports and draws: the face count, and the pixelated canvas. */
  datatype FaceResult = FaceResult(facesFound: nat, canvas: Raster.Image)

  /** Lines 28-38: count the faces and pixelate their margin boxes at intensity 0.02. */
  function RedactFaces(im: Raster.Image, faces: seq<NormBox>, ops: CanvasOps): (r: FaceResult)
    requires Raster.Valid(im) && Sound(ops)
    ensures r.facesFound == |faces|
    ensures Raster.Valid(r.canvas) && Raster.SameSize(r.canvas, im)
  {
    FaceResult(|faces|, PixelateRegions(im, WithMargins(faces), FaceIntensity, ops))
  }

  /**
   * Every margin box passed to `pixelateRegions` lies inside the image when its face starts
   * inside it, and encloses its face when the face ends by 0.9 across and 0.85 down.
   */
  lemma FacesCovered(faces: seq<NormBox>, i: int)
    requires 0 <= i < |faces| && 0.0 <= faces[i].x && 0.0 <= faces[i].y
    ensures 0.0 <= WithMargins(faces)[i].x && WithMargins(faces)[i].x + WithMargins(faces)[i].w <= 1.0
    ensures 0.0 <= WithMargins(faces)[i].y && WithMargins(faces)[i].y + WithMargins(faces)[i].h <= 1.0
    ensures InUnit(faces[i]) && faces[i].x + faces[i].w <= 0.9 && faces[i].y + faces[i].h <= 0.85 ==>
      Encloses(WithMargins(faces)[i], faces[i])
  {
    if InUnit(faces[i]) && faces[i].x + faces[i].w <= 0.9 && faces[i].y + faces[i].h <= 0.85 {
      ExpandAsWrittenEncloses(faces[i]);
    }
  }

  /** The margin boxes with the corrected caps. */
  function CorrectedMargins(faces: seq<NormBox>): (gs: seq<NormBox>)
    ensures |gs| == |faces|
    ensures forall i :: 0 <= i < |faces| ==> gs[i] == Expand(faces[i])
  {
    seq(|faces|, i requires 0 <= i < |faces| => Expand(faces[i]))
  }

  /** The face redactor with the corrected caps. */
  function CorrectedRedactFaces(im: Raster.Image, faces: seq<NormBox>, ops: CanvasOps): (r: FaceResult)
    requires Raster.Valid(im) && Sound(ops)
    ensures r.facesFound == |faces|
    ensures Raster.Valid(r.canvas) && Raster.SameSize(r.canvas, im)
  {
    FaceResult(|faces|, PixelateRegions(im, CorrectedMargins(faces), FaceIntensity, ops))
  }

  /** With the corrected caps every face inside the image is enclosed by its box, which stays inside the image. */
  lemma CorrectedFacesCovered(faces: seq<NormBox>, i: int)
    requires 0 <= i < |faces| && InUnit(faces[i])
    ensures Encloses(CorrectedMargins(faces)[i], faces[i])
    ensures CorrectedMargins(faces)[i].x + CorrectedMargins(faces)[i].w <= 1.0
    ensures CorrectedMargins(faces)[i].y + CorrectedMargins(faces)[i].h <= 1.0
  {
  }
}

=== FILE: wrappers.dfy ===
/** Failure-compatible wrappers shared by every module of the model. */
module Wrappers {

  /** A value that may be missing: `undefined`/`null` in the source, or a search that found nothing. */
  datatype Option<+T> = None | Some(value: T) {

    /** Returns the wrapped value, or `default` when there is none (the source's `x ?? default`). */
    function GetOr(default: T): T {
      match this
      case Some(v) => v
      case None => default
    }
  }
}
